=== FILE: README.md ===
# Multi-LLM debate pipeline in Dafny

This project models the logic of a three-solver, one-judge debate pipeline
for reasoning problems.

- **Debate.** For each problem:
  - three solver personas each write a solution;
  - every solver reviews the other two solutions;
  - every solver refines its own solution in the light of the two reviews it received;
  - a judge persona picks a winner among the refined solutions.
- **Batch.** A driver runs the debate over a list of problems. Results that
  were already saved are skipped, and a failing problem does not stop the
  others.
- **Evaluation.**
  - The evaluator reads an answer out of each judgment and grades it against
    the expected answer.
  - A chart script and a check script read the judge's winner out of the
    judgment text.
  - Two baselines grade a single model call and a three-call majority vote.

The language model is an oracle throughout:

- **Generation client.** The provider is a function from (attempt number,
  request) to reply. The client's retry loop returns the sleeps it would
  take as a list of durations.
- **Orchestrator.** The debate sees one oracle answer per call; the
  retries happen inside that call.
- **Baselines.** Each baseline call gets its own provider, which answers that
  call's attempts. The call runs the generation client's three-attempt retry
  loop over it, with no system prompt.
- **Batch driver.** It runs each problem's debate against that problem's own
  oracle.

Modules, one per component:

- `Wrappers`: `Option` and `Result`.
- `Text`: the Python `str` operations the code relies on (`strip`, `split`,
  `split()`, `lower`, `upper`, `rstrip(chars)`, `in`), on ASCII.
- `Numerals`: `str(int)`, `int(str)` and the first `\d+\.?\d*` token.
- `Settings`: the persona table.
- `Generation`: prompt composition and the retry loop with exponential backoff.
- `Debate`: stages 0 to 4 and the whole run.
- `Extraction`: `extract_answer`, with its three regular expressions written
  out as hand-made matchers that keep the backtracking semantics.
- `Metrics`: `check_correctness` and `calculate_metrics`.
- `Winners`: the chart's three winner strategies and the tally.
- `JudgmentCheck`: the check script's `WINNER` line.
- `ResultFiles` and `Batch`: result file names, resume, and failure isolation.
- `Baselines`: the two baselines and the comparison.

## Model

| member | source | states |
|---|---|---|
| Settings.TableShape | config/settings.py:11-41 | there are exactly three solver personas; solver i is named `Solver_{i+1}` and has a role; the roles and names are pairwise different; the judge has no role; every temperature and top-p lies in [0, 1] |
| Generation.ComposePrompt | src/models/gemini_wrapper.py:74-77 | the prompt always ends with the user prompt; it equals the user prompt exactly when there is no system prompt or it is empty; otherwise the system prompt comes first, followed by a blank line |
| Generation.AttemptFrom | src/models/gemini_wrapper.py:79-108 | from a given attempt on, every attempt sends the same request; the attempts before the last one failed; a success returns that attempt's text; giving up happens only at the last allowed attempt and carries that attempt's error; the sleeps are always 2^0..2^(n-2) after n attempts |
| Generation.Generate | src/models/gemini_wrapper.py:53-108 | at most `max_retries` attempts are made; the first success is returned, with sleeps 2^0..2^(k-1) before attempt k; when every attempt fails it reports `max_retries` and the last error, with no sleep after the last attempt; `max_retries <= 0` makes no attempt and returns nothing; it succeeds exactly when some allowed attempt succeeds |
| Generation.GenerateWithConfig | src/models/gemini_wrapper.py:110-117 | the persona's system prompt, temperature (default 0.7) and top-p (default 0.9) are used; between one and three attempts are made; the sleeps are a prefix of [1, 2]; the result is never None |
| Generation.FailTwiceThenSucceed | src/models/gemini_wrapper.py:102-106 | two failures and then a success return the third reply, after sleeping 1 and then 2 |
| Generation.SingleAttemptFailsWithoutSleep | src/models/gemini_wrapper.py:103-108 | with one attempt allowed, a failure gives up at once without sleeping |
| Debate.CallAll | src/debate/debate_system.py:60-70 | the calls are made in order and stop at the first failure, which is the last call made and supplies the error; on success there is one answer per call, each being the oracle's reply to that call |
| Debate.RoleAssignment | src/debate/debate_system.py:22-27 | exactly the keys Solver_1..3 and Judge are bound, to the solver personas in table order and to the judge persona; every solver persona carries its label and a role |
| Debate.StandardAssignment | src/debate/debate_system.py:22-27 | with the system's table, the judge has no role and the three solvers have pairwise different roles |
| Debate.IndependentSolutions | src/debate/debate_system.py:60-70 | three calls, one per solver in order, each made with that solver's persona; each solution is the verbatim reply beside the persona used |
| Debate.ReviewOrderFromLoops | src/debate/debate_system.py:109-115 | the nested reviewer/target loops visit (1,2),(1,3),(2,1),(2,3),(3,1),(3,2); each solver's peers are the other two, in solver order |
| Debate.ReviewOrderCoversPairs | src/debate/debate_system.py:111-115 | six review calls cover every ordered pair of different solvers exactly once, and no solver reviews itself |
| Debate.ReviewCallShape | src/debate/debate_system.py:112-125 | a review prompt carries the target's label and its stage-1 text, never the reviewer's; the call is made with the reviewer's persona and role |
| Debate.DeliverAppends | src/debate/debate_system.py:127-130 | appending answer by answer extends each target's list by exactly the reviews addressed to it, in call order |
| Debate.ReceivedByReviewOrder | src/debate/debate_system.py:111-130 | counting the six review calls from 1, Solver_1 receives the answers of calls 3 and 5, Solver_2 those of calls 1 and 6, Solver_3 those of calls 2 and 4 |
| Debate.ReceivedFromPeers | src/debate/debate_system.py:111-130 | every target receives exactly two reviews, one from each peer, in ascending reviewer order, none from itself, each being the answer to the call that peer made about it |
| Debate.DeliveredTo | src/debate/debate_system.py:84-130 | starting from empty lists, the delivered reviews of each target are its two peers' answers in reviewer order |
| Debate.PeerReview | src/debate/debate_system.py:84-132 | stage 2 makes the six review calls in loop order and stops at the first failure; on success every target holds two reviews as above |
| Debate.Refine | src/debate/debate_system.py:175-197 | three calls, one per solver in order, each with its own persona and its first two reviews; each record keeps the original stage-1 text, the reply, and exactly the review list read |
| Debate.FinalJudgment | src/debate/debate_system.py:242-255 | one call with the judge persona over the three refined texts only; the result holds the verdict, the input problem and the refinements |
| Debate.RunDebateWith | src/debate/debate_system.py:257-280 | the stages run strictly in order; either every call is answered and a judgment made by the thirteenth call is returned, or the run stops at the first failing call and returns no judgment |
| Debate.RunDebate | src/debate/debate_system.py:257-280 | the same with the system's persona table, the judgment coming from the judge persona |
| Debate.RunDebateSchedule | src/debate/debate_system.py:257-280 | every call a run makes is the one scheduled for its position: solvers 1,2,3 solving; reviewers 1,1,2,2,3,3; solvers 1,2,3 refining; then the judge, 13 calls in all |
| Debate.RunDebateRecord | src/debate/debate_system.py:60-255 | a judgment records what its run's calls answered: each original text is the reply to that solver's first call, the reviews are the answers of calls 4-9 about it, and each refined text is the reply to a refinement prompt carrying the original and the two recorded reviews |
| Debate.AfterReviewKeeps | src/debate/debate_system.py:191-195 | stages 3 and 4 carry each solver's original text and reviews into the judgment unchanged |
| Numerals.NatToDigits | src/evaluation/metrics.py:62 | the digits denote the number, with no leading zero |
| Numerals.ParseIntToString | main.py:56 | reading back what `str` wrote gives the same integer |
| Numerals.FirstDigit | src/evaluation/metrics.py:75-76 | the first digit at or after a position, or none when there is no digit |
| Numerals.DecimalAt | src/evaluation/metrics.py:75-76 | the token at a digit is a `\d+\.?\d*` match that occurs there; it cannot be extended, and it takes the dot whenever one follows the integer digits |
| Numerals.FirstDecimal | src/evaluation/metrics.py:75-78 | there is a first token exactly when the text holds a digit; it is the greedy `\d+\.?\d*` match at the leftmost digit, which is where `findall` finds its first match |
| Text.Strip | src/evaluation/metrics.py:45-47 | the result has no whitespace at either end; it is empty exactly when the text is blank; an already stripped text is unchanged |
| Text.SplitJoin | src/evaluation/metrics.py:51 | joining the parts of `split(sep)` with `sep` gives the text back |
| Text.SplitCount | main.py:56 | `split(sep)` has one part more than there are separators |
| Text.SplitFirst | main.py:56 | the first part of a split is the text before the first separator |
| Text.After | generate_plots.py:126 | the text is the part before the first `c`, then `c`, then the result |
| Text.Words | generate_plots.py:129 | `split()` yields non-empty words without whitespace, and none exactly when the text is blank |
| Text.WordOccurs | generate_plots.py:129-131 | every word `split()` returns occurs in the text |
| Text.RStripChars | generate_plots.py:149 | `rstrip(chars)` keeps a prefix that does not end in `chars` and drops only characters of `chars` |
| Extraction.FindBlock | src/evaluation/metrics.py:37-38 | the leftmost position where the marker pattern can match, or none when it matches nowhere |
| Extraction.LazyEnd | src/evaluation/metrics.py:37-38 | the lazy group ends at the first blank line or at the end (or before a final line feed) |
| Extraction.FindPhrase | src/evaluation/metrics.py:39 | the leftmost position where the phrase pattern matches, or none |
| Extraction.FinishShape | src/evaluation/metrics.py:45-47 | a captured answer, once stripped and cut to its first line, is stripped and has no line break |
| Extraction.BlockAnswerFirstLine | src/evaluation/metrics.py:37-48 | patterns 1 and 2 return the first line after the marker's whitespace, stripped, however far the lazy group reaches; only whitespace after the marker gives "" |
| Extraction.BlockAnswerMatches | src/evaluation/metrics.py:42-44 | patterns 1 and 2 give an answer exactly when they match somewhere |
| Extraction.PhraseAnswerMatches | src/evaluation/metrics.py:42-44 | pattern 3 gives an answer exactly when it matches somewhere |
| Extraction.LastLineAnswer | src/evaluation/metrics.py:50-56 | the fallback answer is stripped, and contains a line break only when it is the whole text stripped |
| Extraction.ExtractAnswer | src/evaluation/metrics.py:33-56 | the answer is always stripped; `FINAL_ANSWER:` beats `ANSWER:`, which beats the phrase pattern, which beats the last-line fallback; a line break survives only in the final `text.strip()` |
| Extraction.FallbackLastCandidate | src/evaluation/metrics.py:51-54 | with no pattern matching, the answer is the last line that is not blank and does not start with `CONFIDENCE`, stripped |
| Extraction.ExtractEmpty | src/evaluation/metrics.py:33-56 | `extract_answer("")` is "" |
| Metrics.Clean | src/evaluation/metrics.py:65-66 | the normalised text has only kept characters and no upper-case letter |
| Metrics.KeepOne | src/evaluation/metrics.py:65-66 | the substitution keeps a character exactly when it is a word character, whitespace or one of `.,()` |
| Metrics.CleanIdempotent | src/evaluation/metrics.py:65-66 | normalising twice is normalising once |
| Metrics.NumericNeedsDigits | src/evaluation/metrics.py:75-78 | the numeric rule fires only when both raw strings hold a digit |
| Metrics.NumericSameToken | src/evaluation/metrics.py:75-80 | two strings whose first numbers are written the same way pass the numeric rule, in exact arithmetic |
| Metrics.NumericMatch | src/evaluation/metrics.py:73-82 | the numeric rule fires only when both texts hold a digit, and then exactly when the values of the tokens at their leftmost digits differ by less than 0.01 |
| Metrics.NumericSymmetric | src/evaluation/metrics.py:79 | the numeric rule gives the same verdict with the two sides swapped |
| Metrics.AnyFires | src/evaluation/metrics.py:103-107 | the loop over the table returns true exactly when some row fires in one direction or the other |
| Metrics.TableSymmetric | src/evaluation/metrics.py:100-107 | the equivalence table gives the same verdict with answer and expected answer swapped |
| Metrics.Grade | src/evaluation/metrics.py:65-109 | the answer is correct exactly when normalised containment, the numeric rule or the equivalence table holds |
| Metrics.GradeReflexive | src/evaluation/metrics.py:69-70 | every answer is graded correct against itself |
| Metrics.GradeEmptyExpected | src/evaluation/metrics.py:69-70 | an expected answer that normalises to "" is contained in every answer |
| Metrics.GradeWithoutDigits | src/evaluation/metrics.py:69-82 | with no digit in the answer and no table row firing, normalised containment alone decides |
| Metrics.CheckCorrectness | src/evaluation/metrics.py:58-109 | a missing `correct_answer` raises; otherwise the extracted answer of the judgment ("" when absent) is graded against `str(correct_answer)` |
| Metrics.ExactAnswerCorrect | src/evaluation/metrics.py:58-70 | a judgment whose extracted answer is exactly the expected answer is graded correct |
| Metrics.CountCorrectExtremes | src/evaluation/metrics.py:129-134 | the count is full exactly when every result is correct, and zero exactly when none is |
| Metrics.TallyResults | src/evaluation/metrics.py:111-139 | the loop stops at the first result that cannot be graded; otherwise total is the number of results, correct their count, agreements and improvements 0, and accuracy correct/total (0.0 for none), within [0, 1] |
| Metrics.CalculateMetrics | src/evaluation/metrics.py:111-139 | the same with `check_correctness` as the correctness test: it fails exactly when some problem lacks `correct_answer` |
| Winners.SolverWord | generate_plots.py:129-133 | the first whitespace-separated word starting with `Solver`: no earlier word starts with it; none exactly when no word does |
| Winners.SolverWordMentions | generate_plots.py:127-146 | a text with a word starting with `Solver` is non-empty and contains `Solver`, so the guards before the word loops never change what the loops find |
| Winners.FirstHit | generate_plots.py:124-135 | the first line a strategy accepts decides, or none when it accepts no line |
| Winners.TagLineWinner | generate_plots.py:125-133 | strategy 1 answers only on a `WINNER:` line; on such a line its answer is exactly the first word starting with `Solver` in the stripped text after the first colon, punctuation kept, or none when there is no such word |
| Winners.TagLineMentionsSolver | generate_plots.py:127 | strategy 1 answers only from a line that mentions `Solver` |
| Winners.LineCandidate | generate_plots.py:144-149 | strategy 2 answers from a line exactly when the stripped line has a word starting with `Solver`, and its answer is the first such word with trailing `.,;:` removed; it still starts with `Solver` |
| Winners.Window | generate_plots.py:141-152 | strategy 2 answers at a line only when it holds `WINNER:`; it answers from the first of the (at most three) following lines that has a candidate, and gives none exactly when the line lacks `WINNER:` or none of those lines has one |
| Winners.FollowStrategy | generate_plots.py:138-154 | strategy 2 answers from the first window that has a candidate, or none when no window has one |
| Winners.KeywordStrategy | generate_plots.py:157-162 | strategy 3 answers only when `best` or `winner` appears in any case; then it answers exactly when the judgment has a word starting with `Solver`, with the first such word, trailing `.,;:'")` removed |
| Winners.Winner | generate_plots.py:121-162 | every decision is a single token starting with `Solver` |
| Winners.FirstTagLineDecides | generate_plots.py:124-135 | the first line strategy 1 accepts decides the winner, whatever follows |
| Winners.FollowWindow | generate_plots.py:138-154 | when strategy 1 finds nothing, strategy 2 decides from one of the three lines after a `WINNER:` line |
| Winners.KeywordLast | generate_plots.py:157-158 | strategy 3 decides only when the first two found nothing |
| Winners.TrimKeepsShape | generate_plots.py:149-161 | removing trailing punctuation leaves a word that still starts with `Solver` |
| Winners.WinnerNeedsSolver | generate_plots.py:124-162 | a judgment that never mentions `Solver` yields no winner |
| Winners.SolverTokenNotNeeded | generate_plots.py:125-133 | the judgment `WINNER:w` yields `w`, although none of its whitespace-separated words starts with `Solver` |
| Winners.JudgeDecisions | generate_plots.py:116-165 | the decisions are well-shaped words, at most one per result |
| Winners.DecisionFrom | generate_plots.py:164-165 | every recorded decision was read from one of the results |
| Winners.DecisionsAppend | generate_plots.py:117-165 | decisions are read result by result, in order |
| Winners.Tally | generate_plots.py:167-168 | the counter's keys are the decisions, and each count is that decision's number of occurrences |
| Winners.TallySum | generate_plots.py:164-168 | the counts add up to the number of recorded decisions |
| JudgmentCheck.WinnerLineFrom | check_judgements.py:31-34 | the first line whose upper-case form contains `WINNER`, or none when no line does |
| JudgmentCheck.ExtractedWord | check_judgements.py:37-42 | a word is recorded exactly when the line has a colon; it is `NONE` when only whitespace follows the first colon, and otherwise the first whitespace-separated word after it |
| JudgmentCheck.Inspect | check_judgements.py:29-43 | the recorded value is `NONE` or a single non-empty token |
| JudgmentCheck.CheckFiles | check_judgements.py:15-42 | every unskipped file counts as checked; the words recorded are exactly what inspecting each unskipped file's judgment yields, in file order, so each file adds at most one word, and every word is `NONE` or a single token |
| JudgmentCheck.ProblemFilesAllChecked | check_judgements.py:15-17 | no file matched by `problem_*.json` is skipped as a summary |
| JudgmentCheck.CheckJudgments | check_judgements.py:15-42 | the first five files in name order, or all of them when there are fewer, are checked and every one counts; the words recorded are what inspecting those files' judgments yields, in order |
| JudgmentCheck.CheckReadsFirstWinnerLine | check_judgements.py:31-43 | the check reads only the first line that mentions a winner, and takes the first word after its first colon |
| JudgmentCheck.InspectFirstWinnerLine | check_judgements.py:31-43 | the outcome is decided by the first line that mentions a winner alone; when that line has no colon nothing is recorded, even if a later line has one |
| JudgmentCheck.InspectWithoutWinnerLine | check_judgements.py:30-46 | a judgment with no line mentioning a winner records nothing |
| JudgmentCheck.AgreesWithChart | check_judgements.py:31-43 | when the first line mentioning a winner is a `WINNER:` line whose first word starts with `Solver`, the check and the chart read the same decision |
| ResultFiles.FileName | main.py:17-18 | the saved name matches `problem_*.json`, and its stem is `problem_{id}_{timestamp}` |
| ResultFiles.ParseId | main.py:56 | the id is the second `_` field of the stem read as an integer, or none |
| ResultFiles.ParseIdFileName | main.py:18-56 | reading a saved name gives back its id, whatever the timestamp |
| Batch.CompletedIds | main.py:52-59 | the completed ids are those read from matching names; a name whose field is missing or not an integer adds nothing |
| Batch.SavedIsCompleted | main.py:18-57 | saving a result marks exactly its problem completed |
| Batch.MalformedIgnored | main.py:55-59 | a matching name whose second field is not an integer marks nothing completed |
| Batch.SummaryIgnored | main.py:83-89 | the summary file never marks a problem completed |
| Batch.PendingMembers | main.py:68-72 | exactly the problems whose id is not completed are handed to the debate |
| Batch.SucceededMembers | main.py:74-81 | exactly the problems whose run succeeded are kept |
| Batch.FailureIsolated | main.py:74-81 | a failing problem drops only itself: later problems succeed as if it were absent |
| Batch.OutputsMatch | main.py:74-77 | the k-th result kept is what the k-th successful run returned |
| Batch.SavedNamesRead | main.py:17-18 | each saved name matches the pattern and reads back as its problem's id |
| Batch.RunAllProblems | main.py:46-93 | completed problems are skipped; results are kept in input order, successes only; one file is saved per success; the summary is written only when there is a result; the total is completed ids plus results |
| Batch.RunAllDebates | main.py:66-81 | every judgment kept is about a listed problem that was not already completed |
| Batch.ResumeSkipsSaved | main.py:52-72 | after a batch, the directory marks completed exactly the earlier ids plus every success, so running again hands none of them to the debate |
| Batch.FindProblem | main.py:30 | the first problem with the id, or none exactly when no problem has it |
| Batch.RunSingleProblem | main.py:27-38 | no debate is run when no problem has the id; otherwise the debate runs on the first problem with the id, and its result is saved exactly when that debate succeeds, under a name carrying the id and holding that problem's judgment, while a failing debate's error escapes |
| Baselines.Take | baseline_comparison.py:30 | `problems[:max_problems]` is a prefix of the list, with Python's length for negative bounds |
| Baselines.Answer | baseline_comparison.py:39-44 | a reply comes back exactly when one of three attempts without a system prompt succeeds, and it is the text of the first attempt that succeeds |
| Baselines.AccuracyBounds | baseline_comparison.py:64 | accuracy is correct/max_problems within [0, 1], and 0 when max_problems is not positive |
| Baselines.ShortListUnderReports | baseline_comparison.py:30-64 | with fewer problems than `max_problems`, even an all-correct run reports less than 1 |
| Baselines.SingleFailureIncorrect | baseline_comparison.py:46-60 | a failed call or a missing expected answer counts as not correct |
| Baselines.SingleIgnoresCase | baseline_comparison.py:47-50 | a reply that is the expected answer in upper case is counted correct |
| Baselines.SingleLlmBaseline | baseline_comparison.py:18-66 | the correct count is over the first `max_problems` problems, and accuracy divides it by `max_problems` |
| Baselines.Ballot | baseline_comparison.py:91-103 | exactly three answers, one per call with temperature `0.7 + n * 0.1` for n = 0, 1, 2; a call that returned text contributes that text, and a failed call contributes "" |
| Baselines.MatchesNeedReplies | baseline_comparison.py:106-107 | a non-empty expected answer is matched only by answers that came back |
| Baselines.VoteVerdict | baseline_comparison.py:106-109 | a missing `correct_answer` raises; otherwise the vote passes exactly when two different answers contain it, ignoring case |
| Baselines.CountTrueAtLeastTwo | baseline_comparison.py:107-109 | a count of at least two true entries means exactly that two different positions hold true |
| Baselines.MajorityNeedsTwoReplies | baseline_comparison.py:106-109 | a passing vote on a non-empty expected answer needs at least two calls that returned text |
| Baselines.EmptyExpectedPasses | baseline_comparison.py:106-109 | an empty expected answer passes the vote even when every call failed |
| Baselines.CountVotes | baseline_comparison.py:81-111 | the loop fails exactly when some problem lacks `correct_answer`; otherwise it counts the passing votes |
| Baselines.SimpleVotingBaseline | baseline_comparison.py:69-118 | the count is over the first `max_problems` problems, and accuracy divides it by `max_problems` within [0, 1] |
| Baselines.ImprovementSign | baseline_comparison.py:148-149 | over a positive baseline the improvement has the sign of the difference; otherwise it is 0 |
| Baselines.CompareAllSystems | baseline_comparison.py:121-160 | the single and voting accuracies are those baselines' counts over the first five problems divided by five; the debate accuracy is the share of saved results graded correct (0 with none); each improvement is the percent change over its baseline, positive exactly when the baseline is positive and the debate beats it; all three accuracies lie in [0, 1]; the number of debate results is reported; a missing `correct_answer` in the voting baseline or the metrics stops the comparison |

## Left out

- Provider SDK calls: the two API branches become the provider oracle.
- The rate-limit window `_wait_if_needed`: nothing calls it, and its module
  does not import `datetime`.
- Real waiting: `time.sleep` becomes the list of durations the loop would
  sleep. The baselines' fixed two-second pauses are not recorded.
- File and JSON I/O:
  - loading problems and results;
  - writing result, summary and comparison files;
  - globbing and sorting.

  The results directory is a set of file names. The clock is a function from
  the index of a written file to its timestamp. File contents are not modelled.
- Plots, dataframes, the report text, the command line, environment variables,
  and creating directories.
- Console output, including the winner line printed by the check script and
  the first 200 characters shown when there is none.
- Prompt template wording: a prompt is its structured inputs (question,
  labels, texts, role).
- Metrics.NumericMatch: numbers are exact reals rather than Python floats,
  so two gaps are not reproduced:
  - A difference that rounds across 0.01 in binary floating point.
  - Overflow. A token too large for a double (about 1.8e308, so any
    token of 310 or more integer digits) is `inf` in the source. When both
    first tokens overflow, `abs(inf - inf)` is `nan` and the rule does not
    fire.
- Metrics.NumericSameToken: it inherits the overflow gap. It holds here for
  every token, but in the source two equal tokens too large for a double do
  not pass the numeric rule.
- Baselines.VoteTemperature: the voting temperatures are the exact reals 0.7,
  0.8 and 0.9. In the source `0.7 + solver_num * 0.1` is a binary
  floating-point sum, which gives 0.7999999999999999 and 0.8999999999999999.
  The temperature is only passed to the provider, so nothing else in the
  model depends on it.
- Baselines.Accuracy: like Baselines.Improvement and the accuracy of
  Metrics.TallyResults, it computes an exact rational value. The three values
  are `correct / max_problems`, `correct / total` and the percent
  improvement. In the source they are binary
  floating-point quotients, rounded to the nearest float. For example, 3/5
  is exactly 0.6 here but the nearest double there. The bounds in [0, 1]
  and the sign of each improvement hold for the rounded values too.
- Metrics.Str: `correct_answer` is an integer or a string; floats, booleans
  and other JSON values are not modelled.
- Text: only ASCII is modelled. `str.lower`, `str.upper`, `\w` and
  whitespace follow their ASCII behaviour, and full Unicode case mapping is
  not modelled.
- Debate.PeerReview: it requires every solver persona to have a role. The
  source would raise `KeyError` without one, which the fixed persona table
  rules out (Settings.TableShape).
- Winners.WinnerNeedsSolver: it states that a judgment without the substring
  `Solver` yields no winner. It does not state that a judgment with no
  whitespace-separated word starting with `Solver` yields none. That
  stronger statement is false for strategy 1, and
  Winners.SolverTokenNotNeeded exhibits the judgment `WINNER:Solver_1`.
- `test_evaluation.py` is a driver that only prints and is not part of this
  model.

=== FILE: baselines.dfy ===
/** The two baselines the debate is compared against, and the comparison
    itself. The single baseline asks once per problem and counts the reply
    correct when it contains the expected answer, ignoring case; the voting
    baseline asks three times with rising temperature and needs two replies
    that contain it. Both share the provider oracle of the generation
    client: `ask(c)` answers the attempts of the `c`-th call a baseline
    makes. */
module Baselines {
  import opened Wrappers
  import opened Text
  import opened Generation
  import opened Metrics

  /** A problem as the baselines read it: its question, and its
      `correct_answer` when the key is present. */
  datatype Item = Item(question: string, correctAnswer: Option<Scalar>)

  /** How many problems each baseline is run on by the comparison. */
  const ComparedProblems: int := 5
  const SingleTemperature: real := 0.7
  const BaselineTopP: real := 0.9
  const Voters: nat := 3
  const Majority: nat := 2

  /** Python's `s[:m]`: the first `m` elements, or all but the last `-m`
      when `m` is negative. */
  function Take<T>(s: seq<T>, m: int): (t: seq<T>)
    ensures t <= s
    ensures m >= 0 ==> |t| == if m < |s| then m else |s|
    ensures m < 0 ==> |t| == if |s| + m > 0 then |s| + m else 0
  {
    if m >= 0 then (if m < |s| then s[..m] else s)
    else if |s| + m > 0 then s[..|s| + m]
    else []
  }

  /** One `generate` call without a system prompt, default three attempts:
      the text returned, or nothing when it raised. */
  function Answer(question: string, temperature: real, provider: Provider): (r: Option<string>)
    ensures var request := Request(question, temperature, BaselineTopP);
            && (r.Some? <==> exists k :: 0 <= k < 3 && Succeeds(provider, k, request))
            && (r.Some? ==> exists k :: && 0 <= k < 3 && provider(k, request) == Generation.Text(r.value)
                                         && forall j :: 0 <= j < k ==> !Succeeds(provider, j, request))
  {
    var g := Generate(question, None, temperature, BaselineTopP, DefaultMaxRetries, provider);
    match g.outcome
    case Returned(t) => Some(t)
    case _ => None
  }

  /** `str(correct_answer).lower() in response.lower()`. */
  predicate Mentions(response: string, ca: Scalar) {
    Contains(Lower(response), Lower(Str(ca)))
  }

  /** Every string contains itself. */
  lemma {:induction false} ContainsSelf(s: string)
    ensures Contains(s, s)
  {
    assert OccursAt(s, s, 0);
  }

  // ---------------------------------------------------------------------
  // Counting

  /** How many entries are true. */
  function CountTrue(bs: seq<bool>): (n: nat)
    ensures n <= |bs|
  {
    if bs == [] then 0
    else CountTrue(bs[..|bs| - 1]) + if bs[|bs| - 1] then 1 else 0
  }

  /** The count is full exactly when every entry is true, and zero exactly
      when none is. */
  lemma {:induction false} CountTrueExtremes(bs: seq<bool>)
    ensures CountTrue(bs) == |bs| <==> forall i :: 0 <= i < |bs| ==> bs[i]
    ensures CountTrue(bs) == 0 <==> forall i :: 0 <= i < |bs| ==> !bs[i]
  {
    if bs != [] {
      var n := |bs| - 1;
      CountTrueExtremes(bs[..n]);
      assert forall i :: 0 <= i < n ==> bs[..n][i] == bs[i];
    }
  }

  /** The share of correct answers, over `max_problems` rather than over the
      problems actually run, and 0 when `max_problems` is not positive. */
  function Accuracy(correct: nat, maxProblems: int): real {
    if maxProblems > 0 then correct as real / maxProblems as real else 0.0
  }

  /** Accuracy is a fraction when no more than `max_problems` were correct,
      and times `max_problems` it gives back the count. */
  lemma {:induction false} AccuracyBounds(correct: nat, maxProblems: int)
    requires maxProblems > 0 ==> correct <= maxProblems
    ensures 0.0 <= Accuracy(correct, maxProblems) <= 1.0
    ensures maxProblems > 0 ==> Accuracy(correct, maxProblems) * maxProblems as real == correct as real
  {
  }

  /** With fewer problems than `max_problems` even an all-correct run
      reports less than 1. */
  lemma {:induction false} ShortListUnderReports(correct: nat, processed: nat, maxProblems: int)
    requires correct <= processed < maxProblems
    ensures Accuracy(correct, maxProblems) < 1.0
  {
  }

  datatype BaselineRun = BaselineRun(correct: nat, accuracy: real)

  // ---------------------------------------------------------------------
  // Baseline 1: a single call per problem

  /** A reply is correct when it came back and contains the expected
      answer; a failed call or a missing key counts as incorrect. */
  function SingleVerdict(item: Item, response: Option<string>): bool {
    match (response, item.correctAnswer)
    case (Some(text), Some(ca)) => Mentions(text, ca)
    case _ => false
  }

  /** The verdict on each problem, the `i`-th answered by the `i`-th call. */
  function SingleVerdicts(items: seq<Item>, ask: nat -> Provider): (vs: seq<bool>)
    ensures |vs| == |items|
  {
    seq(|items|, i requires 0 <= i < |items| =>
      SingleVerdict(items[i], Answer(items[i].question, SingleTemperature, ask(i))))
  }

  lemma {:induction false} SingleFailureIncorrect(item: Item, response: Option<string>)
    requires response.None? || item.correctAnswer.None?
    ensures !SingleVerdict(item, response)
  {
  }

  /** Case is ignored on both sides: a reply that is the expected answer
      upper-cased still counts. */
  lemma {:induction false} SingleIgnoresCase(item: Item, text: string)
    requires item.correctAnswer.Some? && text == Upper(Str(item.correctAnswer.value))
    ensures SingleVerdict(item, Some(text))
  {
    var s := Str(item.correctAnswer.value);
    assert Lower(text) == Lower(s) by {
      forall i | 0 <= i < |s| ensures Lower(text)[i] == Lower(s)[i] {
        assert text[i] == UpperChar(s[i]);
      }
    }
    ContainsSelf(Lower(s));
  }

  /** `single_llm_baseline(problems, max_problems)`. */
  method SingleLlmBaseline(problems: seq<Item>, maxProblems: int, ask: nat -> Provider) returns (r: BaselineRun)
    ensures var items := Take(problems, maxProblems);
            && r.correct == CountTrue(SingleVerdicts(items, ask))
            && r.correct <= |items|
    ensures r.accuracy == Accuracy(r.correct, maxProblems)
    ensures 0.0 <= r.accuracy <= 1.0
  {
    var items := Take(problems, maxProblems);
    var vs := SingleVerdicts(items, ask);
    var correct := 0;
    for i := 0 to |items|
      invariant correct == CountTrue(vs[..i])
    {
      assert vs[..i + 1][..i] == vs[..i];
      if vs[i] {
        correct := correct + 1;
      }
    }
    assert vs[..|items|] == vs;
    AccuracyBounds(correct, maxProblems);
    r := BaselineRun(correct, Accuracy(correct, maxProblems));
  }

  // ---------------------------------------------------------------------
  // Baseline 2: three calls per problem and a majority

  /** `0.7 + solver_num * 0.1`, computed over the reals: 0.7, 0.8 and 0.9
      rather than the nearest binary floating-point sums. */
  function VoteTemperature(n: nat): real {
    0.7 + n as real * 0.1
  }

  /** The three answers for one problem, made by calls `base`, `base + 1`
      and `base + 2`; a call that raised contributes the empty string. */
  function Ballot(question: string, ask: nat -> Provider, base: nat): (answers: seq<string>)
    ensures |answers| == Voters
    ensures forall n :: 0 <= n < Voters ==>
              var a := Answer(question, VoteTemperature(n), ask(base + n));
              (a.None? ==> answers[n] == []) && (a.Some? ==> answers[n] == a.value)
  {
    seq(Voters, n requires 0 <= n < Voters => Answer(question, VoteTemperature(n), ask(base + n)).GetOr([]))
  }

  /** Which answers contain the expected one. */
  function Hits(answers: seq<string>, ca: Scalar): (hs: seq<bool>)
    ensures |hs| == |answers|
  {
    seq(|answers|, i requires 0 <= i < |answers| => Mentions(answers[i], ca))
  }

  /** How many answers contain the expected one. */
  function Matches(answers: seq<string>, ca: Scalar): (m: nat)
    ensures m <= |answers|
  {
    CountTrue(Hits(answers, ca))
  }

  /** How many answers are non-empty; each of them came from a call that
      returned text, though a call that returned "" is counted out too. */
  function Replied(answers: seq<string>): (m: nat)
    ensures m <= |answers|
  {
    CountTrue(seq(|answers|, i requires 0 <= i < |answers| => answers[i] != []))
  }

  /** Counting is monotone entry by entry. */
  lemma {:induction false} CountTrueMono(a: seq<bool>, b: seq<bool>)
    requires |a| == |b|
    requires forall i :: 0 <= i < |a| && a[i] ==> b[i]
    ensures CountTrue(a) <= CountTrue(b)
  {
    if a != [] {
      var n := |a| - 1;
      CountTrueMono(a[..n], b[..n]);
    }
  }

  /** At least two entries are true exactly when two different positions hold true. */
  lemma {:induction false} CountTrueAtLeastTwo(bs: seq<bool>)
    ensures CountTrue(bs) >= 2 <==> exists i, j :: 0 <= i < j < |bs| && bs[i] && bs[j]
  {
    if bs != [] {
      var n := |bs| - 1;
      var front := bs[..n];
      CountTrueAtLeastTwo(front);
      CountTrueExtremes(front);
      if CountTrue(bs) >= 2 {
        if CountTrue(front) >= 2 {
          var i, j :| 0 <= i < j < |front| && front[i] && front[j];
          assert bs[i] && bs[j];
        } else {
          assert bs[n] && CountTrue(front) >= 1;
          var i :| 0 <= i < |front| && front[i];
          assert bs[i];
        }
      }
      if exists i, j :: 0 <= i < j < |bs| && bs[i] && bs[j] {
        var i, j :| 0 <= i < j < |bs| && bs[i] && bs[j];
        if j < n {
          assert front[i] && front[j];
        } else {
          assert front[i];
        }
      }
    }
  }

  /** Two matches means two different answers contain the expected one. */
  lemma {:induction false} MatchesAtLeastTwo(answers: seq<string>, ca: Scalar)
    ensures Matches(answers, ca) >= 2 <==>
            exists i, j :: 0 <= i < j < |answers| && Mentions(answers[i], ca) && Mentions(answers[j], ca)
  {
    var hs := Hits(answers, ca);
    CountTrueAtLeastTwo(hs);
    assert forall i :: 0 <= i < |answers| ==> hs[i] == Mentions(answers[i], ca);
  }

  /** The empty string contains no non-empty answer. */
  lemma {:induction false} EmptyMisses(ca: Scalar)
    requires Str(ca) != []
    ensures !Mentions([], ca)
  {
  }

  /** Only a non-empty answer can contain a non-empty expected answer. */
  lemma {:induction false} MatchesNeedReplies(answers: seq<string>, ca: Scalar)
    requires Str(ca) != []
    ensures Matches(answers, ca) <= Replied(answers)
  {
    EmptyMisses(ca);
    CountTrueMono(Hits(answers, ca), seq(|answers|, i requires 0 <= i < |answers| => answers[i] != []));
  }

  /** The empty string is in every answer. */
  lemma {:induction false} MatchesEmpty(answer: string, ca: Scalar)
    requires Str(ca) == []
    ensures Mentions(answer, ca)
  {
    assert OccursAt(Lower(answer), Lower(Str(ca)), 0);
  }

  /** An empty expected answer is in every answer, failed calls included. */
  lemma {:induction false} EmptyExpectedMatchesAll(answers: seq<string>, ca: Scalar)
    requires Str(ca) == []
    ensures Matches(answers, ca) == |answers|
  {
    forall i | 0 <= i < |answers| ensures Hits(answers, ca)[i] {
      MatchesEmpty(answers[i], ca);
    }
    CountTrueExtremes(Hits(answers, ca));
  }

  /** The vote on one problem: `None` when `correct_answer` is missing (the
      `KeyError` is not caught), otherwise whether at least two answers
      contain it. */
  function VoteVerdict(item: Item, answers: seq<string>): (v: Option<bool>)
    ensures v.None? <==> item.correctAnswer.None?
    ensures item.correctAnswer.Some? ==>
              var ca := item.correctAnswer.value;
              (v == Some(true) <==> exists i, j :: 0 <= i < j < |answers| && Mentions(answers[i], ca) && Mentions(answers[j], ca))
  {
    match item.correctAnswer
    case None => None
    case Some(ca) =>
      MatchesAtLeastTwo(answers, ca);
      Some(Matches(answers, ca) >= Majority)
  }

  /** A majority for a non-empty expected answer needs at least two calls
      that returned text. */
  lemma {:induction false} MajorityNeedsTwoReplies(item: Item, answers: seq<string>)
    requires item.correctAnswer.Some? && Str(item.correctAnswer.value) != []
    requires VoteVerdict(item, answers) == Some(true)
    ensures Replied(answers) >= Majority
  {
    MatchesNeedReplies(answers, item.correctAnswer.value);
  }

  /** With an empty expected answer the vote passes even if every call failed. */
  lemma {:induction false} EmptyExpectedPasses(item: Item, answers: seq<string>)
    requires item.correctAnswer.Some? && Str(item.correctAnswer.value) == []
    requires |answers| == Voters
    ensures VoteVerdict(item, answers) == Some(true)
  {
    EmptyExpectedMatchesAll(answers, item.correctAnswer.value);
  }

  /** The verdicts of the problems in order, the `i`-th problem asked by
      calls `3i`, `3i + 1` and `3i + 2`; a missing key reads as incorrect
      here, but the baseline stops before it matters. */
  function VoteVerdicts(items: seq<Item>, ask: nat -> Provider): (vs: seq<bool>)
    ensures |vs| == |items|
  {
    seq(|items|, i requires 0 <= i < |items| =>
      VoteVerdict(items[i], Ballot(items[i].question, ask, Voters * i)).GetOr(false))
  }

  predicate HasAnswers(items: seq<Item>) {
    forall i :: 0 <= i < |items| ==> items[i].correctAnswer.Some?
  }

  /** The loop of the voting baseline over given verdicts: the number of
      passes, or `None` at the first problem without `correct_answer`. */
  method CountVotes(items: seq<Item>, vs: seq<bool>) returns (r: Option<nat>)
    requires |vs| == |items|
    ensures r.None? <==> !HasAnswers(items)
    ensures r.Some? ==> r.value == CountTrue(vs)
  {
    var correct := 0;
    for i := 0 to |items|
      invariant forall k :: 0 <= k < i ==> items[k].correctAnswer.Some?
      invariant correct == CountTrue(vs[..i])
    {
      if items[i].correctAnswer.None? {
        return None;
      }
      assert vs[..i + 1][..i] == vs[..i];
      if vs[i] {
        correct := correct + 1;
      }
    }
    assert vs[..|items|] == vs;
    r := Some(correct);
  }

  /** `simple_voting_baseline(problems, max_problems)`: `None` when one of
      the problems run lacks `correct_answer`, since that error escapes. */
  method SimpleVotingBaseline(problems: seq<Item>, maxProblems: int, ask: nat -> Provider) returns (r: Option<BaselineRun>)
    ensures r.None? <==> !HasAnswers(Take(problems, maxProblems))
    ensures r.Some? ==>
              var items := Take(problems, maxProblems);
              && r.value.correct == CountTrue(VoteVerdicts(items, ask))
              && r.value.correct <= |items|
              && r.value.accuracy == Accuracy(r.value.correct, maxProblems)
              && 0.0 <= r.value.accuracy <= 1.0
  {
    var items := Take(problems, maxProblems);
    var counted := CountVotes(items, VoteVerdicts(items, ask));
    match counted
    case None => r := None;
    case Some(correct) =>
      AccuracyBounds(correct, maxProblems);
      r := Some(BaselineRun(correct, Accuracy(correct, maxProblems)));
  }

  // ---------------------------------------------------------------------
  // The comparison

  /** The relative improvement in percent, 0 when the baseline is not positive. */
  function Improvement(system: real, baseline: real): real {
    if baseline > 0.0 then (system - baseline) / baseline * 100.0 else 0.0
  }

  /** Over a positive baseline the improvement has the sign of the
      difference; over any other baseline it is 0. */
  lemma {:induction false} ImprovementSign(system: real, baseline: real)
    ensures baseline > 0.0 ==> (Improvement(system, baseline) > 0.0 <==> system > baseline)
    ensures baseline > 0.0 ==> (Improvement(system, baseline) == 0.0 <==> system == baseline)
    ensures baseline <= 0.0 ==> Improvement(system, baseline) == 0.0
  {
    if baseline > 0.0 {
      var d := system - baseline;
      assert Improvement(system, baseline) == d * (100.0 / baseline);
      assert 100.0 / baseline > 0.0;
    }
  }

  /** What `compare_all_systems` saves and prints. */
  datatype Comparison = Comparison(single: real, voting: real, debate: real, debateTested: nat,
                                   overSingle: real, overVoting: real)

  /** `compare_all_systems`: both baselines on the first five problems, the
      debate's accuracy from the saved results; `None` when a missing
      `correct_answer` stops the voting baseline or the metrics. */
  method CompareAllSystems(problems: seq<Item>, results: seq<Record>, askSingle: nat -> Provider, askVote: nat -> Provider)
    returns (c: Option<Comparison>)
    ensures c.None? <==>
              || !HasAnswers(Take(problems, ComparedProblems))
              || exists i :: 0 <= i < |results| && results[i].correctAnswer.None?
    ensures c.Some? ==>
              && c.value.debateTested == |results|
              && 0.0 <= c.value.single <= 1.0 && 0.0 <= c.value.voting <= 1.0 && 0.0 <= c.value.debate <= 1.0
              && c.value.single == Accuracy(CountTrue(SingleVerdicts(Take(problems, ComparedProblems), askSingle)), ComparedProblems)
              && c.value.voting == Accuracy(CountTrue(VoteVerdicts(Take(problems, ComparedProblems), askVote)), ComparedProblems)
              && Gradable(results, CheckCorrectness)
              && c.value.debate == (if |results| > 0 then CountCorrect(results, CheckCorrectness) as real / |results| as real else 0.0)
              && c.value.overSingle == Improvement(c.value.debate, c.value.single)
              && c.value.overVoting == Improvement(c.value.debate, c.value.voting)
              && (c.value.overSingle > 0.0 <==> c.value.single > 0.0 && c.value.debate > c.value.single)
              && (c.value.overVoting > 0.0 <==> c.value.voting > 0.0 && c.value.debate > c.value.voting)
  {
    var single := SingleLlmBaseline(problems, ComparedProblems, askSingle);
    var voting := SimpleVotingBaseline(problems, ComparedProblems, askVote);
    if voting.None? {
      return None;
    }
    var metrics := CalculateMetrics(results);
    if metrics.None? {
      return None;
    }
    var debate := metrics.value.accuracy;
    ImprovementSign(debate, single.accuracy);
    ImprovementSign(debate, voting.value.accuracy);
    c := Some(Comparison(single.accuracy, voting.value.accuracy, debate, |results|,
                         Improvement(debate, single.accuracy), Improvement(debate, voting.value.accuracy)));
  }
}

=== FILE: batch.dfy ===
/** The batch driver: which problems count as already completed, the run
    over all problems that skips those and carries on past failures, and
    the lookup of a single problem by id.

    The results directory is the set of file names in it; file contents,
    writing and globbing are left out. The clock is a parameter: `now(k)`
    is the timestamp read for the `k`-th file the run writes. */
module Batch {
  import opened Wrappers
  import opened Numerals
  import opened ResultFiles
  import opened Debate

  /** The ids a reader finds in the names of a directory. */
  function ReadIds(dir: set<string>, read: string -> Option<int>): (ids: set<int>)
    ensures forall f :: f in dir && read(f).Some? ==> read(f).value in ids
    ensures forall id :: id in ids ==> exists f :: f in dir && read(f) == Some(id)
  {
    set f | f in dir && read(f).Some? :: read(f).value
  }

  /** The ids of two directories together. */
  lemma {:induction false} ReadIdsUnion(a: set<string>, b: set<string>, read: string -> Option<int>)
    ensures ReadIds(a + b, read) == ReadIds(a, read) + ReadIds(b, read)
  {
  }

  /** One name adds its own id, if it has one, and nothing else. */
  lemma {:induction false} ReadIdsAdd(dir: set<string>, f: string, read: string -> Option<int>)
    ensures ReadIds(dir + {f}, read) == ReadIds(dir, read) + match read(f) case Some(id) => {id} case None => {}
  {
    ReadIdsUnion(dir, {f}, read);
  }

  /** The id one file of the results directory contributes: none unless
      the name matches `problem_*.json`, and none when the parse raises. */
  function IdOf(f: string): (r: Option<int>)
    ensures r.Some? ==> IsProblemFile(f)
  {
    if IsProblemFile(f) then ParseId(f) else None
  }

  /** `completed_ids`: the ids read from the names matching `problem_*.json`;
      a name whose second field is missing or not an integer adds nothing. */
  function CompletedIds(dir: set<string>): (ids: set<int>)
    ensures forall f :: f in dir && IsProblemFile(f) && ParseId(f).Some? ==> ParseId(f).value in ids
    ensures forall id :: id in ids ==> exists f :: f in dir && IsProblemFile(f) && ParseId(f) == Some(id)
  {
    var ids := ReadIds(dir, IdOf);
    assert forall f :: IdOf(f).Some? ==> IdOf(f) == ParseId(f);
    ids
  }

  /** A saved result marks its problem completed. */
  lemma {:induction false} SavedIsCompleted(dir: set<string>, id: int, ts: string)
    ensures CompletedIds(dir + {FileName(id, ts)}) == CompletedIds(dir) + {id}
  {
    ParseIdFileName(id, ts);
    assert IdOf(FileName(id, ts)) == Some(id);
    ReadIdsAdd(dir, FileName(id, ts), IdOf);
  }

  /** A matching name whose second field is not an integer marks nothing. */
  lemma {:induction false} MalformedIgnored(dir: set<string>, f: string)
    requires ParseId(f).None?
    ensures CompletedIds(dir + {f}) == CompletedIds(dir)
  {
    assert IdOf(f).None?;
    ReadIdsAdd(dir, f, IdOf);
  }

  const SummaryPrefix: string := "summary_"

  /** The batch summary's file name, `summary_{timestamp}.json`. */
  function SummaryName(ts: string): string {
    SummaryPrefix + ts + JsonSuffix
  }

  /** The summary never counts as a completed problem. */
  lemma {:induction false} SummaryIgnored(dir: set<string>, ts: string)
    ensures CompletedIds(dir + {SummaryName(ts)}) == CompletedIds(dir)
  {
    var name := SummaryName(ts);
    assert name[0] != ProblemPrefix[0];
    assert !IsProblemFile(name);
    ReadIdsAdd(dir, name, IdOf);
  }

  /** The problems a batch hands to the debate, in input order: those whose
      id is not already completed. */
  function Pending(problems: seq<Problem>, completed: set<int>): (ps: seq<Problem>)
    ensures |ps| <= |problems|
  {
    if problems == [] then []
    else
      var n := |problems| - 1;
      Pending(problems[..n], completed) + if problems[n].id in completed then [] else [problems[n]]
  }

  /** Exactly the problems whose id is not completed are handed on. */
  lemma {:induction false} PendingMembers(problems: seq<Problem>, completed: set<int>, p: Problem)
    ensures p in Pending(problems, completed) <==> p in problems && p.id !in completed
  {
    if problems != [] {
      var n := |problems| - 1;
      assert problems == problems[..n] + [problems[n]];
      PendingMembers(problems[..n], completed, p);
    }
  }

  /** The problems whose debate produced a result, in order. */
  function Succeeded<T>(ps: seq<Problem>, run: Problem -> Result<T>): (ok: seq<Problem>)
    ensures |ok| <= |ps|
  {
    if ps == [] then []
    else
      var n := |ps| - 1;
      Succeeded(ps[..n], run) + if run(ps[n]).Ok? then [ps[n]] else []
  }

  /** Exactly the problems whose run succeeded are kept. */
  lemma {:induction false} SucceededMembers<T>(ps: seq<Problem>, run: Problem -> Result<T>, p: Problem)
    ensures p in Succeeded(ps, run) <==> p in ps && run(p).Ok?
  {
    if ps != [] {
      var n := |ps| - 1;
      assert ps == ps[..n] + [ps[n]];
      SucceededMembers(ps[..n], run, p);
    }
  }

  /** Every problem kept succeeded. */
  lemma {:induction false} AllSucceeded<T>(ps: seq<Problem>, run: Problem -> Result<T>)
    ensures forall p :: p in Succeeded(ps, run) ==> run(p).Ok?
  {
    forall p | p in Succeeded(ps, run) ensures run(p).Ok? {
      SucceededMembers(ps, run, p);
    }
  }

  /** A failure drops only the failing problem: what succeeds after it is
      the same as if it had not been there. */
  lemma {:induction false} FailureIsolated<T>(before: seq<Problem>, bad: Problem, after: seq<Problem>,
                                             run: Problem -> Result<T>)
    requires run(bad).Err?
    ensures Succeeded(before + [bad] + after, run) == Succeeded(before, run) + Succeeded(after, run)
    decreases |after|
  {
    if after == [] {
      assert before + [bad] + after == before + [bad];
      assert (before + [bad])[..|before|] == before;
    } else {
      var n := |after| - 1;
      var whole := before + [bad] + after;
      assert whole[..|whole| - 1] == before + [bad] + after[..n];
      assert after[..n] + [after[n]] == after;
      FailureIsolated(before, bad, after[..n], run);
    }
  }

  /** The results of the runs that succeeded, in order. */
  function Outputs<T>(ps: seq<Problem>, run: Problem -> Result<T>): (out: seq<T>)
    ensures |out| <= |ps|
  {
    if ps == [] then []
    else
      var n := |ps| - 1;
      Outputs(ps[..n], run) + match run(ps[n]) case Ok(v) => [v] case Err(_) => []
  }

  /** The `k`-th result kept is what the `k`-th successful run returned. */
  lemma {:induction false} OutputsMatch<T>(ps: seq<Problem>, run: Problem -> Result<T>)
    ensures |Outputs(ps, run)| == |Succeeded(ps, run)|
    ensures forall k :: 0 <= k < |Succeeded(ps, run)| ==> run(Succeeded(ps, run)[k]) == Ok(Outputs(ps, run)[k])
  {
    if ps != [] {
      OutputsMatch(ps[..|ps| - 1], run);
    }
  }

  /** The names saved for the problems that succeeded, the `k`-th
      named from its problem's id and the `k`-th timestamp. */
  function Saves(ok: seq<Problem>, now: nat -> string, name: (int, string) -> string): (names: seq<string>)
    ensures |names| == |ok|
  {
    if ok == [] then []
    else
      var n := |ok| - 1;
      Saves(ok[..n], now, name) + [name(ok[n].id, now(n))]
  }

  lemma {:induction false} SavesAt(ok: seq<Problem>, now: nat -> string, name: (int, string) -> string, k: nat)
    requires k < |ok|
    ensures Saves(ok, now, name)[k] == name(ok[k].id, now(k))
  {
    var n := |ok| - 1;
    if k < n {
      SavesAt(ok[..n], now, name, k);
    }
  }

  /** The result files a batch writes. */
  function SavedNames(ok: seq<Problem>, now: nat -> string): (names: seq<string>)
    ensures |names| == |ok|
  {
    Saves(ok, now, FileName)
  }

  /** Each saved name matches `problem_*.json` and reads back as the id of
      the problem saved under it. */
  lemma {:induction false} SavedNamesRead(ok: seq<Problem>, now: nat -> string, k: nat)
    requires k < |ok|
    ensures IsProblemFile(SavedNames(ok, now)[k])
    ensures IdOf(SavedNames(ok, now)[k]) == Some(ok[k].id)
  {
    SavesAt(ok, now, FileName, k);
    ParseIdFileName(ok[k].id, now(k));
  }

  /** The ids the saved names carry are the ids of the problems saved. */
  lemma {:induction false} SavedIds(ok: seq<Problem>, now: nat -> string)
    ensures var saved := SavedNames(ok, now);
            ReadIds(set k | 0 <= k < |saved| :: saved[k], IdOf) == set p | p in ok :: p.id
  {
    var saved := SavedNames(ok, now);
    var names := set k | 0 <= k < |saved| :: saved[k];
    var okIds := set p | p in ok :: p.id;
    forall id | id in ReadIds(names, IdOf) ensures id in okIds {
      var f :| f in names && IdOf(f) == Some(id);
      var k :| 0 <= k < |saved| && saved[k] == f;
      SavedNamesRead(ok, now, k);
      assert ok[k] in ok;
    }
    forall p | p in ok ensures p.id in ReadIds(names, IdOf) {
      var k :| 0 <= k < |ok| && ok[k] == p;
      assert saved[k] in names;
      SavedNamesRead(ok, now, k);
    }
  }

  /** One more problem considered. */
  lemma {:induction false} PendingStep(problems: seq<Problem>, completed: set<int>, i: nat)
    requires i < |problems|
    ensures Pending(problems[..i + 1], completed)
            == Pending(problems[..i], completed) + if problems[i].id in completed then [] else [problems[i]]
  {
    assert problems[..i + 1][..i] == problems[..i];
  }

  /** One more problem run. */
  lemma {:induction false} RunStep<T>(ran: seq<Problem>, p: Problem, run: Problem -> Result<T>)
    ensures Succeeded(ran + [p], run) == Succeeded(ran, run) + if run(p).Ok? then [p] else []
    ensures Outputs(ran + [p], run) == Outputs(ran, run) + match run(p) case Ok(v) => [v] case Err(_) => []
  {
    assert (ran + [p])[..|ran|] == ran;
  }

  /** One more file saved. */
  lemma {:induction false} SaveStep(ok: seq<Problem>, p: Problem, now: nat -> string, name: (int, string) -> string)
    ensures Saves(ok + [p], now, name) == Saves(ok, now, name) + [name(p.id, now(|ok|))]
  {
    assert (ok + [p])[..|ok|] == ok;
  }

  /** What a batch leaves behind: the problems it ran, the results kept, the
      result files saved, the summary file (written only when there is a
      result) and the reported number of completed problems. */
  datatype Run<T> = Run(ran: seq<Problem>, results: seq<T>, saved: seq<string>, summary: Option<string>, total: nat)

  /** `run_all_problems` with the debate abstracted as `run`: a failure is
      an error result, reported and then passed over. */
  method RunAllProblems<T>(problems: seq<Problem>, dir: set<string>, run: Problem -> Result<T>, now: nat -> string)
    returns (r: Run<T>)
    ensures r.ran == Pending(problems, CompletedIds(dir))
    ensures forall p :: p in r.ran ==> p.id !in CompletedIds(dir)
    ensures r.results == Outputs(r.ran, run)
    ensures r.saved == SavedNames(Succeeded(r.ran, run), now)
    ensures r.summary == if r.results == [] then None else Some(SummaryName(now(|r.results|)))
    ensures r.total == |CompletedIds(dir)| + |r.results|
  {
    var completed := CompletedIds(dir);
    var ran: seq<Problem> := [];
    var ok: seq<Problem> := [];
    var results: seq<T> := [];
    var saved: seq<string> := [];
    for i := 0 to |problems|
      invariant ran == Pending(problems[..i], completed)
      invariant ok == Succeeded(ran, run)
      invariant results == Outputs(ran, run)
      invariant saved == Saves(ok, now, FileName)
    {
      var p := problems[i];
      PendingStep(problems, completed, i);
      if p.id !in completed {
        RunStep(ran, p, run);
        ran := ran + [p];
        match run(p)
        case Ok(v) =>
          SaveStep(ok, p, now, FileName);
          saved := saved + [FileName(p.id, now(|ok|))];
          ok := ok + [p];
          results := results + [v];
        case Err(_) =>
      }
    }
    assert problems[..|problems|] == problems;
    forall p | p in ran ensures p.id !in completed {
      PendingMembers(problems, completed, p);
    }
    OutputsMatch(ran, run);
    var summary := if results == [] then None else Some(SummaryName(now(|results|)));
    r := Run(ran, results, saved, summary, |completed| + |results|);
  }

  /** The `k`-th result kept came from a listed problem that was not
      completed, whose run returned it. */
  lemma {:induction false} KeptFromPending<T>(problems: seq<Problem>, completed: set<int>, run: Problem -> Result<T>, k: nat)
    requires k < |Outputs(Pending(problems, completed), run)|
    ensures var ok := Succeeded(Pending(problems, completed), run);
            && k < |ok|
            && ok[k] in problems && ok[k].id !in completed
            && run(ok[k]) == Ok(Outputs(Pending(problems, completed), run)[k])
  {
    var ran := Pending(problems, completed);
    var ok := Succeeded(ran, run);
    OutputsMatch(ran, run);
    assert ok[k] in ok;
    SucceededMembers(ran, run, ok[k]);
    PendingMembers(problems, completed, ok[k]);
  }

  /** The batch with the debate as the runner, each problem answered by
      its own oracle: every judgment kept is about a listed problem that
      was not already completed. */
  method RunAllDebates(problems: seq<Problem>, dir: set<string>, gens: Problem -> Oracle, now: nat -> string)
    returns (r: Run<Judgment>)
    ensures r.ran == Pending(problems, CompletedIds(dir))
    ensures forall k :: 0 <= k < |r.results| ==>
              r.results[k].problem in problems && r.results[k].problem.id !in CompletedIds(dir)
  {
    var run := (p: Problem) => RunDebate(p, gens(p)).outcome;
    r := RunAllProblems(problems, dir, run, now);
    forall k | 0 <= k < |r.results|
      ensures r.results[k].problem in problems && r.results[k].problem.id !in CompletedIds(dir)
    {
      KeptFromPending(problems, CompletedIds(dir), run, k);
    }
  }

  /** Resuming: after a batch, the directory it leaves marks as completed
      exactly what was completed before and every problem that succeeded,
      so running again hands none of those to the debate. */
  lemma {:induction false} ResumeSkipsSaved<T>(problems: seq<Problem>, dir: set<string>, run: Problem -> Result<T>,
                                              now: nat -> string, r: Run<T>)
    requires r.ran == Pending(problems, CompletedIds(dir))
    requires r.saved == SavedNames(Succeeded(r.ran, run), now)
    ensures var after := dir + (set k | 0 <= k < |r.saved| :: r.saved[k]);
            && CompletedIds(after) == CompletedIds(dir) + (set p | p in Succeeded(r.ran, run) :: p.id)
            && forall p :: p in Pending(problems, CompletedIds(after)) ==> p !in Succeeded(r.ran, run)
  {
    var ok := Succeeded(r.ran, run);
    var names := set k | 0 <= k < |r.saved| :: r.saved[k];
    ReadIdsUnion(dir, names, IdOf);
    SavedIds(ok, now);
    var after := dir + names;
    forall p | p in Pending(problems, CompletedIds(after)) ensures p !in ok {
      PendingMembers(problems, CompletedIds(after), p);
    }
  }

  /** The first problem with the given id, if any. */
  function FindProblem(problems: seq<Problem>, id: int): (r: Option<nat>)
    ensures r.Some? ==> r.value < |problems| && problems[r.value].id == id
    ensures r.Some? ==> forall k :: 0 <= k < r.value ==> problems[k].id != id
    ensures r.None? <==> forall k :: 0 <= k < |problems| ==> problems[k].id != id
  {
    if problems == [] then None
    else if problems[0].id == id then Some(0)
    else match FindProblem(problems[1..], id)
      case Some(k) => Some(k + 1)
      case None => None
  }

  /** How `run_single_problem` ends. */
  datatype Single =
    | NotFound                                // "Problem {id} not found!", no debate
    | Raised(error: string)                   // the debate's error escapes; nothing is saved
    | Saved(file: string, judgment: Judgment) // the result file written and the judgment shown

  /** `run_single_problem(problem_id)` on the loaded problems. */
  function RunSingleProblem(problems: seq<Problem>, id: int, gen: Oracle, ts: string): (r: Single)
    ensures r.NotFound? <==> forall k :: 0 <= k < |problems| ==> problems[k].id != id
    ensures r.Saved? ==> r.file == FileName(id, ts) && ParseId(r.file) == Some(id)
    ensures r.Saved? ==> r.judgment.problem.id == id && r.judgment.problem in problems
    ensures !r.NotFound? ==>
              var k := FindProblem(problems, id).value;
              var debate := RunDebate(problems[k], gen);
              && (r.Saved? <==> debate.outcome.Ok?)
              && (r.Saved? ==> r.judgment == debate.outcome.value && r.judgment.problem == problems[k])
              && (r.Raised? ==> debate.outcome == Err(r.error))
  {
    match FindProblem(problems, id)
    case None => NotFound
    case Some(k) =>
      var debate := RunDebate(problems[k], gen);
      ParseIdFileName(id, ts);
      match debate.outcome
      case Err(e) => Raised(e)
      case Ok(j) => Saved(FileName(id, ts), j)
  }
}

=== FILE: debate.dfy ===
/** The debate orchestrator: one problem goes through role binding, three
    independent solutions, six peer reviews, three refinements and one
    judgment, each stage reading only what the stages before it produced.

    Every model call goes through `generate_with_config`; the orchestrator
    sees it as an oracle that answers the `i`-th call of the run with text
    or with a raised error (retries already exhausted). A call is the
    structured content of the prompt (the template wording is left out)
    together with the persona it is made with.

    A stage first builds its list of calls (within a stage no prompt depends
    on another answer of the same stage), then makes them in order, stopping
    at the first failure, and finally packages the answers. Since a raised
    error discards whatever a Python stage had accumulated, this is
    observably the same as the loops of the source. */
module Debate {
  import opened Wrappers
  import opened Settings
  import opened Generation

  datatype SolverId = S1 | S2 | S3

  /** The order in which every stage visits the solvers. */
  const Solvers: seq<SolverId> := [S1, S2, S3]
  const AllSolvers: set<SolverId> := {S1, S2, S3}

  function Index(s: SolverId): (i: nat)
    ensures i < 3 && Solvers[i] == s
  {
    match s
    case S1 => 0
    case S2 => 1
    case S3 => 2
  }

  /** The identifier the Python dictionaries use: `Solver_1` .. `Solver_3`. */
  function Label(s: SolverId): string {
    SolverName(Index(s))
  }

  datatype Identity = Solver(id: SolverId) | Judge

  type Assignments = map<Identity, PersonaConfig>

  datatype Problem = Problem(id: int, question: string, category: string, correctAnswer: string)

  /** What each prompt is built from; the fixed template text around it is left out. */
  datatype Prompt =
    | SolvePrompt(question: string)
    | ReviewPrompt(question: string, target: SolverId, solution: string, reviewerRole: string)
    | RefinePrompt(question: string, original: string,
                   reviewer1: SolverId, review1: string, reviewer2: SolverId, review2: string)
    | JudgePrompt(question: string, refined1: string, refined2: string, refined3: string)

  datatype Call = Call(prompt: Prompt, persona: PersonaConfig)

  /** `generate_with_config` as the orchestrator sees it: the reply to the
      call made at position `i` of the run. */
  type Oracle = (nat, Call) -> Reply

  /** A stage's result together with the calls it made, in order. */
  datatype Staged<T> = Staged(outcome: Result<T>, trace: seq<Call>)

  predicate Answered(gen: Oracle, i: nat, c: Call) {
    gen(i, c).Text?
  }

  /** Every call of `calls`, made from position `start` on, was answered. */
  predicate AllAnswered(gen: Oracle, start: nat, calls: seq<Call>) {
    forall i :: 0 <= i < |calls| ==> Answered(gen, start + i, calls[i])
  }

  /** A stage that meant to make `calls` from position `start`: it made a
      prefix of them; it succeeded exactly when all of them were answered,
      and then it made all of them; when it failed, the last call it made is
      the one that failed and the error is that call's. */
  predicate Issued<T>(r: Staged<T>, gen: Oracle, start: nat, calls: seq<Call>) {
    && r.trace <= calls
    && (r.outcome.Ok? <==> AllAnswered(gen, start, calls))
    && (r.outcome.Ok? ==> r.trace == calls)
    && (r.outcome.Err? ==>
          && |r.trace| >= 1
          && AllAnswered(gen, start, r.trace[..|r.trace| - 1])
          && gen(start + |r.trace| - 1, r.trace[|r.trace| - 1]) == Failure(r.outcome.error))
  }

  lemma {:induction false} AllAnsweredAppend(gen: Oracle, start: nat, xs: seq<Call>, ys: seq<Call>)
    ensures AllAnswered(gen, start, xs + ys) <==> AllAnswered(gen, start, xs) && AllAnswered(gen, start + |xs|, ys)
  {
    if AllAnswered(gen, start, xs) && AllAnswered(gen, start + |xs|, ys) {
      forall i | 0 <= i < |xs + ys| ensures Answered(gen, start + i, (xs + ys)[i]) {
        if i >= |xs| { assert (xs + ys)[i] == ys[i - |xs|]; }
      }
    }
    if AllAnswered(gen, start, xs + ys) {
      forall i | 0 <= i < |ys| ensures Answered(gen, start + |xs| + i, ys[i]) {
        assert (xs + ys)[|xs| + i] == ys[i];
      }
      forall i | 0 <= i < |xs| ensures Answered(gen, start + i, xs[i]) {
        assert (xs + ys)[i] == xs[i];
      }
    }
  }

  /** Position in `calls` of the first call, at or after `from`, that is not
      answered; `|calls|` when every one is. */
  function FirstFailure(calls: seq<Call>, gen: Oracle, start: nat, from: nat): (k: nat)
    requires from <= |calls|
    ensures from <= k <= |calls|
    ensures forall i :: from <= i < k ==> Answered(gen, start + i, calls[i])
    ensures k < |calls| ==> !Answered(gen, start + k, calls[k])
    decreases |calls| - from
  {
    if from == |calls| || !Answered(gen, start + from, calls[from]) then from
    else FirstFailure(calls, gen, start, from + 1)
  }

  /** Makes the calls in order and collects the answers; the first error
      aborts the rest. */
  function CallAll(calls: seq<Call>, gen: Oracle, start: nat): (r: Staged<seq<string>>)
    ensures Issued(r, gen, start, calls)
    ensures r.outcome.Ok? ==>
              && |r.outcome.value| == |calls|
              && forall i :: 0 <= i < |calls| ==> gen(start + i, calls[i]) == Text(r.outcome.value[i])
  {
    var k := FirstFailure(calls, gen, start, 0);
    if k == |calls| then
      Staged(Ok(seq(|calls|, i requires 0 <= i < |calls| => gen(start + i, calls[i]).text)), calls)
    else
      var trace := calls[..k + 1];
      assert trace[..|trace| - 1] == calls[..k];
      Staged(Err(gen(start + k, calls[k]).error), trace)
  }

  // ---------------------------------------------------------------------
  // Stage 0: role assignment

  lemma {:induction false} SolverCase(s: SolverId)
    ensures s == S1 || s == S2 || s == S3
  {
  }

  /** Every solver is in `AllSolvers`. */
  lemma {:induction false} EverySolver()
    ensures forall s: SolverId :: s in AllSolvers
  {
    forall s: SolverId ensures s in AllSolvers {
      SolverCase(s);
    }
  }

  predicate SolversAssigned(a: Assignments) {
    forall s: SolverId :: Solver(s) in a
  }

  /** Binds `Solver_1` .. `Solver_3` to the three solver personas, in table
      order, and `Judge` to the judge persona. No model is consulted. */
  function RoleAssignment(table: PersonaTable): (a: Assignments)
    requires WellFormedTable(table)
    ensures a.Keys == {Solver(S1), Solver(S2), Solver(S3), Judge}
    ensures SolversAssigned(a)
    ensures forall s: SolverId :: a[Solver(s)] == table.solvers[Index(s)]
    ensures forall s: SolverId :: a[Solver(s)].name == Label(s) && a[Solver(s)].role.Some?
    ensures a[Judge] == table.judge
  {
    var a := map[Solver(S1) := table.solvers[0], Solver(S2) := table.solvers[1],
                 Solver(S3) := table.solvers[2], Judge := table.judge];
    assert forall s: SolverId :: Solver(s) in a && a[Solver(s)] == table.solvers[Index(s)] by {
      forall s: SolverId ensures Solver(s) in a && a[Solver(s)] == table.solvers[Index(s)] {
        SolverCase(s);
      }
    }
    a
  }

  /** With the persona table of the system: the judge has no role, and the
      solvers' roles are pairwise different. */
  lemma {:induction false} StandardAssignment()
    ensures WellFormedTable(Personas)
    ensures var a := RoleAssignment(Personas);
            && a[Judge] == JudgeConfig && a[Judge].role.None?
            && forall s: SolverId, t: SolverId :: s != t ==> a[Solver(s)].role != a[Solver(t)].role
  {
    TableShape();
  }

  // ---------------------------------------------------------------------
  // Stage 1: independent solutions

  datatype Solution = Solution(rawResponse: string, config: PersonaConfig)

  type Solutions = map<SolverId, Solution>

  predicate SolvedAll(solutions: Solutions) {
    forall s: SolverId :: s in solutions
  }

  function SolveCall(problem: Problem, a: Assignments, s: SolverId): Call
    requires SolversAssigned(a)
  {
    Call(SolvePrompt(problem.question), a[Solver(s)])
  }

  function SolveCalls(problem: Problem, a: Assignments): (calls: seq<Call>)
    requires SolversAssigned(a)
    ensures |calls| == 3 && forall i :: 0 <= i < 3 ==> calls[i] == SolveCall(problem, a, Solvers[i])
  {
    [SolveCall(problem, a, S1), SolveCall(problem, a, S2), SolveCall(problem, a, S3)]
  }

  /** Stage 1: each solver, in order, answers the question with its own
      persona; its reply is kept verbatim beside the persona used. */
  function IndependentSolutions(problem: Problem, a: Assignments, gen: Oracle, start: nat): (r: Staged<Solutions>)
    requires SolversAssigned(a)
    ensures Issued(r, gen, start, SolveCalls(problem, a))
    ensures r.outcome.Ok? ==>
              && SolvedAll(r.outcome.value)
              && forall s: SolverId ::
                   && gen(start + Index(s), SolveCall(problem, a, s)) == Text(r.outcome.value[s].rawResponse)
                   && r.outcome.value[s].config == a[Solver(s)]
  {
    var calls := SolveCalls(problem, a);
    var r := CallAll(calls, gen, start);
    match r.outcome
    case Err(e) => Staged(Err(e), r.trace)
    case Ok(texts) => Staged(Ok(Collect(texts, a)), r.trace)
  }

  /** The replies, one per solver in solver order, each beside its persona. */
  function Collect(texts: seq<string>, a: Assignments): (solutions: Solutions)
    requires |texts| == 3 && SolversAssigned(a)
    ensures SolvedAll(solutions)
    ensures forall s: SolverId :: solutions[s] == Solution(texts[Index(s)], a[Solver(s)])
  {
    EverySolver();
    map s: SolverId | s in AllSolvers :: Solution(texts[Index(s)], a[Solver(s)])
  }

  // ---------------------------------------------------------------------
  // Stage 2: peer review

  datatype Review = Review(from: SolverId, review: string)

  type Reviews = map<SolverId, seq<Review>>

  /** `ids` without `x`, order kept. */
  function Without(ids: seq<SolverId>, x: SolverId): seq<SolverId> {
    if ids == [] then [] else (if ids[0] != x then [ids[0]] else []) + Without(ids[1..], x)
  }

  /** The peers of `s`, in solver order. */
  function Others(s: SolverId): seq<SolverId> {
    Without(Solvers, s)
  }

  /** The (reviewer, target) pairs the nested loops visit: reviewer-major,
      targets in order, skipping the reviewer itself. */
  function PairsOf(reviewers: seq<SolverId>, targets: seq<SolverId>): seq<(SolverId, SolverId)> {
    if reviewers == [] then []
    else
      var r := reviewers[0];
      var ts := Without(targets, r);
      seq(|ts|, i requires 0 <= i < |ts| => (r, ts[i])) + PairsOf(reviewers[1..], targets)
  }

  /** The six review calls, in the order they are made. */
  const ReviewOrder: seq<(SolverId, SolverId)> := [(S1, S2), (S1, S3), (S2, S1), (S2, S3), (S3, S1), (S3, S2)]

  /** The nested loops over reviewers and targets visit exactly these pairs,
      in this order, and each solver's peers are the other two in solver order. */
  lemma {:induction false} ReviewOrderFromLoops()
    ensures PairsOf(Solvers, Solvers) == ReviewOrder
    ensures Others(S1) == [S2, S3] && Others(S2) == [S1, S3] && Others(S3) == [S1, S2]
  {
  }

  /** Every ordered pair of two different solvers is visited exactly once,
      and no solver is ever asked to review itself. */
  lemma {:induction false} ReviewOrderCoversPairs()
    ensures |ReviewOrder| == 6
    ensures forall i :: 0 <= i < 6 ==> ReviewOrder[i].0 != ReviewOrder[i].1
    ensures forall i, j :: 0 <= i < j < 6 ==> ReviewOrder[i] != ReviewOrder[j]
    ensures forall x: SolverId, y: SolverId :: x != y ==> (x, y) in ReviewOrder
  {
    EverySolver();
  }

  /** Position of the review `reviewer` writes about `target` among the six calls. */
  function Slot(reviewer: SolverId, target: SolverId): (i: nat)
    requires reviewer != target
    ensures i < |ReviewOrder| && ReviewOrder[i] == (reviewer, target)
  {
    2 * Index(reviewer) + (if Index(target) > Index(reviewer) then Index(target) - 1 else Index(target))
  }

  /** Every reviewer can be asked for its role. */
  predicate ReviewersReady(a: Assignments) {
    SolversAssigned(a) && forall s: SolverId :: a[Solver(s)].role.Some?
  }

  /** The reviewer's persona and role, the target's label and solution. */
  function ReviewCall(problem: Problem, solutions: Solutions, a: Assignments, pair: (SolverId, SolverId)): Call
    requires ReviewersReady(a) && SolvedAll(solutions)
  {
    var (reviewer, target) := pair;
    var config := a[Solver(reviewer)];
    Call(ReviewPrompt(problem.question, target, solutions[target].rawResponse, config.role.value), config)
  }

  function ReviewCalls(problem: Problem, solutions: Solutions, a: Assignments): (calls: seq<Call>)
    requires ReviewersReady(a) && SolvedAll(solutions)
    ensures |calls| == |ReviewOrder|
    ensures forall i :: 0 <= i < |calls| ==> calls[i] == ReviewCall(problem, solutions, a, ReviewOrder[i])
  {
    seq(|ReviewOrder|, i requires 0 <= i < |ReviewOrder| => ReviewCall(problem, solutions, a, ReviewOrder[i]))
  }

  /** A review prompt names the solution under review (not its reviewer)
      and carries that solution's text, while the call itself is made with
      the reviewer's persona and role. */
  lemma {:induction false} ReviewCallShape(problem: Problem, solutions: Solutions, a: Assignments, reviewer: SolverId, target: SolverId)
    requires ReviewersReady(a) && SolvedAll(solutions) && reviewer != target
    ensures var c := ReviewCall(problem, solutions, a, (reviewer, target));
            && c.prompt.target == target != reviewer
            && c.prompt.solution == solutions[target].rawResponse
            && c.persona == a[Solver(reviewer)]
            && Some(c.prompt.reviewerRole) == a[Solver(reviewer)].role
  {
  }

  predicate HasAllTargets(reviews: Reviews) {
    forall s: SolverId :: s in reviews
  }

  /** The Python accumulation: each answer is appended to its target's list. */
  function Deliver(reviews: Reviews, pairs: seq<(SolverId, SolverId)>, answers: seq<string>): (r: Reviews)
    requires |pairs| == |answers| && HasAllTargets(reviews)
    ensures HasAllTargets(r)
    decreases |pairs|
  {
    if pairs == [] then reviews
    else
      var (reviewer, target) := pairs[0];
      Deliver(reviews[target := reviews[target] + [Review(reviewer, answers[0])]], pairs[1..], answers[1..])
  }

  /** The reviews addressed to `target`, in the order they were made. */
  function ReceivedBy(pairs: seq<(SolverId, SolverId)>, answers: seq<string>, target: SolverId): seq<Review>
    requires |pairs| == |answers|
    decreases |pairs|
  {
    if pairs == [] then []
    else
      (if pairs[0].1 == target then [Review(pairs[0].0, answers[0])] else [])
      + ReceivedBy(pairs[1..], answers[1..], target)
  }

  /** Appending answer by answer leaves each target's list extended by
      exactly the reviews addressed to it, in call order. */
  lemma {:induction false} DeliverAppends(reviews: Reviews, pairs: seq<(SolverId, SolverId)>, answers: seq<string>, t: SolverId)
    requires |pairs| == |answers| && HasAllTargets(reviews)
    ensures Deliver(reviews, pairs, answers)[t] == reviews[t] + ReceivedBy(pairs, answers, t)
    decreases |pairs|
  {
    if pairs != [] {
      var target := pairs[0].1;
      var x := Review(pairs[0].0, answers[0]);
      var next := reviews[target := reviews[target] + [x]];
      var rest := ReceivedBy(pairs[1..], answers[1..], t);
      DeliverAppends(next, pairs[1..], answers[1..], t);
      if target == t {
        assert ReceivedBy(pairs, answers, t) == [x] + rest;
        assert reviews[t] + [x] + rest == reviews[t] + ([x] + rest);
      } else {
        assert ReceivedBy(pairs, answers, t) == rest;
      }
    }
  }

  lemma {:induction false} ReceivedByAt(pairs: seq<(SolverId, SolverId)>, answers: seq<string>, k: nat, t: SolverId)
    requires |pairs| == |answers| && k < |pairs|
    ensures ReceivedBy(pairs[k..], answers[k..], t) ==
            (if pairs[k].1 == t then [Review(pairs[k].0, answers[k])] else [])
            + ReceivedBy(pairs[k + 1..], answers[k + 1..], t)
  {
    assert pairs[k..][1..] == pairs[k + 1..];
    assert answers[k..][1..] == answers[k + 1..];
  }

  /** The reviews addressed to `t` over the six review calls. */
  lemma {:induction false} ReceivedByReviewOrder(answers: seq<string>, t: SolverId)
    requires |answers| == 6
    ensures t == S1 ==> ReceivedBy(ReviewOrder, answers, t) == [Review(S2, answers[2]), Review(S3, answers[4])]
    ensures t == S2 ==> ReceivedBy(ReviewOrder, answers, t) == [Review(S1, answers[0]), Review(S3, answers[5])]
    ensures t == S3 ==> ReceivedBy(ReviewOrder, answers, t) == [Review(S1, answers[1]), Review(S2, answers[3])]
  {
    var p := ReviewOrder;
    ReceivedByAt(p, answers, 0, t);
    ReceivedByAt(p, answers, 1, t);
    ReceivedByAt(p, answers, 2, t);
    ReceivedByAt(p, answers, 3, t);
    ReceivedByAt(p, answers, 4, t);
    ReceivedByAt(p, answers, 5, t);
    assert p[0..] == p;
    assert answers[0..] == answers;
    assert ReceivedBy(p[6..], answers[6..], t) == [];
  }

  const NoReviews: Reviews := map s: SolverId | s in AllSolvers :: []

  function Froms(rs: seq<Review>): seq<SolverId> {
    seq(|rs|, i requires 0 <= i < |rs| => rs[i].from)
  }

  /** After the six review answers are delivered, each solver holds one
      review from each peer, in solver order, each being the answer of the
      call that peer made about it. */
  lemma {:induction false} DeliveredTo(answers: seq<string>, t: SolverId)
    requires |answers| == 6
    ensures HasAllTargets(NoReviews)
    ensures var rs := Deliver(NoReviews, ReviewOrder, answers)[t];
            && |rs| == 2
            && Froms(rs) == Others(t)
            && forall k :: 0 <= k < |rs| ==> rs[k].from != t && rs[k].review == answers[Slot(rs[k].from, t)]
  {
    EverySolver();
    DeliverAppends(NoReviews, ReviewOrder, answers, t);
    assert NoReviews[t] == [];
    ReceivedFromPeers(answers, t);
  }

  /** The reviews addressed to `t` come one from each peer, in solver order. */
  lemma {:induction false} ReceivedFromPeers(answers: seq<string>, t: SolverId)
    requires |answers| == 6
    ensures var rs := ReceivedBy(ReviewOrder, answers, t);
            && |rs| == 2
            && Froms(rs) == Others(t)
            && forall k :: 0 <= k < |rs| ==> rs[k].from != t && rs[k].review == answers[Slot(rs[k].from, t)]
  {
    ReviewOrderFromLoops();
    ReceivedByReviewOrder(answers, t);
    var rs := ReceivedBy(ReviewOrder, answers, t);
    match t
    case S1 =>
      assert Froms(rs) == [S2, S3];
      assert Slot(S2, S1) == 2 && Slot(S3, S1) == 4;
    case S2 =>
      assert Froms(rs) == [S1, S3];
      assert Slot(S1, S2) == 0 && Slot(S3, S2) == 5;
    case S3 =>
      assert Froms(rs) == [S1, S2];
      assert Slot(S1, S3) == 1 && Slot(S2, S3) == 3;
  }

  /** What `t`'s review list holds once the six review calls `calls` have
      all been answered: two reviews, one from each peer in solver order,
      each being the answer to the call that peer made about `t`. */
  predicate ReviewedBy(rs: seq<Review>, t: SolverId, calls: seq<Call>, gen: Oracle, start: nat)
    requires |calls| == 6
  {
    && |rs| == 2
    && Froms(rs) == Others(t)
    && forall k :: 0 <= k < 2 ==>
         rs[k].from != t && gen(start + Slot(rs[k].from, t), calls[Slot(rs[k].from, t)]) == Text(rs[k].review)
  }

  predicate WellReviewed(reviews: Reviews, calls: seq<Call>, gen: Oracle, start: nat)
    requires |calls| == 6
  {
    HasAllTargets(reviews) && forall t: SolverId :: ReviewedBy(reviews[t], t, calls, gen, start)
  }

  lemma {:induction false} DeliveredOne(calls: seq<Call>, gen: Oracle, start: nat, answers: seq<string>, t: SolverId)
    requires |calls| == 6 && |answers| == 6
    requires forall i :: 0 <= i < 6 ==> gen(start + i, calls[i]) == Text(answers[i])
    ensures HasAllTargets(NoReviews)
    ensures ReviewedBy(Deliver(NoReviews, ReviewOrder, answers)[t], t, calls, gen, start)
  {
    DeliveredTo(answers, t);
  }

  lemma {:induction false} DeliveredAll(calls: seq<Call>, gen: Oracle, start: nat, answers: seq<string>)
    requires |calls| == 6 && |answers| == 6
    requires forall i :: 0 <= i < 6 ==> gen(start + i, calls[i]) == Text(answers[i])
    ensures HasAllTargets(NoReviews)
    ensures WellReviewed(Deliver(NoReviews, ReviewOrder, answers), calls, gen, start)
  {
    DeliveredOne(calls, gen, start, answers, S1);
    var reviews := Deliver(NoReviews, ReviewOrder, answers);
    forall t: SolverId ensures ReviewedBy(reviews[t], t, calls, gen, start) {
      DeliveredOne(calls, gen, start, answers, t);
    }
  }

  /** Stage 2: every solver reviews each of the other two. Each target ends
      with exactly two reviews, one from each peer in solver order, never its
      own; each review is the answer to the call that peer made about it. */
  function PeerReview(problem: Problem, solutions: Solutions, a: Assignments, gen: Oracle, start: nat): (r: Staged<Reviews>)
    requires ReviewersReady(a) && SolvedAll(solutions)
    ensures Issued(r, gen, start, ReviewCalls(problem, solutions, a))
    ensures r.outcome.Ok? ==> WellReviewed(r.outcome.value, ReviewCalls(problem, solutions, a), gen, start)
  {
    var calls := ReviewCalls(problem, solutions, a);
    var r := CallAll(calls, gen, start);
    match r.outcome
    case Err(e) => Staged(Err(e), r.trace)
    case Ok(answers) =>
      DeliveredAll(calls, gen, start, answers);
      Staged(Ok(Deliver(NoReviews, ReviewOrder, answers)), r.trace)
  }

  // ---------------------------------------------------------------------
  // Stage 3: refinement

  datatype Refinement = Refinement(original: string, refined: string, reviewsReceived: seq<Review>)

  type Refinements = map<SolverId, Refinement>

  /** Every solver's list holds the two positions stage 3 reads. */
  predicate ReviewedAll(reviews: Reviews) {
    forall s: SolverId :: s in reviews && |reviews[s]| >= 2
  }

  /** The solver's own persona, its original text, and its first two reviews in list order. */
  function RefineCall(problem: Problem, solutions: Solutions, reviews: Reviews, a: Assignments, s: SolverId): Call
    requires SolversAssigned(a) && SolvedAll(solutions) && ReviewedAll(reviews)
  {
    var rs := reviews[s];
    Call(RefinePrompt(problem.question, solutions[s].rawResponse, rs[0].from, rs[0].review, rs[1].from, rs[1].review),
         a[Solver(s)])
  }

  function RefineCalls(problem: Problem, solutions: Solutions, reviews: Reviews, a: Assignments): (calls: seq<Call>)
    requires SolversAssigned(a) && SolvedAll(solutions) && ReviewedAll(reviews)
    ensures |calls| == 3 && forall i :: 0 <= i < 3 ==> calls[i] == RefineCall(problem, solutions, reviews, a, Solvers[i])
  {
    [RefineCall(problem, solutions, reviews, a, S1), RefineCall(problem, solutions, reviews, a, S2),
     RefineCall(problem, solutions, reviews, a, S3)]
  }

  /** Stage 3: each solver, in order, revises its solution in the light of
      the two reviews it received; the record keeps the original text, the
      reply, and the very review list that was read. */
  function Refine(problem: Problem, solutions: Solutions, reviews: Reviews, a: Assignments, gen: Oracle, start: nat)
    : (r: Staged<Refinements>)
    requires SolversAssigned(a) && SolvedAll(solutions) && ReviewedAll(reviews)
    ensures Issued(r, gen, start, RefineCalls(problem, solutions, reviews, a))
    ensures r.outcome.Ok? ==>
              && RefinedAll(r.outcome.value)
              && forall s: SolverId ::
                   && r.outcome.value[s].original == solutions[s].rawResponse
                   && r.outcome.value[s].reviewsReceived == reviews[s]
                   && gen(start + Index(s), RefineCall(problem, solutions, reviews, a, s))
                      == Text(r.outcome.value[s].refined)
  {
    var calls := RefineCalls(problem, solutions, reviews, a);
    var r := CallAll(calls, gen, start);
    match r.outcome
    case Err(e) => Staged(Err(e), r.trace)
    case Ok(texts) => Staged(Ok(CollectRefined(texts, solutions, reviews)), r.trace)
  }

  /** The replies, one per solver in solver order, each beside the original
      text and the reviews that were read. */
  function CollectRefined(texts: seq<string>, solutions: Solutions, reviews: Reviews): (refined: Refinements)
    requires |texts| == 3 && SolvedAll(solutions) && ReviewedAll(reviews)
    ensures RefinedAll(refined)
    ensures forall s: SolverId :: refined[s] == Refinement(solutions[s].rawResponse, texts[Index(s)], reviews[s])
  {
    EverySolver();
    map s: SolverId | s in AllSolvers :: Refinement(solutions[s].rawResponse, texts[Index(s)], reviews[s])
  }

  // ---------------------------------------------------------------------
  // Stage 4: final judgment

  datatype Judgment = Judgment(judgment: string, problem: Problem, allSolutions: Refinements)

  predicate RefinedAll(refined: Refinements) {
    forall s: SolverId :: s in refined
  }

  /** The judge persona (from the table, not from the assignments) and the
      three refined texts, nothing from earlier stages. */
  function JudgeCall(problem: Problem, refined: Refinements, judge: PersonaConfig): Call
    requires RefinedAll(refined)
  {
    Call(JudgePrompt(problem.question, refined[S1].refined, refined[S2].refined, refined[S3].refined), judge)
  }

  /** Stage 4: one call to the judge; the result packages its verdict, the
      problem and the refinements. */
  function FinalJudgment(problem: Problem, refined: Refinements, judge: PersonaConfig, gen: Oracle, start: nat)
    : (r: Staged<Judgment>)
    requires RefinedAll(refined)
    ensures Issued(r, gen, start, [JudgeCall(problem, refined, judge)])
    ensures r.outcome.Ok? ==>
              && r.outcome.value.problem == problem
              && r.outcome.value.allSolutions == refined
              && gen(start, JudgeCall(problem, refined, judge)) == Text(r.outcome.value.judgment)
  {
    var r := CallAll([JudgeCall(problem, refined, judge)], gen, start);
    match r.outcome
    case Err(e) => Staged(Err(e), r.trace)
    case Ok(texts) => Staged(Ok(Judgment(texts[0], problem, refined)), r.trace)
  }

  // ---------------------------------------------------------------------
  // The whole run

  /** Which stage a prompt belongs to. */
  function StageOf(p: Prompt): nat {
    match p
    case SolvePrompt(_) => 1
    case ReviewPrompt(_, _, _, _) => 2
    case RefinePrompt(_, _, _, _, _, _) => 3
    case JudgePrompt(_, _, _, _) => 4
  }

  /** The stage of each of the thirteen calls of a run. */
  const StageSchedule: seq<nat> := [1, 1, 1, 2, 2, 2, 2, 2, 2, 3, 3, 3, 4]

  /** The persona of each of the thirteen calls of a run. */
  function PersonaSchedule(table: PersonaTable): (ps: seq<PersonaConfig>)
    requires |table.solvers| == 3
    ensures |ps| == 13
  {
    var p := table.solvers;
    [p[0], p[1], p[2], p[0], p[0], p[1], p[1], p[2], p[2], p[0], p[1], p[2], table.judge]
  }

  /** `c` is the call the schedule puts at position `i` of a run. */
  predicate Scheduled(c: Call, i: nat, table: PersonaTable)
    requires |table.solvers| == 3 && i < 13
  {
    StageOf(c.prompt) == StageSchedule[i] && c.persona == PersonaSchedule(table)[i]
  }

  /** `calls`, made from position `offset` of a run, follow the schedule. */
  predicate OnScheduleFrom(calls: seq<Call>, offset: nat, table: PersonaTable) {
    && |table.solvers| == 3
    && offset + |calls| <= 13
    && forall i :: 0 <= i < |calls| ==> Scheduled(calls[i], offset + i, table)
  }

  /** The calls of a run from position `from` on follow the schedule. */
  predicate ScheduledFrom(trace: seq<Call>, from: nat, table: PersonaTable) {
    && |table.solvers| == 3
    && |trace| <= 13
    && forall i :: from <= i < |trace| ==> Scheduled(trace[i], i, table)
  }

  predicate OnSchedule(trace: seq<Call>, table: PersonaTable) {
    ScheduledFrom(trace, 0, table)
  }

  lemma {:induction false} OnSchedulePrefix(calls: seq<Call>, t: seq<Call>, offset: nat, table: PersonaTable)
    requires OnScheduleFrom(calls, offset, table) && t <= calls
    ensures OnScheduleFrom(t, offset, table)
  {
    assert forall i :: 0 <= i < |t| ==> t[i] == calls[i];
  }

  /** A stage whose calls were issued right after `done`, in a run whose
      later calls follow the schedule. */
  lemma {:induction false} ScheduleExtend(done: seq<Call>, issued: seq<Call>, whole: seq<Call>, table: PersonaTable)
    requires done + issued <= whole
    requires OnScheduleFrom(issued, |done|, table) && ScheduledFrom(whole, |done| + |issued|, table)
    ensures ScheduledFrom(whole, |done|, table)
  {
    forall i | |done| <= i < |done| + |issued|
      ensures Scheduled(whole[i], i, table)
    {
      assert whole[i] == (done + issued)[i] == issued[i - |done|];
    }
  }

  /** The solving calls are calls 1 to 3 of the schedule. */
  lemma {:induction false} SolveOnSchedule(problem: Problem, table: PersonaTable)
    requires WellFormedTable(table)
    ensures OnScheduleFrom(SolveCalls(problem, RoleAssignment(table)), 0, table)
  {
  }

  /** The review calls are calls 4 to 9: each reviewer twice in a row. */
  lemma {:induction false} ReviewOnSchedule(problem: Problem, solutions: Solutions, table: PersonaTable)
    requires WellFormedTable(table) && SolvedAll(solutions)
    ensures OnScheduleFrom(ReviewCalls(problem, solutions, RoleAssignment(table)), 3, table)
  {
    var a := RoleAssignment(table);
    var rc := ReviewCalls(problem, solutions, a);
    assert rc[0].persona == a[Solver(S1)] && rc[1].persona == a[Solver(S1)];
    assert rc[2].persona == a[Solver(S2)] && rc[3].persona == a[Solver(S2)];
    assert rc[4].persona == a[Solver(S3)] && rc[5].persona == a[Solver(S3)];
  }

  /** The refinement calls are calls 10 to 12. */
  lemma {:induction false} RefineOnSchedule(problem: Problem, solutions: Solutions, reviews: Reviews, table: PersonaTable)
    requires WellFormedTable(table) && SolvedAll(solutions) && ReviewedAll(reviews)
    ensures OnScheduleFrom(RefineCalls(problem, solutions, reviews, RoleAssignment(table)), 9, table)
  {
  }

  /** The judge call is the thirteenth. */
  lemma {:induction false} JudgeOnSchedule(problem: Problem, refined: Refinements, table: PersonaTable)
    requires |table.solvers| == 3 && RefinedAll(refined)
    ensures OnScheduleFrom([JudgeCall(problem, refined, table.judge)], 12, table)
  {
  }

  lemma {:induction false} SliceOfPrefix<T>(p: seq<T>, w: seq<T>, i: nat, j: nat)
    requires p <= w && i <= j <= |p|
    ensures w[i..j] == p[i..j]
  {
    assert w[..|p|] == p;
  }

  lemma {:induction false} SliceOfAppend<T>(a: seq<T>, b: seq<T>)
    ensures (a + b)[|a|..|a| + |b|] == b
  {
  }

  /** The calls of a run so far were answered, except that a failed run's
      last call is the one that failed. */
  predicate Settled(trace: seq<Call>, ok: bool, gen: Oracle) {
    && (ok ==> AllAnswered(gen, 0, trace))
    && (!ok ==>
          && |trace| >= 1
          && AllAnswered(gen, 0, trace[..|trace| - 1])
          && !Answered(gen, |trace| - 1, trace[|trace| - 1]))
  }

  /** Running one more stage after calls that were all answered. */
  lemma {:induction false} Extend<T>(gen: Oracle, done: seq<Call>, r: Staged<T>, calls: seq<Call>)
    requires AllAnswered(gen, 0, done)
    requires Issued(r, gen, |done|, calls)
    ensures Settled(done + r.trace, r.outcome.Ok?, gen)
    ensures r.outcome.Ok? ==> done + r.trace == done + calls
  {
    var trace := done + r.trace;
    if r.outcome.Ok? {
      AllAnsweredAppend(gen, 0, done, r.trace);
    } else {
      assert trace[..|trace| - 1] == done + r.trace[..|r.trace| - 1];
      AllAnsweredAppend(gen, 0, done, r.trace[..|r.trace| - 1]);
      assert trace[|trace| - 1] == r.trace[|r.trace| - 1];
    }
  }

  /** The judgment came from the thirteenth call, made with the judge
      persona on the three refined texts only. */
  predicate JudgedAt(j: Judgment, problem: Problem, judge: PersonaConfig, trace: seq<Call>, gen: Oracle) {
    && |trace| == 13
    && j.problem == problem
    && RefinedAll(j.allSolutions)
    && trace[12] == JudgeCall(problem, j.allSolutions, judge)
    && gen(12, trace[12]) == Text(j.judgment)
  }

  /** Each refined text is the reply to that solver's refinement call, whose
      prompt carries the original text and the two reviews recorded for it. */
  predicate RefinedAt(j: Judgment, trace: seq<Call>, gen: Oracle) {
    && |trace| == 13
    && RefinedAll(j.allSolutions)
    && forall s: SolverId ::
         var rec := j.allSolutions[s];
         && gen(9 + Index(s), trace[9 + Index(s)]) == Text(rec.refined)
         && |rec.reviewsReceived| >= 2
         && trace[9 + Index(s)].prompt
            == RefinePrompt(j.problem.question, rec.original,
                            rec.reviewsReceived[0].from, rec.reviewsReceived[0].review,
                            rec.reviewsReceived[1].from, rec.reviewsReceived[1].review)
  }

  /** Each solver's recorded reviews are the answers of calls 4 to 9 described by `ReviewedBy`. */
  predicate ReviewedAt(j: Judgment, trace: seq<Call>, gen: Oracle) {
    && |trace| == 13
    && RefinedAll(j.allSolutions)
    && forall s: SolverId :: ReviewedBy(j.allSolutions[s].reviewsReceived, s, trace[3..9], gen, 3)
  }

  /** Each recorded original text is the verbatim reply to that solver's first call. */
  predicate SolvedAt(j: Judgment, trace: seq<Call>, gen: Oracle) {
    && |trace| == 13
    && RefinedAll(j.allSolutions)
    && forall s: SolverId :: gen(Index(s), trace[Index(s)]) == Text(j.allSolutions[s].original)
  }

  /** Stage 4 after twelve answered calls. */
  function AfterRefinement(problem: Problem, refined: Refinements, table: PersonaTable, done: seq<Call>, gen: Oracle)
    : (r: Staged<Judgment>)
    requires |table.solvers| == 3 && RefinedAll(refined) && |done| == 12 && AllAnswered(gen, 0, done)
    ensures Settled(r.trace, r.outcome.Ok?, gen)
    ensures done <= r.trace && ScheduledFrom(r.trace, 12, table)
    ensures r.outcome.Ok? ==>
              JudgedAt(r.outcome.value, problem, table.judge, r.trace, gen) && r.outcome.value.allSolutions == refined
  {
    var call := JudgeCall(problem, refined, table.judge);
    var r4 := FinalJudgment(problem, refined, table.judge, gen, 12);
    Extend(gen, done, r4, [call]);
    var trace := done + r4.trace;
    JudgeOnSchedule(problem, refined, table);
    OnSchedulePrefix([call], r4.trace, 12, table);
    ScheduleExtend(done, r4.trace, trace, table);
    Staged(r4.outcome, trace)
  }

  /** Stages 3 and 4 after nine answered calls. */
  function AfterReview(problem: Problem, table: PersonaTable, a: Assignments, solutions: Solutions, reviews: Reviews,
                       done: seq<Call>, gen: Oracle): (r: Staged<Judgment>)
    requires WellFormedTable(table) && a == RoleAssignment(table) && SolvedAll(solutions) && ReviewedAll(reviews)
    requires |done| == 9 && AllAnswered(gen, 0, done)
    ensures Settled(r.trace, r.outcome.Ok?, gen)
    ensures done <= r.trace
    ensures r.outcome.Ok? ==> JudgedAt(r.outcome.value, problem, table.judge, r.trace, gen)
  {
    var r3 := Refine(problem, solutions, reviews, a, gen, 9);
    Extend(gen, done, r3, RefineCalls(problem, solutions, reviews, a));
    match r3.outcome
    case Err(e3) => Staged(Err(e3), done + r3.trace)
    case Ok(refined) => AfterRefinement(problem, refined, table, done + r3.trace, gen)
  }

  lemma {:induction false} AfterReviewSchedule(problem: Problem, table: PersonaTable, a: Assignments, solutions: Solutions, reviews: Reviews,
                            done: seq<Call>, gen: Oracle)
    requires WellFormedTable(table) && a == RoleAssignment(table) && SolvedAll(solutions) && ReviewedAll(reviews)
    requires |done| == 9 && AllAnswered(gen, 0, done)
    ensures ScheduledFrom(AfterReview(problem, table, a, solutions, reviews, done, gen).trace, 9, table)
  {
    var r3 := Refine(problem, solutions, reviews, a, gen, 9);
    var calls := RefineCalls(problem, solutions, reviews, a);
    Extend(gen, done, r3, calls);
    RefineOnSchedule(problem, solutions, reviews, table);
    OnSchedulePrefix(calls, r3.trace, 9, table);
    var r := AfterReview(problem, table, a, solutions, reviews, done, gen);
    if r3.outcome.Ok? {
      assert r == AfterRefinement(problem, r3.outcome.value, table, done + r3.trace, gen);
    }
    ScheduleExtend(done, r3.trace, r.trace, table);
  }

  lemma {:induction false} AfterReviewRecord(problem: Problem, table: PersonaTable, a: Assignments, solutions: Solutions, reviews: Reviews,
                          done: seq<Call>, gen: Oracle)
    requires WellFormedTable(table) && a == RoleAssignment(table) && SolvedAll(solutions) && ReviewedAll(reviews)
    requires |done| == 9 && AllAnswered(gen, 0, done)
    ensures var r := AfterReview(problem, table, a, solutions, reviews, done, gen);
            r.outcome.Ok? ==>
              && RefinedAt(r.outcome.value, r.trace, gen)
              && forall s: SolverId ::
                   && r.outcome.value.allSolutions[s].original == solutions[s].rawResponse
                   && r.outcome.value.allSolutions[s].reviewsReceived == reviews[s]
  {
    var r3 := Refine(problem, solutions, reviews, a, gen, 9);
    var calls := RefineCalls(problem, solutions, reviews, a);
    Extend(gen, done, r3, calls);
    var r := AfterReview(problem, table, a, solutions, reviews, done, gen);
    if r.outcome.Ok? {
      assert forall s: SolverId :: r.trace[9 + Index(s)] == calls[Index(s)];
    }
  }

  /** Stages 3 and 4 carry each solver's original text and reviews into the judgment unchanged. */
  lemma {:induction false} AfterReviewKeeps(problem: Problem, table: PersonaTable, a: Assignments, solutions: Solutions, reviews: Reviews,
                         done: seq<Call>, gen: Oracle)
    requires WellFormedTable(table) && a == RoleAssignment(table) && SolvedAll(solutions) && ReviewedAll(reviews)
    requires |done| == 9 && AllAnswered(gen, 0, done)
    ensures var r := AfterReview(problem, table, a, solutions, reviews, done, gen);
            r.outcome.Ok? ==>
              forall s: SolverId ::
                && r.outcome.value.allSolutions[s].original == solutions[s].rawResponse
                && r.outcome.value.allSolutions[s].reviewsReceived == reviews[s]
  {
    var r3 := Refine(problem, solutions, reviews, a, gen, 9);
  }

  /** Reviews answered by calls 4 to 9 are the ones the judgment records. */
  lemma {:induction false} AfterReviewReviewed(problem: Problem, table: PersonaTable, a: Assignments, solutions: Solutions, reviews: Reviews,
                            done: seq<Call>, gen: Oracle)
    requires WellFormedTable(table) && a == RoleAssignment(table) && SolvedAll(solutions) && ReviewedAll(reviews)
    requires |done| == 9 && AllAnswered(gen, 0, done)
    requires WellReviewed(reviews, done[3..9], gen, 3)
    ensures var r := AfterReview(problem, table, a, solutions, reviews, done, gen);
            r.outcome.Ok? ==> ReviewedAt(r.outcome.value, r.trace, gen)
  {
    var r := AfterReview(problem, table, a, solutions, reviews, done, gen);
    AfterReviewKeeps(problem, table, a, solutions, reviews, done, gen);
    if r.outcome.Ok? {
      ReviewsRecorded(r.outcome.value, r.trace, reviews, done, gen);
    }
  }

  /** Stages 2 to 4 after three answered calls. */
  function AfterSolving(problem: Problem, table: PersonaTable, a: Assignments, solutions: Solutions, done: seq<Call>, gen: Oracle)
    : (r: Staged<Judgment>)
    requires WellFormedTable(table) && a == RoleAssignment(table) && SolvedAll(solutions)
    requires |done| == 3 && AllAnswered(gen, 0, done)
    ensures Settled(r.trace, r.outcome.Ok?, gen)
    ensures done <= r.trace
    ensures r.outcome.Ok? ==> JudgedAt(r.outcome.value, problem, table.judge, r.trace, gen)
  {
    var r2 := PeerReview(problem, solutions, a, gen, 3);
    Extend(gen, done, r2, ReviewCalls(problem, solutions, a));
    match r2.outcome
    case Err(e2) => Staged(Err(e2), done + r2.trace)
    case Ok(reviews) => AfterReview(problem, table, a, solutions, reviews, done + r2.trace, gen)
  }

  lemma {:induction false} AfterSolvingSchedule(problem: Problem, table: PersonaTable, a: Assignments, solutions: Solutions,
                             done: seq<Call>, gen: Oracle)
    requires WellFormedTable(table) && a == RoleAssignment(table) && SolvedAll(solutions)
    requires |done| == 3 && AllAnswered(gen, 0, done)
    ensures ScheduledFrom(AfterSolving(problem, table, a, solutions, done, gen).trace, 3, table)
  {
    var r2 := PeerReview(problem, solutions, a, gen, 3);
    var calls := ReviewCalls(problem, solutions, a);
    Extend(gen, done, r2, calls);
    ReviewOnSchedule(problem, solutions, table);
    OnSchedulePrefix(calls, r2.trace, 3, table);
    var r := AfterSolving(problem, table, a, solutions, done, gen);
    if r2.outcome.Ok? {
      var prefix := done + r2.trace;
      AfterReviewSchedule(problem, table, a, solutions, r2.outcome.value, prefix, gen);
      assert r == AfterReview(problem, table, a, solutions, r2.outcome.value, prefix, gen);
    }
    ScheduleExtend(done, r2.trace, r.trace, table);
  }

  lemma {:induction false} AfterSolvingRefined(problem: Problem, table: PersonaTable, a: Assignments, solutions: Solutions, done: seq<Call>, gen: Oracle)
    requires WellFormedTable(table) && a == RoleAssignment(table) && SolvedAll(solutions)
    requires |done| == 3 && AllAnswered(gen, 0, done)
    ensures var r := AfterSolving(problem, table, a, solutions, done, gen);
            r.outcome.Ok? ==>
              && RefinedAt(r.outcome.value, r.trace, gen)
              && forall s: SolverId :: r.outcome.value.allSolutions[s].original == solutions[s].rawResponse
  {
    var r2 := PeerReview(problem, solutions, a, gen, 3);
    Extend(gen, done, r2, ReviewCalls(problem, solutions, a));
    if r2.outcome.Ok? {
      AfterReviewRecord(problem, table, a, solutions, r2.outcome.value, done + r2.trace, gen);
    }
  }

  /** Reviews collected from calls 4 to 9 and recorded unchanged. */
  lemma {:induction false} ReviewsRecorded(j: Judgment, trace: seq<Call>, reviews: Reviews, done: seq<Call>, gen: Oracle)
    requires |trace| == 13 && |done| == 9 && done <= trace
    requires RefinedAll(j.allSolutions) && WellReviewed(reviews, done[3..9], gen, 3)
    requires forall s: SolverId :: j.allSolutions[s].reviewsReceived == reviews[s]
    ensures ReviewedAt(j, trace, gen)
  {
    SliceOfPrefix(done, trace, 3, 9);
  }

  lemma {:induction false} AfterSolvingReviewed(problem: Problem, table: PersonaTable, a: Assignments, solutions: Solutions,
                             done: seq<Call>, gen: Oracle)
    requires WellFormedTable(table) && a == RoleAssignment(table) && SolvedAll(solutions)
    requires |done| == 3 && AllAnswered(gen, 0, done)
    ensures var r := AfterSolving(problem, table, a, solutions, done, gen);
            r.outcome.Ok? ==> ReviewedAt(r.outcome.value, r.trace, gen)
  {
    var r2 := PeerReview(problem, solutions, a, gen, 3);
    var calls := ReviewCalls(problem, solutions, a);
    Extend(gen, done, r2, calls);
    if r2.outcome.Ok? {
      var prefix := done + r2.trace;
      SliceOfAppend(done, calls);
      AfterReviewReviewed(problem, table, a, solutions, r2.outcome.value, prefix, gen);
      assert AfterSolving(problem, table, a, solutions, done, gen)
          == AfterReview(problem, table, a, solutions, r2.outcome.value, prefix, gen);
    }
  }

  /** `run_debate` with a given persona table: the stages strictly in order.
      A run either makes all thirteen calls and every one is answered, or
      stops at the first call that fails and produces no judgment. */
  function RunDebateWith(table: PersonaTable, problem: Problem, gen: Oracle): (r: Staged<Judgment>)
    requires WellFormedTable(table)
    ensures Settled(r.trace, r.outcome.Ok?, gen)
    ensures r.outcome.Ok? ==> JudgedAt(r.outcome.value, problem, table.judge, r.trace, gen)
  {
    var a := RoleAssignment(table);
    var r1 := IndependentSolutions(problem, a, gen, 0);
    Extend(gen, [], r1, SolveCalls(problem, a));
    assert [] + r1.trace == r1.trace;
    match r1.outcome
    case Err(e1) => Staged(Err(e1), r1.trace)
    case Ok(solutions) => AfterSolving(problem, table, a, solutions, r1.trace, gen)
  }

  /** `run_debate` with the system's persona table. */
  function RunDebate(problem: Problem, gen: Oracle): (r: Staged<Judgment>)
    ensures Settled(r.trace, r.outcome.Ok?, gen)
    ensures r.outcome.Ok? ==> JudgedAt(r.outcome.value, problem, JudgeConfig, r.trace, gen)
  {
    TableShape();
    RunDebateWith(Personas, problem, gen)
  }

  /** Every call a run makes, successful or not, is the one the schedule
      puts at its position: solvers 1, 2, 3; then reviewers 1, 1, 2, 2, 3, 3;
      then solvers 1, 2, 3 refining; then the judge. */
  lemma {:induction false} RunDebateSchedule(table: PersonaTable, problem: Problem, gen: Oracle)
    requires WellFormedTable(table)
    ensures OnSchedule(RunDebateWith(table, problem, gen).trace, table)
  {
    var a := RoleAssignment(table);
    var calls := SolveCalls(problem, a);
    var r1 := IndependentSolutions(problem, a, gen, 0);
    Extend(gen, [], r1, calls);
    assert [] + r1.trace == r1.trace;
    SolveOnSchedule(problem, table);
    OnSchedulePrefix(calls, r1.trace, 0, table);
    var r := RunDebateWith(table, problem, gen);
    if r1.outcome.Ok? {
      AfterSolvingSchedule(problem, table, a, r1.outcome.value, r1.trace, gen);
      assert r == AfterSolving(problem, table, a, r1.outcome.value, r1.trace, gen);
    }
    ScheduleExtend([], r1.trace, r.trace, table);
  }

  /** A judgment records what the calls of its run answered: the original
      solutions, the reviews, the refinements and the verdict. */
  lemma {:induction false} RunDebateRecord(table: PersonaTable, problem: Problem, gen: Oracle)
    requires WellFormedTable(table)
    ensures var r := RunDebateWith(table, problem, gen);
            r.outcome.Ok? ==>
              && RefinedAt(r.outcome.value, r.trace, gen)
              && ReviewedAt(r.outcome.value, r.trace, gen)
              && SolvedAt(r.outcome.value, r.trace, gen)
  {
    var a := RoleAssignment(table);
    var calls := SolveCalls(problem, a);
    var r1 := IndependentSolutions(problem, a, gen, 0);
    Extend(gen, [], r1, calls);
    assert [] + r1.trace == r1.trace;
    var r := RunDebateWith(table, problem, gen);
    if r1.outcome.Ok? {
      assert r == AfterSolving(problem, table, a, r1.outcome.value, r1.trace, gen);
      AfterSolvingRefined(problem, table, a, r1.outcome.value, r1.trace, gen);
      AfterSolvingReviewed(problem, table, a, r1.outcome.value, r1.trace, gen);
      assert r1.trace == calls && r1.trace <= r.trace;
      assert forall s: SolverId :: r.trace[Index(s)] == calls[Index(s)];
    }
  }
}

=== FILE: extraction.dfy ===
/** `extract_answer`: the answer the evaluator reads out of a judgment. Three
    case-insensitive regular expressions are tried in order and the first
    that matches anywhere wins; otherwise the last meaningful line is used.
    The expressions are modelled by hand, following Python's leftmost,
    backtracking `re.search` with `IGNORECASE | DOTALL`, on ASCII text. */
module Extraction {
  import opened Wrappers
  import opened Text

  // ---------------------------------------------------------------------
  // Matching primitives

  /** The lower-case `marker` occurs at `p`, compared case-insensitively. */
  predicate MarkerAt(text: string, marker: string, p: nat) {
    && p + |marker| <= |text|
    && forall i :: 0 <= i < |marker| ==> LowerChar(text[p + i]) == marker[i]
  }

  /** The largest position in `[lo, hi)` holding something other than a line feed. */
  function LastNonNewline(text: string, lo: nat, hi: nat): (r: Option<nat>)
    requires lo <= hi <= |text|
    ensures r.Some? ==> lo <= r.value < hi && text[r.value] != '\n'
    ensures r.Some? ==> forall k :: r.value < k < hi ==> text[k] == '\n'
    ensures r.None? ==> forall k :: lo <= k < hi ==> text[k] == '\n'
    decreases hi - lo
  {
    if lo == hi then None
    else if text[hi - 1] != '\n' then Some(hi - 1)
    else LastNonNewline(text, lo, hi - 1)
  }

  // ---------------------------------------------------------------------
  // Patterns 1 and 2: `MARKER:\s*\n?\s*(.+?)(?:\n\n|$)`

  const FinalAnswerMarker: string := "final_answer:"
  const AnswerMarker: string := "answer:"

  /** A match of the block pattern can start at `p`: the marker is there and
      at least one character follows it for `(.+?)` to take. */
  predicate BlockMatchAt(text: string, marker: string, p: nat) {
    MarkerAt(text, marker, p) && p + |marker| < |text|
  }

  ghost predicate BlockMatches(text: string, marker: string) {
    exists p: nat :: BlockMatchAt(text, marker, p)
  }

  /** The leftmost position at or after `from` where the block pattern matches. */
  function FindBlock(text: string, marker: string, from: nat): (r: Option<nat>)
    ensures r.Some? ==> from <= r.value && BlockMatchAt(text, marker, r.value)
    ensures r.Some? ==> forall q :: from <= q < r.value ==> !BlockMatchAt(text, marker, q)
    ensures r.None? ==> forall q :: from <= q ==> !BlockMatchAt(text, marker, q)
    decreases |text| - from
  {
    if from >= |text| then None
    else if BlockMatchAt(text, marker, from) then Some(from)
    else FindBlock(text, marker, from + 1)
  }

  /** Where `(?:\n\n|$)` can match: a blank line, the end of the text, or
      just before a final line feed (`$` without `MULTILINE`). */
  predicate StopsAt(text: string, q: nat) {
    || q == |text|
    || (q + 1 == |text| && text[q] == '\n')
    || (q + 2 <= |text| && text[q] == '\n' && text[q + 1] == '\n')
  }

  /** The lazy `(.+?)` grows one character at a time until the stop matches. */
  function LazyEnd(text: string, q: nat): (e: nat)
    requires q <= |text|
    ensures q <= e <= |text| && StopsAt(text, e)
    ensures forall k :: q <= k < e ==> !StopsAt(text, k)
    decreases |text| - q
  {
    if StopsAt(text, q) then q else LazyEnd(text, q + 1)
  }

  /** The group captured by a block match whose marker ends at `m`. The
      greedy `\s*` skips whitespace; when nothing else follows,
      backtracking hands the last whitespace character to the group, which
      then runs lazily to the first place the stop can match. */
  function BlockCapture(text: string, m: nat): (c: string)
    requires m < |text|
    ensures c != []
    decreases |text| - m
  {
    if m + 1 < |text| && IsSpace(text[m]) then BlockCapture(text, m + 1)
    else text[m..LazyEnd(text, m + 1)]
  }

  // ---------------------------------------------------------------------
  // Pattern 3: `(?:The answer is|answer is|equals?)\s*:?\s*([^\n]+)`

  /** The alternatives in the order the regular expression tries them;
      `equals?` tries the `s` first and gives it back when the rest fails. */
  const Phrases: seq<string> := ["the answer is", "answer is", "equals", "equal"]

  /** What `\s*:?\s*([^\n]+)` captures after a phrase that ends at `e`, if
      anything. The text after a non-blank start runs to the end of its
      line; when only whitespace (and possibly a colon) is left, the group
      backtracks onto the last character that is not a line feed. */
  function PhraseTail(text: string, e: nat): (r: Option<string>)
    requires e <= |text|
    ensures r.Some? ==> r.value != [] && '\n' !in r.value
  {
    var e1 := SkipSpace(text, e);
    if e1 < |text| && text[e1] == ':' then
      var e2 := SkipSpace(text, e1 + 1);
      if e2 < |text| then
        Some(FirstLine(text[e2..]))
      else
        match LastNonNewline(text, e1 + 1, e2)
        case Some(k) => Some([text[k]])
        case None => Some(FirstLine(text[e1..]))
    else if e1 < |text| then
      Some(FirstLine(text[e1..]))
    else
      match LastNonNewline(text, e, e1)
      case Some(k) => Some([text[k]])
      case None => None
  }

  /** The capture of pattern 3 at `p`: the first alternative that matches
      there and whose tail matches. */
  function PhraseAt(text: string, p: nat, alternatives: seq<string>): (r: Option<string>)
    ensures r.Some? ==> r.value != [] && '\n' !in r.value
    ensures r.Some? ==> exists i :: 0 <= i < |alternatives| && MarkerAt(text, alternatives[i], p)
  {
    if alternatives == [] then None
    else
      var phrase := alternatives[0];
      var here := if MarkerAt(text, phrase, p) then PhraseTail(text, p + |phrase|) else None;
      if here.Some? then
        assert MarkerAt(text, alternatives[0], p);
        here
      else
        var r := PhraseAt(text, p, alternatives[1..]);
        if r.Some? then
          var i :| 0 <= i < |alternatives[1..]| && MarkerAt(text, alternatives[1..][i], p);
          assert MarkerAt(text, alternatives[i + 1], p);
          r
        else r
  }

  predicate PhraseMatchAt(text: string, p: nat) {
    PhraseAt(text, p, Phrases).Some?
  }

  ghost predicate PhraseMatches(text: string) {
    exists p: nat :: PhraseMatchAt(text, p)
  }

  /** The leftmost position at or after `from` where pattern 3 matches. */
  function FindPhrase(text: string, from: nat): (r: Option<nat>)
    ensures r.Some? ==> from <= r.value <= |text| && PhraseMatchAt(text, r.value)
    ensures r.Some? ==> forall q :: from <= q < r.value ==> !PhraseMatchAt(text, q)
    ensures r.None? ==> forall q :: from <= q ==> !PhraseMatchAt(text, q)
    decreases |text| + 1 - from
  {
    if from > |text| then
      assert forall q :: from <= q ==> !PhraseMatchAt(text, q) by {
        forall q | from <= q ensures !PhraseMatchAt(text, q) {
          NoPhrasePastEnd(text, q, Phrases);
        }
      }
      None
    else if PhraseMatchAt(text, from) then Some(from)
    else FindPhrase(text, from + 1)
  }

  /** No alternative fits past the end of the text. */
  lemma {:induction false} NoPhrasePastEnd(text: string, p: nat, alternatives: seq<string>)
    requires p > |text|
    ensures PhraseAt(text, p, alternatives).None?
  {
  }

  // ---------------------------------------------------------------------
  // The fallback and the whole extraction

  /** `answer.strip().split('\n')[0].strip()` on a captured group. */
  function Finish(capture: string): (a: string)
    ensures |a| <= |capture|
  {
    Strip(FirstLine(Strip(capture)))
  }

  /** A finished answer is stripped and holds no line break. */
  lemma {:induction false} FinishShape(capture: string)
    ensures IsStripped(Finish(capture)) && '\n' !in Finish(capture)
  {
    StripKeepsOut(FirstLine(Strip(capture)), '\n');
  }

  /** A line the fallback accepts: not blank, and not starting with the
      case-sensitive `CONFIDENCE`. */
  predicate Candidate(line: string) {
    Strip(line) != [] && !("CONFIDENCE" <= Strip(line))
  }

  /** The last index below `n` whose line `keep` accepts, scanning backwards. */
  function LastWhere(lines: seq<string>, n: nat, keep: string -> bool): (r: Option<nat>)
    requires n <= |lines|
    ensures r.Some? ==> r.value < n && keep(lines[r.value])
    ensures r.Some? ==> forall k :: r.value < k < n ==> !keep(lines[k])
    ensures r.None? ==> forall k :: 0 <= k < n ==> !keep(lines[k])
  {
    if n == 0 then None
    else if keep(lines[n - 1]) then Some(n - 1)
    else LastWhere(lines, n - 1, keep)
  }

  /** The fallback: the last candidate line, stripped, or the whole text stripped. */
  function LastLineAnswer(text: string): (a: string)
    ensures IsStripped(a)
    ensures '\n' in a ==> a == Strip(text)
  {
    var lines := Split(text, '\n');
    match LastWhere(lines, |lines|, Candidate)
    case Some(k) =>
      assert lines[k] in lines;
      StripKeepsOut(lines[k], '\n');
      Strip(lines[k])
    case None => Strip(text)
  }

  /** The answer pattern 1 or 2 gives: the first line of the group captured
      at the leftmost match, stripped; `None` when the expression does not match. */
  function BlockAnswer(text: string, marker: string): (r: Option<string>)
    ensures r.Some? <==> FindBlock(text, marker, 0).Some?
    ensures r.Some? ==> IsStripped(r.value) && '\n' !in r.value
  {
    match FindBlock(text, marker, 0)
    case Some(p) =>
      FinishShape(BlockCapture(text, p + |marker|));
      Some(Finish(BlockCapture(text, p + |marker|)))
    case None => None
  }

  /** The answer pattern 3 gives, from its leftmost match. */
  function PhraseAnswer(text: string): (r: Option<string>)
    ensures r.Some? <==> FindPhrase(text, 0).Some?
    ensures r.Some? ==> IsStripped(r.value) && '\n' !in r.value
  {
    match FindPhrase(text, 0)
    case Some(p) =>
      FinishShape(PhraseAt(text, p, Phrases).value);
      Some(Finish(PhraseAt(text, p, Phrases).value))
    case None => None
  }

  /** Patterns 1 and 2 give an answer exactly when they match somewhere. */
  lemma {:induction false} BlockAnswerMatches(text: string, marker: string)
    ensures BlockAnswer(text, marker).Some? <==> BlockMatches(text, marker)
  {
    if FindBlock(text, marker, 0).None? {
      forall p: nat ensures !BlockMatchAt(text, marker, p) {
        assert 0 <= p;
      }
    }
  }

  /** Pattern 3 gives an answer exactly when it matches somewhere. */
  lemma {:induction false} PhraseAnswerMatches(text: string)
    ensures PhraseAnswer(text).Some? <==> PhraseMatches(text)
  {
    if FindPhrase(text, 0).None? {
      forall p: nat ensures !PhraseMatchAt(text, p) {
        assert 0 <= p;
      }
    }
  }

  /** `extract_answer(text)`: the first expression that matches decides; a
      line break can only survive in the final `text.strip()` fallback. */
  function ExtractAnswer(text: string): (a: string)
    ensures IsStripped(a)
    ensures BlockMatches(text, FinalAnswerMarker) ==> a == BlockAnswer(text, FinalAnswerMarker).value
    ensures !BlockMatches(text, FinalAnswerMarker) && BlockMatches(text, AnswerMarker) ==>
              a == BlockAnswer(text, AnswerMarker).value
    ensures !BlockMatches(text, FinalAnswerMarker) && !BlockMatches(text, AnswerMarker) && PhraseMatches(text) ==>
              a == PhraseAnswer(text).value
    ensures !BlockMatches(text, FinalAnswerMarker) && !BlockMatches(text, AnswerMarker) && !PhraseMatches(text) ==>
              a == LastLineAnswer(text)
    ensures '\n' in a ==>
              && !BlockMatches(text, FinalAnswerMarker) && !BlockMatches(text, AnswerMarker) && !PhraseMatches(text)
              && a == Strip(text)
  {
    BlockAnswerMatches(text, FinalAnswerMarker);
    BlockAnswerMatches(text, AnswerMarker);
    PhraseAnswerMatches(text);
    var b1 := BlockAnswer(text, FinalAnswerMarker);
    var b2 := BlockAnswer(text, AnswerMarker);
    var p3 := PhraseAnswer(text);
    if b1.Some? then b1.value
    else if b2.Some? then b2.value
    else if p3.Some? then p3.value
    else LastLineAnswer(text)
  }

  // ---------------------------------------------------------------------
  // Properties

  /** A prefix of `s` shares the whitespace tail that `s` has after `n`. */
  lemma {:induction false} SpaceTailOfPrefix(f: string, s: string, n: nat)
    requires f <= s && n <= |f| && AllSpace(s[n..])
    ensures AllSpace(f[n..])
  {
    assert forall i :: 0 <= i < |f| - n ==> f[n..][i] == s[n..][i];
  }

  /** After a non-blank start, stripping the capture, keeping its first line
      and stripping again gives the first line, stripped. */
  lemma {:induction false} FinishFirstLine(x: string)
    requires x != [] && !IsSpace(x[0])
    ensures Finish(x) == Strip(FirstLine(x))
  {
    var r := RStrip(x);
    RStripParts(x);
    StripNoLeading(x);
    assert r != [] by {
      assert !AllSpace(x);
    }
    var f := FirstLine(x);
    BeforeParts(x, '\n');
    StripNoLeading(f);
    if |f| <= |r| {
      assert f <= r;
      assert |f| < |r| ==> r[|f|] == x[|f|];
      BeforeUnique(r, '\n', f);
    } else {
      assert r <= f;
      assert '\n' !in r by {
        assert forall i :: 0 <= i < |r| ==> r[i] == f[i];
      }
      BeforeUnique(r, '\n', r);
      SpaceTailOfPrefix(f, x, |r|);
      RStripUnique(f, r);
    }
  }

  /** The leftmost match is the one `FindBlock` reports. */
  lemma {:induction false} FindBlockLeftmost(text: string, marker: string, p: nat)
    requires BlockMatchAt(text, marker, p)
    requires forall q: nat :: q < p ==> !BlockMatchAt(text, marker, q)
    ensures FindBlock(text, marker, 0) == Some(p)
  {
  }

  /** Patterns 1 and 2 return the first line after the marker's whitespace,
      stripped, however far the lazy group reaches; with only whitespace
      after the marker they return the empty string. */
  lemma {:induction false} BlockAnswerFirstLine(text: string, marker: string, p: nat)
    requires BlockMatchAt(text, marker, p)
    requires forall q: nat :: q < p ==> !BlockMatchAt(text, marker, q)
    ensures var s := SkipSpace(text, p + |marker|);
            BlockAnswer(text, marker) == Some(if s < |text| then Strip(FirstLine(text[s..])) else [])
  {
    FindBlockLeftmost(text, marker, p);
    FoundBlockAnswer(text, marker, p);
  }

  /** The answer from the match `FindBlock` reports. */
  lemma {:induction false} FoundBlockAnswer(text: string, marker: string, p: nat)
    requires FindBlock(text, marker, 0) == Some(p)
    ensures var s := SkipSpace(text, p + |marker|);
            BlockAnswer(text, marker) == Some(if s < |text| then Strip(FirstLine(text[s..])) else [])
  {
    BlockAnswerAt(text, marker, p);
    CaptureAnswer(text, p + |marker|);
  }

  lemma {:induction false} BlockAnswerAt(text: string, marker: string, p: nat)
    requires FindBlock(text, marker, 0) == Some(p)
    ensures BlockAnswer(text, marker) == Some(Finish(BlockCapture(text, p + |marker|)))
  {
  }

  /** What the block capture after a marker ending at `m` finishes to. */
  lemma {:induction false} CaptureAnswer(text: string, m: nat)
    requires m < |text|
    ensures var s := SkipSpace(text, m);
            Finish(BlockCapture(text, m)) == if s < |text| then Strip(FirstLine(text[s..])) else []
    decreases |text| - m
  {
    if m + 1 < |text| && IsSpace(text[m]) {
      CaptureAnswer(text, m + 1);
    } else if !IsSpace(text[m]) {
      CaptureFirstLine(text, m, LazyEnd(text, m + 1));
    } else {
      assert BlockCapture(text, m) == [text[m]];
    }
  }

  /** A capture that starts non-blank and stops at a line feed or at the
      end finishes to the first line of the rest of the text, stripped. */
  lemma {:induction false} CaptureFirstLine(text: string, s: nat, e: nat)
    requires s < e <= |text| && !IsSpace(text[s])
    requires e == |text| || text[e] == '\n'
    ensures Finish(text[s..e]) == Strip(FirstLine(text[s..]))
  {
    var rest := text[s..];
    var c := text[s..e];
    assert c == rest[..e - s];
    var f := FirstLine(c);
    BeforeParts(c, '\n');
    assert f <= rest;
    assert |f| < |c| ==> rest[|f|] == c[|f|];
    BeforeUnique(rest, '\n', f);
    FinishFirstLine(c);
  }

  /** With no expression matching, the answer is the last line that is
      neither blank nor a `CONFIDENCE` line. */
  lemma {:induction false} FallbackLastCandidate(text: string, k: nat)
    requires !BlockMatches(text, FinalAnswerMarker) && !BlockMatches(text, AnswerMarker) && !PhraseMatches(text)
    requires k < |Split(text, '\n')| && Candidate(Split(text, '\n')[k])
    requires forall j :: k < j < |Split(text, '\n')| ==> !Candidate(Split(text, '\n')[j])
    ensures ExtractAnswer(text) == Strip(Split(text, '\n')[k])
  {
    var lines := Split(text, '\n');
    var r := LastWhere(lines, |lines|, Candidate);
  }

  /** No alternative occurs in the empty text. */
  lemma {:induction false} NoPhraseInEmpty(p: nat, alternatives: seq<string>)
    requires forall i :: 0 <= i < |alternatives| ==> alternatives[i] != []
    ensures PhraseAt([], p, alternatives).None?
  {
    if alternatives != [] {
      NoPhraseInEmpty(p, alternatives[1..]);
    }
  }

  /** `extract_answer("") == ""`. */
  lemma {:induction false} ExtractEmpty()
    ensures ExtractAnswer([]) == []
  {
    forall p: nat ensures !PhraseMatchAt([], p) {
      NoPhraseInEmpty(p, Phrases);
    }
    assert Split([], '\n') == [[]];
  }
}

=== FILE: generation.dfy ===
/** The generation client: how the prompt sent to the model is composed and
    the bounded retry loop with exponential backoff. The provider is an
    oracle; sleeping is recorded as the list of durations slept. */
module Generation {
  import opened Wrappers
  import opened Settings

  /** What one attempt sends: the composed prompt and the two sampling controls. */
  datatype Request = Request(prompt: string, temperature: real, topP: real)

  /** The provider's answer to one attempt: generated text, or a raised error. */
  datatype Reply = Text(text: string) | Failure(error: string)

  /** The provider: its reply to the `k`-th attempt (0-based) at a request. */
  type Provider = (nat, Request) -> Reply

  /** How `generate` ends. */
  datatype Outcome =
    | Returned(text: string)                   // some attempt succeeded
    | GaveUp(attempts: int, lastError: string) // "Failed after {max_retries} attempts: {e}"
    | NoneReturned                             // the loop body never ran; Python returns None

  /** One call of `generate`: its outcome, the backoff sleeps in order, how
      many attempts reached the provider, and the request they all sent. */
  datatype Attempted = Attempted(outcome: Outcome, sleeps: seq<nat>, attempts: nat, request: Request)

  const DefaultTemperature: real := 0.7
  const DefaultTopP: real := 0.9
  const DefaultMaxRetries: int := 3

  predicate Succeeds(provider: Provider, k: nat, request: Request) {
    provider(k, request).Text?
  }

  /** The system instruction, when present and non-empty, goes first,
      separated from the prompt by a blank line. */
  function ComposePrompt(systemPrompt: Option<string>, prompt: string): (full: string)
    ensures |full| >= |prompt| && full[|full| - |prompt|..] == prompt
    ensures full == prompt <==> systemPrompt.None? || systemPrompt.value == []
    ensures systemPrompt.Some? && systemPrompt.value != [] ==>
              var sp := systemPrompt.value;
              |full| == |sp| + 2 + |prompt| && full[..|sp|] == sp && full[|sp|..|sp| + 2] == "\n\n"
  {
    match systemPrompt
    case Some(sp) =>
      if sp != [] then sp + "\n\n" + prompt else prompt
    case None => prompt
  }

  function Pow2(k: nat): (p: nat)
    ensures p >= 1
  {
    if k == 0 then 1 else 2 * Pow2(k - 1)
  }

  /** The sleeps taken before attempt `k`: 2^0, 2^1, ..., 2^(k-1). */
  function Backoff(k: nat): (s: seq<nat>)
    ensures |s| == k && forall i :: 0 <= i < k ==> s[i] == Pow2(i)
  {
    seq(k, i requires 0 <= i < k => Pow2(i))
  }

  /** Attempt number `attempt` of the loop and the ones after it. On failure
      the loop sleeps 2^attempt unless this was the last allowed attempt,
      in which case it gives up at once. */
  function AttemptFrom(request: Request, maxRetries: int, provider: Provider, attempt: nat, slept: seq<nat>): (g: Attempted)
    requires attempt < maxRetries
    requires slept == Backoff(attempt)
    ensures g.request == request
    ensures attempt < g.attempts <= maxRetries
    ensures forall j :: attempt <= j < g.attempts - 1 ==> !Succeeds(provider, j, request)
    ensures g.sleeps == Backoff(g.attempts - 1)
    ensures g.outcome.Returned? ==> provider(g.attempts - 1, request) == Text(g.outcome.text)
    ensures g.outcome.GaveUp? ==>
              && g.attempts == maxRetries
              && g.outcome.attempts == maxRetries
              && provider(maxRetries - 1, request) == Failure(g.outcome.lastError)
    ensures !g.outcome.NoneReturned?
    decreases maxRetries - attempt
  {
    match provider(attempt, request)
    case Text(t) => Attempted(Returned(t), slept, attempt + 1, request)
    case Failure(e) =>
      if attempt < maxRetries - 1 then
        AttemptFrom(request, maxRetries, provider, attempt + 1, slept + [Pow2(attempt)])
      else
        Attempted(GaveUp(maxRetries, e), slept, attempt + 1, request)
  }

  /** `generate(prompt, system_prompt, temperature, top_p, max_retries)`.
      At most `max_retries` attempts, all with the same request; the first
      success is returned; before attempt k the sleeps so far are
      2^0 .. 2^(k-1); exhausting the attempts reports their number and the
      last error without a final sleep; no attempt at all returns None. */
  function Generate(prompt: string, systemPrompt: Option<string>, temperature: real, topP: real,
                    maxRetries: int, provider: Provider): (g: Attempted)
    ensures g.request == Request(ComposePrompt(systemPrompt, prompt), temperature, topP)
    ensures g.outcome.NoneReturned? <==> maxRetries <= 0
    ensures maxRetries <= 0 ==> g.attempts == 0 && g.sleeps == []
    ensures maxRetries > 0 ==> 1 <= g.attempts <= maxRetries
    ensures forall j :: 0 <= j < g.attempts - 1 ==> !Succeeds(provider, j, g.request)
    ensures g.outcome.Returned? ==>
              provider(g.attempts - 1, g.request) == Text(g.outcome.text) && g.sleeps == Backoff(g.attempts - 1)
    ensures g.outcome.GaveUp? ==>
              && g.attempts == maxRetries
              && g.outcome.attempts == maxRetries
              && provider(maxRetries - 1, g.request) == Failure(g.outcome.lastError)
              && g.sleeps == Backoff(maxRetries - 1)
    ensures g.outcome.Returned? <==> exists k :: 0 <= k < maxRetries && Succeeds(provider, k, g.request)
  {
    var request := Request(ComposePrompt(systemPrompt, prompt), temperature, topP);
    if maxRetries <= 0 then
      Attempted(NoneReturned, [], 0, request)
    else
      var g := AttemptFrom(request, maxRetries, provider, 0, []);
      assert g.outcome.GaveUp? ==> forall k :: 0 <= k < maxRetries ==> !Succeeds(provider, k, request);
      assert g.outcome.Returned? ==> Succeeds(provider, g.attempts - 1, request);
      g
  }

  /** `generate_with_config(prompt, config)`: the persona's system prompt,
      temperature (default 0.7) and top-p (default 0.9), with the default
      three attempts. It never returns None and sleeps at most 1 then 2. */
  function GenerateWithConfig(prompt: string, config: PersonaConfig, provider: Provider): (g: Attempted)
    ensures g.request.prompt == ComposePrompt(config.systemPrompt, prompt)
    ensures g.request.temperature == config.temperature.GetOr(0.7)
    ensures g.request.topP == config.topP.GetOr(0.9)
    ensures !g.outcome.NoneReturned?
    ensures 1 <= g.attempts <= 3
    ensures g.sleeps <= [1, 2]
    ensures g.outcome.Returned? <==> exists k :: 0 <= k < 3 && Succeeds(provider, k, g.request)
  {
    var g := Generate(prompt, config.systemPrompt, config.temperature.GetOr(DefaultTemperature),
                      config.topP.GetOr(DefaultTopP), DefaultMaxRetries, provider);
    assert g.sleeps == Backoff(g.attempts - 1);
    assert Backoff(2) == [1, 2];
    g
  }

  /** Two failures then a success with three attempts allowed: the text of
      the third attempt, after sleeping 1 and then 2. */
  lemma {:induction false} FailTwiceThenSucceed(prompt: string, systemPrompt: Option<string>, temperature: real, topP: real,
                             provider: Provider)
    requires var request := Request(ComposePrompt(systemPrompt, prompt), temperature, topP);
             !Succeeds(provider, 0, request) && !Succeeds(provider, 1, request) && Succeeds(provider, 2, request)
    ensures var g := Generate(prompt, systemPrompt, temperature, topP, 3, provider);
            g.outcome == Returned(provider(2, g.request).text) && g.sleeps == [1, 2] && g.attempts == 3
  {
    var g := Generate(prompt, systemPrompt, temperature, topP, 3, provider);
    assert Backoff(2) == [1, 2];
  }

  /** With a single attempt allowed, a failure is reported at once, without sleeping. */
  lemma {:induction false} SingleAttemptFailsWithoutSleep(prompt: string, systemPrompt: Option<string>, temperature: real, topP: real,
                                       provider: Provider)
    requires !Succeeds(provider, 0, Request(ComposePrompt(systemPrompt, prompt), temperature, topP))
    ensures var g := Generate(prompt, systemPrompt, temperature, topP, 1, provider);
            g.outcome.GaveUp? && g.outcome.attempts == 1 && g.sleeps == [] && g.attempts == 1
  {
  }
}

=== FILE: judgment_check.dfy ===
/** The judgment check script: for the first five result files in name
    order, the first line of the judgment that mentions a winner in any
    case, and the first word after that line's first colon. */
module JudgmentCheck {
  import opened Wrappers
  import opened Text
  import Winners
  import opened ResultFiles

  const FileLimit: nat := 5
  const SummaryPrefix: string := "summary"

  /** What is recorded when nothing follows the colon. */
  const NoWord: string := "NONE"

  /** The loop's `continue` test. */
  predicate IsSummary(name: string) {
    SummaryPrefix <= Stem(name)
  }

  /** The files a loop does not skip, in order. */
  function Unskipped(files: seq<string>, skip: string -> bool): (kept: seq<string>)
    ensures |kept| <= |files|
    ensures forall f :: f in kept ==> f in files && !skip(f)
  {
    if files == [] then []
    else (if skip(files[0]) then [] else [files[0]]) + Unskipped(files[1..], skip)
  }

  /** The first file is kept unless skipped, then the rest are filtered. */
  lemma {:induction false} UnskippedStep(files: seq<string>, skip: string -> bool)
    requires files != []
    ensures skip(files[0]) ==> Unskipped(files, skip) == Unskipped(files[1..], skip)
    ensures !skip(files[0]) ==> Unskipped(files, skip) == [files[0]] + Unskipped(files[1..], skip)
  {
    assert [] + Unskipped(files[1..], skip) == Unskipped(files[1..], skip);
  }

  /** When no file is skipped, every file is kept. */
  lemma {:induction false} NothingSkipped(files: seq<string>, skip: string -> bool)
    requires forall f :: f in files ==> !skip(f)
    ensures Unskipped(files, skip) == files
  {
    if files != [] {
      assert files[0] in files;
      NothingSkipped(files[1..], skip);
      assert [files[0]] + files[1..] == files;
    }
  }

  /** A file the pattern matched is never skipped as a summary: its stem
      starts with `p`, not `s`. */
  lemma {:induction false} NotSummary(f: string)
    requires IsProblemFile(f)
    ensures !IsSummary(f)
  {
    assert Stem(f)[0] == f[0] == ProblemPrefix[0];
  }

  /** The summary test never fires on files the pattern matched. */
  lemma {:induction false} ProblemFilesAllChecked(files: seq<string>)
    requires forall f :: f in files ==> IsProblemFile(f)
    ensures Unskipped(files, IsSummary) == files
  {
    forall f | f in files ensures !IsSummary(f) {
      NotSummary(f);
    }
    NothingSkipped(files, IsSummary);
  }

  predicate MentionsWinner(line: string) {
    Contains(Upper(line), "WINNER")
  }

  /** Index of the first line at or after `i` that mentions a winner. */
  function WinnerLineFrom(lines: seq<string>, i: nat): (r: Option<nat>)
    requires i <= |lines|
    ensures r.Some? ==> i <= r.value < |lines| && MentionsWinner(lines[r.value])
    ensures r.Some? ==> forall k :: i <= k < r.value ==> !MentionsWinner(lines[k])
    ensures r.None? <==> forall k :: i <= k < |lines| ==> !MentionsWinner(lines[k])
    decreases |lines| - i
  {
    if i == |lines| then None
    else if MentionsWinner(lines[i]) then Some(i)
    else WinnerLineFrom(lines, i + 1)
  }

  /** What the winner line yields: the first word after its first colon,
      `NONE` when only whitespace follows, nothing at all without a colon. */
  function ExtractedWord(line: string): (r: Option<string>)
    ensures r.Some? <==> ':' in line
    ensures r.Some? ==> r.value == NoWord || r.value in Words(Strip(After(line, ':')))
    ensures ':' in line && AllSpace(After(line, ':')) ==> r == Some(NoWord)
    ensures ':' in line && !AllSpace(After(line, ':')) ==> r == Some(Words(Strip(After(line, ':')))[0])
  {
    if ':' in line then
      var ws := Words(Strip(After(line, ':')));
      Some(if ws == [] then NoWord else ws[0])
    else None
  }

  /** One judgment: the word extracted from its first winner line, if any;
      a missing judgment reads as the empty text. */
  function Inspect(judgment: string): (r: Option<string>)
    ensures r.Some? ==> r.value == NoWord || (r.value != [] && NoSpace(r.value))
  {
    var lines := Split(judgment, '\n');
    match WinnerLineFrom(lines, 0)
    case Some(i) => ExtractedWord(lines[i])
    case None => None
  }

  /** Only the first line that mentions a winner is read, even when it has
      no colon and a later line does. */
  lemma {:induction false} InspectFirstWinnerLine(judgment: string, i: nat)
    requires FirstWinnerLine(Split(judgment, '\n'), i)
    ensures Inspect(judgment) == ExtractedWord(Split(judgment, '\n')[i])
    ensures ':' !in Split(judgment, '\n')[i] ==> Inspect(judgment).None?
  {
    assert WinnerLineFrom(Split(judgment, '\n'), 0) == Some(i);
  }

  /** A judgment with no line that mentions a winner yields nothing. */
  lemma {:induction false} InspectWithoutWinnerLine(judgment: string)
    requires forall k :: 0 <= k < |Split(judgment, '\n')| ==> !MentionsWinner(Split(judgment, '\n')[k])
    ensures Inspect(judgment).None?
  {
  }

  /** A value the check can record: `NONE` or a single token. */
  predicate Recordable(w: string) {
    w == NoWord || (w != [] && NoSpace(w))
  }

  /** Putting one recordable value, or nothing, in front keeps every
      value recordable. */
  lemma {:induction false} PrependRecordable(found: Option<string>, ws: seq<string>)
    requires found.Some? ==> Recordable(found.value)
    requires forall w :: w in ws ==> Recordable(w)
    ensures forall w :: w in (match found case Some(v) => [v] case None => []) + ws ==> Recordable(w)
  {
  }

  /** How many files were inspected and the words extracted, in order. */
  datatype Report = Report(checked: nat, winners: seq<string>)

  /** One file as the loop reads it: its judgment inspected, a missing
      judgment read as the empty text. */
  function ReadFile(judgmentOf: string -> Option<string>): string -> Option<string> {
    f => Inspect(judgmentOf(f).GetOr(""))
  }

  /** The loop over the given files: every unskipped file is counted, and
      the words found are those its files yield, in file order. */
  function CheckFiles(files: seq<string>, judgmentOf: string -> Option<string>): (rep: Report)
    ensures rep.checked == |Unskipped(files, IsSummary)|
    ensures rep.winners == Winners.Decisions(Unskipped(files, IsSummary), ReadFile(judgmentOf))
    ensures |rep.winners| <= rep.checked
    ensures forall w :: w in rep.winners ==> Recordable(w)
  {
    if files == [] then Report(0, [])
    else
      var rest := CheckFiles(files[1..], judgmentOf);
      var f := files[0];
      var kept := Unskipped(files[1..], IsSummary);
      UnskippedStep(files, IsSummary);
      if IsSummary(f) then
        rest
      else
        var read := ReadFile(judgmentOf);
        var found := read(f);
        Winners.DecisionsCons(f, kept, read);
        PrependRecordable(found, rest.winners);
        Report(rest.checked + 1, (match found case Some(w) => [w] case None => []) + rest.winners)
  }

  /** `check_judgments()` on the name-sorted matches of `problem_*.json`:
      at most five files are inspected, every one of them counts as
      checked, and each yields at most one word. */
  function CheckJudgments(sorted: seq<string>, judgmentOf: string -> Option<string>): (rep: Report)
    requires forall f :: f in sorted ==> IsProblemFile(f)
    ensures rep.checked == if |sorted| < FileLimit then |sorted| else FileLimit
    ensures rep.winners == Winners.Decisions(if |sorted| < FileLimit then sorted else sorted[..FileLimit], ReadFile(judgmentOf))
    ensures |rep.winners| <= rep.checked <= FileLimit
  {
    var first := if |sorted| < FileLimit then sorted else sorted[..FileLimit];
    assert forall f :: f in first ==> f in sorted;
    ProblemFilesAllChecked(first);
    CheckFiles(first, judgmentOf)
  }

  /** Upper-casing keeps an upper-case occurrence. */
  lemma {:induction false} UpperKeepsTag(line: string)
    requires Contains(line, Winners.WinnerTag)
    ensures MentionsWinner(line)
  {
    var p :| 0 <= p <= |line| - |Winners.WinnerTag| && OccursAt(line, Winners.WinnerTag, p);
    var u := Upper(line);
    forall q | 0 <= q < 6 ensures u[p + q] == "WINNER"[q] {
      assert line[p + q] == Winners.WinnerTag[q];
    }
    assert u[p..p + 6] == "WINNER";
    assert OccursAt(u, "WINNER", p);
  }

  /** Strategy 1 reads the first word after the colon when it starts with `Solver`. */
  lemma {:induction false} TagLineFirstWord(line: string)
    requires SolverTagLine(line)
    ensures Winners.TagLineWinner(line) == Some(FirstWordAfterColon(line))
  {
    SolverFirstWord(Strip(After(line, ':')));
  }

  /** A text whose first word starts with `Solver` mentions `Solver`, and
      that first word is the solver word found in it. */
  lemma {:induction false} SolverFirstWord(t: string)
    requires var ws := Words(t); ws != [] && Winners.IsSolverWord(ws[0])
    ensures t != [] && Contains(t, Winners.SolverPrefix)
    ensures Winners.SolverWord(t) == Some(Words(t)[0])
  {
    var w := Words(t)[0];
    assert w in Words(t);
    WordOccurs(t, w);
    assert OccursAt(w, Winners.SolverPrefix, 0);
    ContainsTrans(t, w, Winners.SolverPrefix);
    assert Winners.FirstSolverFrom(Words(t), 0) == Some(0);
  }

  /** Lines that do not mention a winner give strategy 1 nothing. */
  lemma {:induction false} QuietLinesSkipped(lines: seq<string>, i: nat)
    requires i <= |lines|
    requires forall k :: 0 <= k < i ==> !MentionsWinner(lines[k])
    ensures forall k :: 0 <= k < i ==> Winners.TagLineWinner(lines[k]).None?
  {
    forall k | 0 <= k < i ensures Winners.TagLineWinner(lines[k]).None? {
      if Winners.TagLineWinner(lines[k]).Some? {
        UpperKeepsTag(lines[k]);
      }
    }
  }

  /** The first line that mentions a winner, in any case. */
  predicate FirstWinnerLine(lines: seq<string>, i: nat) {
    && i < |lines|
    && MentionsWinner(lines[i])
    && forall k :: 0 <= k < i ==> !MentionsWinner(lines[k])
  }

  /** A `WINNER:` line whose first word after the colon starts with `Solver`. */
  predicate SolverTagLine(line: string) {
    && Contains(line, Winners.WinnerTag)
    && ':' in line
    && var ws := Words(Strip(After(line, ':')));
       ws != [] && Winners.IsSolverWord(ws[0])
  }

  function FirstWordAfterColon(line: string): string
    requires SolverTagLine(line)
  {
    Words(Strip(After(line, ':')))[0]
  }

  /** The check reads the first word after the colon of the first line
      that mentions a winner. */
  lemma {:induction false} CheckReadsFirstWinnerLine(judgment: string, i: nat)
    requires FirstWinnerLine(Split(judgment, '\n'), i)
    requires SolverTagLine(Split(judgment, '\n')[i])
    ensures Inspect(judgment) == Some(FirstWordAfterColon(Split(judgment, '\n')[i]))
  {
    var lines := Split(judgment, '\n');
    assert WinnerLineFrom(lines, 0) == Some(i);
  }

  /** Strategy 1 of the chart reads the same line and the same word. */
  lemma {:induction false} ChartReadsFirstWinnerLine(judgment: string, i: nat)
    requires FirstWinnerLine(Split(judgment, '\n'), i)
    requires SolverTagLine(Split(judgment, '\n')[i])
    ensures Winners.Winner(judgment) == Some(FirstWordAfterColon(Split(judgment, '\n')[i]))
  {
    var lines := Split(judgment, '\n');
    TagLineFirstWord(lines[i]);
    QuietLinesSkipped(lines, i);
    Winners.FirstHitAt(lines, Winners.TagLineWinner, 0, |lines|, i);
  }

  /** When the first line that mentions a winner holds `WINNER:` and the
      first word after its first colon starts with `Solver`, the check and
      the chart read the same decision. */
  lemma AgreesWithChart(judgment: string, i: nat)
    requires i < |Split(judgment, '\n')|
    requires SolverTagLine(Split(judgment, '\n')[i])
    requires forall k :: 0 <= k < i ==> !MentionsWinner(Split(judgment, '\n')[k])
    ensures var w := FirstWordAfterColon(Split(judgment, '\n')[i]);
            Inspect(judgment) == Some(w) && Winners.Winner(judgment) == Some(w)
  {
    UpperKeepsTag(Split(judgment, '\n')[i]);
    CheckReadsFirstWinnerLine(judgment, i);
    ChartReadsFirstWinnerLine(judgment, i);
  }
}

=== FILE: metrics.dfy ===
/** `check_correctness` and `calculate_metrics`: the extracted answer is
    compared with the expected one by normalised containment, then by the
    first number in each, then by a small table of equivalent phrasings. */
module Metrics {
  import opened Wrappers
  import opened Text
  import opened Numerals
  import opened Extraction

  /** A JSON `correct_answer`: an integer or a string (floats are left out). */
  datatype Scalar = IntValue(i: int) | StrValue(s: string)

  /** Python's `str()` of the value. */
  function Str(v: Scalar): (s: string)
    ensures v.IntValue? ==> ParseInt(s) == Some(v.i)
  {
    match v
    case IntValue(i) => ParseIntToString(i); IntToString(i)
    case StrValue(s) => s
  }

  // ---------------------------------------------------------------------
  // Normalisation: `re.sub(r'[^\w\s\.\,\(\)]', '', s.lower())`

  predicate IsWordChar(c: char) {
    ('a' <= c <= 'z') || ('A' <= c <= 'Z') || IsDigit(c) || c == '_'
  }

  /** What the character class keeps: word characters, whitespace, `.,()`. */
  predicate Kept(c: char) {
    IsWordChar(c) || IsSpace(c) || c == '.' || c == ',' || c == '(' || c == ')'
  }

  predicate AllKept(s: string) {
    forall i :: 0 <= i < |s| ==> Kept(s[i])
  }

  /** The characters of `s` the class keeps, in order. */
  function Keep(s: string): (r: string)
    ensures |r| <= |s| && AllKept(r)
    ensures AllKept(s) ==> r == s
  {
    if s == [] then []
    else if Kept(s[0]) then [s[0]] + Keep(s[1..])
    else Keep(s[1..])
  }

  /** Removal works character by character. */
  lemma {:induction false} KeepAppend(a: string, b: string)
    ensures Keep(a + b) == Keep(a) + Keep(b)
  {
    if a == [] {
      assert a + b == b;
    } else {
      assert (a + b)[0] == a[0];
      assert (a + b)[1..] == a[1..] + b;
      KeepAppend(a[1..], b);
    }
  }

  /** The substitution drops exactly the other characters: a single
      character survives iff the class keeps it. */
  lemma {:induction false} KeepOne(c: char)
    ensures Keep([c]) == if Kept(c) then [c] else []
  {
    assert [c][1..] == [];
  }

  predicate NoUpper(s: string) {
    forall i :: 0 <= i < |s| ==> !('A' <= s[i] <= 'Z')
  }

  /** Keeping characters never brings back an upper-case letter. */
  lemma {:induction false} KeepNoUpper(s: string)
    requires NoUpper(s)
    ensures NoUpper(Keep(s))
  {
    if s != [] {
      KeepNoUpper(s[1..]);
    }
  }

  /** Lower-casing leaves no upper-case letter and fixes strings without one. */
  lemma {:induction false} LowerFacts(s: string)
    ensures NoUpper(Lower(s))
    ensures NoUpper(s) ==> Lower(s) == s
  {
  }

  function Clean(s: string): (r: string)
    ensures AllKept(r) && NoUpper(r)
  {
    LowerFacts(s);
    KeepNoUpper(Lower(s));
    Keep(Lower(s))
  }

  /** Normalising twice is normalising once. */
  lemma {:induction false} CleanIdempotent(s: string)
    ensures Clean(Clean(s)) == Clean(s)
  {
    var c := Clean(s);
    LowerFacts(c);
  }

  // ---------------------------------------------------------------------
  // The numeric rule

  function Abs(x: real): real {
    if x < 0.0 then -x else x
  }

  /** Both raw strings hold a `\d+\.?\d*` token and the first tokens differ
      by less than 0.01 (values taken exactly). */
  function NumericMatch(answer: string, correct: string): (b: bool)
    ensures b ==> (exists p :: LeadingDigit(answer, p)) && (exists q :: LeadingDigit(correct, q))
    ensures forall p, q :: LeadingDigit(answer, p) && LeadingDigit(correct, q) ==>
              (b <==> Abs(DecimalValue(DecimalAt(answer, p)) - DecimalValue(DecimalAt(correct, q))) < 0.01)
  {
    match (FirstDecimal(answer), FirstDecimal(correct))
    case (Some(x), Some(y)) => Abs(DecimalValue(x) - DecimalValue(y)) < 0.01
    case _ => false
  }

  predicate HasDigit(s: string) {
    exists i :: 0 <= i < |s| && IsDigit(s[i])
  }

  /** Without a digit on either side the numeric rule cannot fire. */
  lemma {:induction false} NumericNeedsDigits(answer: string, correct: string)
    ensures NumericMatch(answer, correct) ==> HasDigit(answer) && HasDigit(correct)
  {
    if NumericMatch(answer, correct) {
      var x := FirstDecimal(answer).value;
      var y := FirstDecimal(correct).value;
    }
  }

  /** Two strings whose first numbers are written the same way match, even
      when their normalised forms do not contain one another. */
  lemma {:induction false} NumericSameToken(answer: string, correct: string)
    requires HasDigit(answer)
    requires FirstDecimal(answer) == FirstDecimal(correct)
    ensures NumericMatch(answer, correct)
  {
  }

  /** The numeric rule compares the same tokens whichever side is which. */
  lemma {:induction false} NumericSymmetric(answer: string, correct: string)
    ensures NumericMatch(answer, correct) == NumericMatch(correct, answer)
  {
  }

  // ---------------------------------------------------------------------
  // The equivalence table

  type Pattern = seq<string>

  const Equivalences: seq<(Pattern, Pattern)> := [
    (["cot", "theta", "2"], ["1", "2", "tan", "theta"]),
    (["cotangent", "2"], ["1", "2", "tangent"]),
    (["defect", "defect", "not", "pareto"], ["defect", "defect", "not", "pareto"]),
    (["play", "paper", "100"], ["play", "paper", "100"]),
    (["always", "paper"], ["paper", "100"]),
    (["goes", "out", "completely"], ["goes", "out", "completely"]),
    (["zero", "current"], ["no", "current"]),
    (["not", "light"], ["goes", "out"])
  ]

  /** `set(s.split())`. */
  function WordSet(s: string): set<string> {
    set w | w in Words(s)
  }

  /** `all(w in words for w in pattern)`. */
  predicate AllIn(pattern: Pattern, words: set<string>) {
    forall i :: 0 <= i < |pattern| ==> pattern[i] in words
  }

  /** One table row fires when one side's words are all in the answer and
      the other side's all in the expected answer, in either direction. */
  predicate PairFires(pair: (Pattern, Pattern), answerWords: set<string>, correctWords: set<string>) {
    || (AllIn(pair.0, answerWords) && AllIn(pair.1, correctWords))
    || (AllIn(pair.1, answerWords) && AllIn(pair.0, correctWords))
  }

  /** The loop over the table: true at the first row that fires. */
  function AnyFires(table: seq<(Pattern, Pattern)>, answerWords: set<string>, correctWords: set<string>): (b: bool)
    ensures b <==> exists k :: 0 <= k < |table| && PairFires(table[k], answerWords, correctWords)
  {
    if table == [] then false
    else if PairFires(table[0], answerWords, correctWords) then true
    else
      var b := AnyFires(table[1..], answerWords, correctWords);
      assert forall k :: 1 <= k < |table| ==> table[k] == table[1..][k - 1];
      b
  }

  predicate TableMatch(answerClean: string, correctClean: string) {
    AnyFires(Equivalences, WordSet(answerClean), WordSet(correctClean))
  }

  /** Swapping the answer and the expected answer does not change whether
      some row fires: each row is tried in both directions. */
  lemma {:induction false} TableSymmetric(answerClean: string, correctClean: string)
    ensures TableMatch(answerClean, correctClean) == TableMatch(correctClean, answerClean)
  {
    var aw := WordSet(answerClean);
    var cw := WordSet(correctClean);
    assert forall k :: 0 <= k < |Equivalences| ==> (PairFires(Equivalences[k], aw, cw) <==> PairFires(Equivalences[k], cw, aw));
  }

  // ---------------------------------------------------------------------
  // Grading

  /** The three rules in order on an already extracted answer. */
  function Grade(answer: string, correct: string): (ok: bool)
    ensures Contains(Clean(answer), Clean(correct)) ==> ok
    ensures NumericMatch(answer, correct) ==> ok
    ensures TableMatch(Clean(answer), Clean(correct)) ==> ok
    ensures ok ==> Contains(Clean(answer), Clean(correct)) || NumericMatch(answer, correct)
                   || TableMatch(Clean(answer), Clean(correct))
  {
    var answerClean := Clean(answer);
    var correctClean := Clean(correct);
    if Contains(answerClean, correctClean) then true
    else if NumericMatch(answer, correct) then true
    else TableMatch(answerClean, correctClean)
  }

  /** Every answer is graded correct against itself. */
  lemma {:induction false} GradeReflexive(answer: string)
    ensures Grade(answer, answer)
  {
    assert OccursAt(Clean(answer), Clean(answer), 0);
  }

  /** An expected answer that normalises to nothing (only punctuation, say)
      is contained in every answer, so everything is graded correct. */
  lemma {:induction false} GradeEmptyExpected(answer: string, correct: string)
    requires Clean(correct) == []
    ensures Grade(answer, correct)
  {
    assert OccursAt(Clean(answer), [], 0);
  }

  /** Grading is decided by normalised containment alone when the answer
      has no digit and no table row fires. */
  lemma {:induction false} GradeWithoutDigits(answer: string, correct: string)
    requires !HasDigit(answer)
    requires !TableMatch(Clean(answer), Clean(correct))
    ensures Grade(answer, correct) <==> Contains(Clean(answer), Clean(correct))
  {
    NumericNeedsDigits(answer, correct);
  }

  /** A result as `check_correctness` reads it: the judgment text, absent
      when the key is missing, and the problem's `correct_answer`, absent
      when the key is missing. */
  datatype Record = Record(judgment: Option<string>, correctAnswer: Option<Scalar>)

  /** `check_correctness`: `None` stands for the `KeyError` a missing
      `correct_answer` raises; a missing judgment reads as "". */
  function CheckCorrectness(r: Record): (v: Option<bool>)
    ensures v.None? <==> r.correctAnswer.None?
    ensures v.Some? ==> v.value == Grade(ExtractAnswer(r.judgment.GetOr([])), Str(r.correctAnswer.value))
  {
    match r.correctAnswer
    case None => None
    case Some(ca) => Some(Grade(ExtractAnswer(r.judgment.GetOr([])), Str(ca)))
  }

  /** A judgment whose extracted answer is exactly the expected answer is
      graded correct. */
  lemma {:induction false} ExactAnswerCorrect(judgment: string, ca: Scalar)
    requires ExtractAnswer(judgment) == Str(ca)
    ensures CheckCorrectness(Record(Some(judgment), Some(ca))) == Some(true)
  {
    GradeReflexive(Str(ca));
  }

  // ---------------------------------------------------------------------
  // calculate_metrics

  datatype Summary = Summary(total: nat, correct: nat, agreements: nat, improvements: nat, accuracy: real)

  /** Every result can be graded: none raises. */
  predicate Gradable(results: seq<Record>, grade: Record -> Option<bool>) {
    forall i :: 0 <= i < |results| ==> grade(results[i]).Some?
  }

  /** How many results are graded correct. */
  function CountCorrect(results: seq<Record>, grade: Record -> Option<bool>): (n: nat)
    requires Gradable(results, grade)
    ensures n <= |results|
  {
    if results == [] then 0
    else (if grade(results[|results| - 1]) == Some(true) then 1 else 0) + CountCorrect(results[..|results| - 1], grade)
  }

  lemma {:induction false} CountCorrectAppend(results: seq<Record>, r: Record, grade: Record -> Option<bool>)
    requires Gradable(results, grade) && grade(r).Some?
    ensures Gradable(results + [r], grade)
    ensures CountCorrect(results + [r], grade) == CountCorrect(results, grade) + if grade(r) == Some(true) then 1 else 0
  {
    assert (results + [r])[..|results|] == results;
  }

  /** All results correct gives the full count, none gives zero. */
  lemma {:induction false} CountCorrectExtremes(results: seq<Record>, grade: Record -> Option<bool>)
    requires Gradable(results, grade)
    ensures CountCorrect(results, grade) == |results| <==> forall i :: 0 <= i < |results| ==> grade(results[i]) == Some(true)
    ensures CountCorrect(results, grade) == 0 <==> forall i :: 0 <= i < |results| ==> grade(results[i]) != Some(true)
  {
    if results != [] {
      var front := results[..|results| - 1];
      CountCorrectExtremes(front, grade);
      assert forall i :: 0 <= i < |front| ==> front[i] == results[i];
      assert grade(results[|results| - 1]).Some?;
      assert results == front + [results[|results| - 1]];
    }
  }

  /** The loop of `calculate_metrics` with the correctness test as a parameter: the
      results in order, stopping with `None` at the first one the test
      cannot grade. Agreements and improvements are never computed. */
  method TallyResults(results: seq<Record>, grade: Record -> Option<bool>) returns (m: Option<Summary>)
    ensures m.None? <==> !Gradable(results, grade)
    ensures m.Some? ==>
              && m.value.total == |results|
              && m.value.correct == CountCorrect(results, grade)
              && m.value.agreements == 0 && m.value.improvements == 0
              && m.value.accuracy == (if |results| > 0 then m.value.correct as real / |results| as real else 0.0)
              && 0.0 <= m.value.accuracy <= 1.0
  {
    if |results| == 0 {
      return Some(Summary(0, 0, 0, 0, 0.0));
    }
    var correct := 0;
    var i := 0;
    while i < |results|
      invariant 0 <= i <= |results|
      invariant Gradable(results[..i], grade)
      invariant correct == CountCorrect(results[..i], grade)
    {
      var r := results[i];
      var v := grade(r);
      if v.None? {
        return None;
      }
      CountCorrectAppend(results[..i], r, grade);
      assert results[..i + 1] == results[..i] + [r];
      if v.value {
        correct := correct + 1;
      }
      i := i + 1;
    }
    assert results[..i] == results;
    var total := |results|;
    return Some(Summary(total, correct, 0, 0, correct as real / total as real));
  }

  /** `calculate_metrics`: `None` when some problem lacks `correct_answer`
      (the `KeyError` escapes); otherwise the count of correct results and
      their share, 0.0 for no results. */
  method CalculateMetrics(results: seq<Record>) returns (m: Option<Summary>)
    ensures m.None? <==> exists i :: 0 <= i < |results| && results[i].correctAnswer.None?
    ensures m.Some? ==>
              && m.value.total == |results|
              && m.value.correct == CountCorrect(results, CheckCorrectness)
              && m.value.agreements == 0 && m.value.improvements == 0
              && m.value.accuracy == (if |results| > 0 then m.value.correct as real / |results| as real else 0.0)
              && 0.0 <= m.value.accuracy <= 1.0
  {
    m := TallyResults(results, CheckCorrectness);
  }
}

=== FILE: numerals.dfy ===
/** Decimal numerals as the Python code reads and writes them: `str(n)` and
    `int(s)` for integers, and the first `\d+\.?\d*` token of a string
    (ASCII digits only). */
module Numerals {
  import opened Wrappers
  import opened Text

  predicate IsDigit(c: char) {
    '0' <= c <= '9'
  }

  predicate AllDigits(s: string) {
    forall i :: 0 <= i < |s| ==> IsDigit(s[i])
  }

  function DigitValue(c: char): nat
    requires IsDigit(c)
  {
    c as int - '0' as int
  }

  function DigitChar(d: nat): (c: char)
    requires d < 10
    ensures IsDigit(c) && DigitValue(c) == d
  {
    ('0' as int + d) as char
  }

  /** The number a run of decimal digits denotes; leading zeros are allowed. */
  function DigitsValue(ds: string): nat
    requires AllDigits(ds)
  {
    if ds == [] then 0 else DigitsValue(ds[..|ds| - 1]) * 10 + DigitValue(ds[|ds| - 1])
  }

  /** The digits of `n`, most significant first, with no leading zero ("0" for zero). */
  function NatToDigits(n: nat): (ds: string)
    ensures ds != [] && AllDigits(ds)
    ensures DigitsValue(ds) == n
    ensures |ds| > 1 ==> ds[0] != '0'
  {
    if n < 10 then [DigitChar(n)]
    else
      var front := NatToDigits(n / 10);
      var ds := front + [DigitChar(n % 10)];
      assert ds[..|ds| - 1] == front;
      ds
  }

  /** Python's `str(i)` for an integer: a minus sign for negatives, then the digits. */
  function IntToString(i: int): (s: string)
    ensures s != [] && '_' !in s
    ensures NoSpace(s)
  {
    var s := if i < 0 then "-" + NatToDigits(-i) else NatToDigits(i);
    assert forall k :: 0 <= k < |s| ==> s[k] == '-' || IsDigit(s[k]);
    s
  }

  /** Digits in which single underscores may separate two digits, as `int()`
      accepts them ("1_000"); no leading, trailing or doubled underscore. */
  predicate IsDigitGroups(b: string) {
    && b != []
    && IsDigit(b[0])
    && IsDigit(b[|b| - 1])
    && (forall i :: 0 <= i < |b| ==> IsDigit(b[i]) || b[i] == '_')
    && (forall i :: 0 <= i < |b| - 1 ==> b[i] != '_' || b[i + 1] != '_')
  }

  /** The digits of `b` with every other character dropped. */
  function DigitsOnly(b: string): (d: string)
    ensures AllDigits(d)
    ensures AllDigits(b) ==> d == b
  {
    if b == [] then []
    else if IsDigit(b[0]) then [b[0]] + DigitsOnly(b[1..])
    else DigitsOnly(b[1..])
  }

  /** Python's `int(s)` in base 10: surrounding whitespace is ignored, one
      optional sign, then digit groups; anything else is a `ValueError`,
      modelled as `None`. */
  function ParseInt(s: string): Option<int> {
    var t := Strip(s);
    if t != [] && (t[0] == '-' || t[0] == '+') then
      var body := t[1..];
      if IsDigitGroups(body) then
        var n: int := DigitsValue(DigitsOnly(body));
        Some(if t[0] == '-' then -n else n)
      else None
    else if IsDigitGroups(t) then Some(DigitsValue(DigitsOnly(t)))
    else None
  }

  /** Reading back what `str` wrote gives the same integer: `int(str(i)) == i`. */
  lemma {:induction false} ParseIntToString(i: int)
    ensures ParseInt(IntToString(i)) == Some(i)
  {
    var s := IntToString(i);
    var ds := NatToDigits(if i < 0 then -i else i);
    assert IsStripped(s);
    assert Strip(s) == s;
    assert IsDigitGroups(ds);
    if i < 0 {
      assert s[1..] == ds;
    }
  }

  /** A `\d+\.?\d*` token: its integer digits, whether the dot is there,
      and the digits after the dot. */
  datatype Decimal = Decimal(whole: string, dot: bool, frac: string)

  predicate ValidDecimal(d: Decimal) {
    d.whole != [] && AllDigits(d.whole) && AllDigits(d.frac) && (!d.dot ==> d.frac == [])
  }

  /** The characters of the token as they appear in the text. */
  function DecimalText(d: Decimal): string {
    d.whole + (if d.dot then "." + d.frac else "")
  }

  function Pow10(n: nat): (p: nat)
    ensures p > 0
  {
    if n == 0 then 1 else 10 * Pow10(n - 1)
  }

  /** The exact value of the token (Python's `float` of it, without rounding). */
  function DecimalValue(d: Decimal): real
    requires ValidDecimal(d)
  {
    DigitsValue(d.whole) as real + DigitsValue(d.frac) as real / Pow10(|d.frac|) as real
  }

  /** End of the run of digits that starts at `i`. */
  function DigitsEnd(s: string, i: nat): (e: nat)
    requires i <= |s|
    ensures i <= e <= |s|
    ensures forall k :: i <= k < e ==> IsDigit(s[k])
    ensures e < |s| ==> !IsDigit(s[e])
    decreases |s| - i
  {
    if i < |s| && IsDigit(s[i]) then DigitsEnd(s, i + 1) else i
  }

  lemma {:induction false} DigitsSlice(s: string, i: nat, e: nat)
    requires i <= e <= |s| && forall k :: i <= k < e ==> IsDigit(s[k])
    ensures AllDigits(s[i..e])
  {
    forall k | 0 <= k < e - i ensures IsDigit(s[i..e][k]) {
      assert s[i..e][k] == s[i + k];
    }
  }

  /** A slice around a character splits at it. */
  lemma {:induction false} SliceAround(s: string, p: nat, e: nat, f: nat)
    requires p <= e < f <= |s|
    ensures s[p..f] == s[p..e] + [s[e]] + s[e + 1..f]
  {
  }

  /** Index of the first digit of `s` at or after `from`. */
  function FirstDigit(s: string, from: nat): (r: Option<nat>)
    ensures r.None? <==> forall i :: from <= i < |s| ==> !IsDigit(s[i])
    ensures r.Some? ==> from <= r.value < |s| && IsDigit(s[r.value])
    ensures r.Some? ==> forall i :: from <= i < r.value ==> !IsDigit(s[i])
    decreases |s| - from
  {
    if from >= |s| then None
    else if IsDigit(s[from]) then Some(from)
    else FirstDigit(s, from + 1)
  }

  /** The greedy `\d+\.?\d*` match that starts at digit `p`: neither run
      of digits can be extended, and the dot is taken whenever it is there. */
  function DecimalAt(s: string, p: nat): (d: Decimal)
    requires p < |s| && IsDigit(s[p])
    ensures ValidDecimal(d)
    ensures OccursAt(s, DecimalText(d), p)
    ensures p + |d.whole| < |s| ==> !IsDigit(s[p + |d.whole|])
    ensures d.dot <==> p + |d.whole| < |s| && s[p + |d.whole|] == '.'
    ensures d.dot && p + |DecimalText(d)| < |s| ==> !IsDigit(s[p + |DecimalText(d)|])
  {
    var e := DigitsEnd(s, p);
    DigitsSlice(s, p, e);
    if e < |s| && s[e] == '.' then
      var f := DigitsEnd(s, e + 1);
      DigitsSlice(s, e + 1, f);
      SliceAround(s, p, e, f);
      Decimal(s[p..e], true, s[e + 1..f])
    else
      Decimal(s[p..e], false, [])
  }

  /** `p` is the position of the first digit of `s`. */
  predicate LeadingDigit(s: string, p: nat) {
    && p < |s|
    && IsDigit(s[p])
    && forall i :: 0 <= i < p ==> !IsDigit(s[i])
  }

  /** `re.findall(r'\d+\.?\d*', s)[0]`, or `None` when the list is empty:
      no match can start before the first digit, so the first match is the
      greedy one at that digit. */
  function FirstDecimal(s: string): (r: Option<Decimal>)
    ensures r.None? <==> forall i :: 0 <= i < |s| ==> !IsDigit(s[i])
    ensures r.Some? ==> ValidDecimal(r.value) && Contains(s, DecimalText(r.value))
    ensures r.Some? ==> exists p :: LeadingDigit(s, p) && r.value == DecimalAt(s, p)
    ensures forall p :: LeadingDigit(s, p) ==> r == Some(DecimalAt(s, p))
  {
    match FirstDigit(s, 0)
    case None => None
    case Some(p) =>
      var d := DecimalAt(s, p);
      Some(d)
  }
}

=== FILE: result_files.dfy ===
/** Names of the per-problem result files: how a run names the file it
    saves and how a later run reads the problem id back out of the name. */
module ResultFiles {
  import opened Wrappers
  import opened Text
  import opened Numerals

  const ProblemPrefix: string := "problem_"
  const JsonSuffix: string := ".json"

  /** A name the pattern `problem_*.json` matches. */
  predicate IsProblemFile(name: string) {
    && |name| >= |ProblemPrefix| + |JsonSuffix|
    && ProblemPrefix <= name
    && name[|name| - |JsonSuffix|..] == JsonSuffix
  }

  /** `Path.stem` for result files: the name without its `.json` suffix. */
  function Stem(name: string): (stem: string)
    ensures stem <= name
    ensures |name| >= |JsonSuffix| && name[|name| - |JsonSuffix|..] == JsonSuffix ==> stem + JsonSuffix == name
  {
    if |name| >= |JsonSuffix| && name[|name| - |JsonSuffix|..] == JsonSuffix then
      name[..|name| - |JsonSuffix|]
    else name
  }

  /** `save_result`'s file name: `problem_{id}_{timestamp}.json`. */
  function FileName(id: int, ts: string): (name: string)
    ensures IsProblemFile(name)
    ensures Stem(name) == ProblemPrefix + IntToString(id) + "_" + ts
  {
    var stem := ProblemPrefix + IntToString(id) + "_" + ts;
    var name := stem + JsonSuffix;
    assert name[..|ProblemPrefix|] == ProblemPrefix;
    assert name[|name| - |JsonSuffix|..] == JsonSuffix;
    assert name[..|name| - |JsonSuffix|] == stem;
    name
  }

  /** `int(file.stem.split('_')[1])`: the second `_`-separated field of the
      stem read as an integer; a name with no second field (`IndexError`)
      or one that is not an integer (`ValueError`) gives nothing. */
  function ParseId(name: string): (r: Option<int>)
    ensures r.Some? ==> '_' in Stem(name)
    ensures r.Some? ==> ParseInt(Split(Stem(name), '_')[1]) == r
  {
    var parts := Split(Stem(name), '_');
    SplitFirst(Stem(name), '_');
    if |parts| < 2 then None else ParseInt(parts[1])
  }

  /** The second field of a saved file's stem is the id written by `str`. */
  lemma {:induction false} SecondField(id: int, ts: string)
    ensures var parts := Split(Stem(FileName(id, ts)), '_');
            |parts| >= 2 && parts[1] == IntToString(id)
  {
    var digits := IntToString(id);
    var s := Stem(FileName(id, ts));
    var n := |ProblemPrefix|;
    var e := n + |digits|;
    assert s == ProblemPrefix + digits + "_" + ts;
    forall k | 0 <= k < n - 1 ensures s[k] != '_' {
      assert s[k] == ProblemPrefix[k];
    }
    assert s[n - 1] == '_';
    assert IndexFrom(s, '_', 0) == n - 1;
    forall k | n <= k < e ensures s[k] == digits[k - n] && s[k] != '_' {
    }
    assert s[e] == '_';
    assert IndexFrom(s, '_', n) == e;
    assert s[n..e] == digits;
    assert Split(s, '_') == [s[0..n - 1]] + SplitFrom(s, '_', n);
    assert SplitFrom(s, '_', n)[0] == digits;
  }

  /** Reading a saved file's name gives back the id it was saved under,
      whatever the timestamp: the timestamp's own underscore comes after
      the second field. */
  lemma {:induction false} ParseIdFileName(id: int, ts: string)
    ensures ParseId(FileName(id, ts)) == Some(id)
  {
    SecondField(id, ts);
    ParseIntToString(id);
  }
}

=== FILE: settings.dfy ===
/** The static persona table: three solver configurations and one judge
    configuration, built once and never changed. A key that the Python
    dictionary may leave out is an `Option` field here. */
module Settings {
  import opened Wrappers

  datatype PersonaConfig = PersonaConfig(
    name: string,
    role: Option<string>,
    systemPrompt: Option<string>,
    temperature: Option<real>,
    topP: Option<real>)

  const SolverConfigs: seq<PersonaConfig> := [
    PersonaConfig(
      "Solver_1",
      Some("Mathematical Rigor Specialist"),
      Some("You are a solver who prioritizes mathematical rigor and formal proofs. Break down problems systematically with clear logical steps."),
      Some(0.7),
      Some(0.9)),
    PersonaConfig(
      "Solver_2",
      Some("Intuitive Problem Solver"),
      Some("You are a solver who uses intuition and creative approaches. Look for patterns and elegant solutions."),
      Some(0.8),
      Some(0.95)),
    PersonaConfig(
      "Solver_3",
      Some("Edge Case Hunter"),
      Some("You are a solver who focuses on edge cases and boundary conditions. Question assumptions and test limits."),
      Some(0.6),
      Some(0.85))
  ]

  /** The judge has no `role` key. */
  const JudgeConfig: PersonaConfig := PersonaConfig(
    "Judge",
    None,
    Some("You are an impartial judge evaluating solutions. Focus on correctness, completeness, and logical soundness."),
    Some(0.3),
    Some(0.8))

  /** A sampling parameter that is present lies in the closed unit interval. */
  predicate InUnit(p: Option<real>) {
    p.Some? ==> 0.0 <= p.value <= 1.0
  }

  /** `Solver_` followed by the 1-based position. */
  function SolverName(i: nat): (name: string)
    requires i < 3
    ensures |name| == 8 && name[..7] == "Solver_"
  {
    "Solver_" + [('1' as int + i) as char]
  }

  /** The solver personas in order, and the judge persona. */
  datatype PersonaTable = PersonaTable(solvers: seq<PersonaConfig>, judge: PersonaConfig)

  const Personas: PersonaTable := PersonaTable(SolverConfigs, JudgeConfig)

  /** What the orchestrator relies on: three solver personas named by
      position, each with a role. */
  predicate WellFormedTable(t: PersonaTable) {
    && |t.solvers| == 3
    && forall i :: 0 <= i < 3 ==> t.solvers[i].name == SolverName(i) && t.solvers[i].role.Some?
  }

  /** The shape of the table: three solvers named by position, each with a
      role, pairwise different roles, a judge without a role, and every
      sampling parameter in [0, 1]. */
  lemma TableShape()
    ensures WellFormedTable(Personas)
    ensures |SolverConfigs| == 3
    ensures forall i :: 0 <= i < 3 ==> SolverConfigs[i].name == SolverName(i)
    ensures forall i :: 0 <= i < 3 ==> SolverConfigs[i].role.Some?
    ensures forall i, j :: 0 <= i < j < 3 ==> SolverConfigs[i].role != SolverConfigs[j].role
    ensures forall i, j :: 0 <= i < j < 3 ==> SolverConfigs[i].name != SolverConfigs[j].name
    ensures JudgeConfig.role.None?
    ensures forall i :: 0 <= i < 3 ==> InUnit(SolverConfigs[i].temperature) && InUnit(SolverConfigs[i].topP)
    ensures InUnit(JudgeConfig.temperature) && InUnit(JudgeConfig.topP)
  {
  }
}

=== FILE: text.dfy ===
/** The handful of Python `str` operations the evaluation scripts and parsers rely on,
    restricted to ASCII: whitespace is what `str.isspace` accepts below
    code point 128, and case mapping only touches `A`-`Z` / `a`-`z`. */
module Text {

  /** `str.isspace` on one ASCII character: tab, line feed, vertical tab,
      form feed, carriage return, the separators 0x1C-0x1F, and space. */
  predicate IsSpace(c: char) {
    ('\t' <= c <= '\r') || ('\U{1C}' <= c <= ' ')
  }

  predicate AllSpace(s: string) {
    forall i :: 0 <= i < |s| ==> IsSpace(s[i])
  }

  predicate NoSpace(s: string) {
    forall i :: 0 <= i < |s| ==> !IsSpace(s[i])
  }

  /** Neither end of `s` is whitespace: what `str.strip()` guarantees. */
  predicate IsStripped(s: string) {
    s == [] || (!IsSpace(s[0]) && !IsSpace(s[|s| - 1]))
  }

  /** The first position at or after `i` that is not whitespace (`|s|` if none). */
  function SkipSpace(s: string, i: nat): (e: nat)
    requires i <= |s|
    ensures i <= e <= |s|
    ensures forall k :: i <= k < e ==> IsSpace(s[k])
    ensures e < |s| ==> !IsSpace(s[e])
    decreases |s| - i
  {
    if i < |s| && IsSpace(s[i]) then SkipSpace(s, i + 1) else i
  }

  /** `str.lstrip()`: drops the leading whitespace and nothing else
      (see `LStripParts`). */
  function LStrip(s: string): (r: string)
    ensures |r| <= |s|
    ensures r == [] || !IsSpace(r[0])
  {
    if s != [] && IsSpace(s[0]) then LStrip(s[1..]) else s
  }

  /** What `LStrip` dropped is whitespace, and what it kept is the rest. */
  lemma {:induction false} LStripParts(s: string)
    ensures var r := LStrip(s);
            s == s[..|s| - |r|] + r && AllSpace(s[..|s| - |r|])
  {
    if s != [] && IsSpace(s[0]) {
      LStripParts(s[1..]);
      var r := LStrip(s);
      assert s[..|s| - |r|] == [s[0]] + s[1..][..|s| - 1 - |r|];
    }
  }

  /** `str.rstrip()`: drops the trailing whitespace and nothing else
      (see `RStripParts`). */
  function RStrip(s: string): (r: string)
    ensures |r| <= |s|
    ensures r == [] || !IsSpace(r[|r| - 1])
  {
    if s != [] && IsSpace(s[|s| - 1]) then RStrip(s[..|s| - 1]) else s
  }

  /** What `RStrip` kept is a prefix, and what it dropped is whitespace. */
  lemma {:induction false} RStripParts(s: string)
    ensures var r := RStrip(s);
            r == s[..|r|] && AllSpace(s[|r|..])
  {
    if s != [] && IsSpace(s[|s| - 1]) {
      RStripParts(s[..|s| - 1]);
      var r := RStrip(s);
      assert s[|r|..] == s[..|s| - 1][|r|..] + [s[|s| - 1]];
    }
  }

  /** `RStrip` is the only prefix that leaves nothing but whitespace behind
      and does not itself end in whitespace. */
  lemma {:induction false} RStripUnique(s: string, t: string)
    requires t <= s && AllSpace(s[|t|..])
    requires t == [] || !IsSpace(t[|t| - 1])
    ensures RStrip(s) == t
  {
    RStripParts(s);
  }

  /** `str.strip()`: `s` without its leading and trailing whitespace. */
  function Strip(s: string): (r: string)
    ensures IsStripped(r)
    ensures r == [] <==> AllSpace(s)
    ensures IsStripped(s) ==> r == s
    ensures |r| <= |s|
  {
    var t := LStrip(s);
    LStripParts(s);
    RStripParts(t);
    RStrip(t)
  }

  /** Without leading whitespace, stripping only trims the right end. */
  lemma {:induction false} StripNoLeading(s: string)
    requires s == [] || !IsSpace(s[0])
    ensures Strip(s) == RStrip(s)
  {
  }

  /** Stripping never brings in a character the text did not have. */
  lemma {:induction false} StripKeepsOut(s: string, c: char)
    requires c !in s
    ensures c !in Strip(s)
  {
    LStripParts(s);
    var t := LStrip(s);
    assert t == s[|s| - |t|..];
    RStripParts(t);
  }

  /** The inverse of `Split`: the parts glued back with `sep` (`sep.join(parts)`). */
  function Join(parts: seq<string>, sep: char): string
    requires |parts| >= 1
  {
    if |parts| == 1 then parts[0] else parts[0] + [sep] + Join(parts[1..], sep)
  }

  /** The parts of `s[i..]` between separators. */
  function SplitFrom(s: string, sep: char, i: nat): (parts: seq<string>)
    requires i <= |s|
    ensures |parts| >= 1
    ensures forall p :: p in parts ==> sep !in p
    decreases |s| - i
  {
    var e := IndexFrom(s, sep, i);
    if e == |s| then [s[i..]] else [s[i..e]] + SplitFrom(s, sep, e + 1)
  }

  /** `s.split(sep)` for a one-character separator: the pieces between the
      separators, in order, none containing `sep`. */
  function Split(s: string, sep: char): (parts: seq<string>)
    ensures |parts| >= 1
    ensures forall p :: p in parts ==> sep !in p
  {
    SplitFrom(s, sep, 0)
  }

  /** `s[i..]` around the character at `e`. */
  lemma {:induction false} Around(s: string, i: nat, e: nat)
    requires i <= e < |s|
    ensures s[i..] == s[i..e] + [s[e]] + s[e + 1..]
  {
  }

  /** Gluing a first part onto at least one more. */
  lemma {:induction false} JoinCons(first: string, rest: seq<string>, sep: char)
    requires |rest| >= 1
    ensures Join([first] + rest, sep) == first + [sep] + Join(rest, sep)
  {
    assert ([first] + rest)[1..] == rest;
  }

  lemma {:induction false} SplitFromJoin(s: string, sep: char, i: nat)
    requires i <= |s|
    ensures Join(SplitFrom(s, sep, i), sep) == s[i..]
    decreases |s| - i
  {
    var e := IndexFrom(s, sep, i);
    if e < |s| {
      SplitFromJoin(s, sep, e + 1);
      JoinCons(s[i..e], SplitFrom(s, sep, e + 1), sep);
      Around(s, i, e);
    }
  }

  /** `split` and `join` are inverse: joining the parts gives `s` back. */
  lemma {:induction false} SplitJoin(s: string, sep: char)
    ensures Join(Split(s, sep), sep) == s
  {
    SplitFromJoin(s, sep, 0);
  }

  /** Cutting `s[i..]` at a separator at `e` splits its separator count. */
  lemma {:induction false} CountAround(s: string, sep: char, i: nat, e: nat)
    requires i <= e < |s| && s[e] == sep
    ensures multiset(s[i..])[sep] == multiset(s[i..e])[sep] + 1 + multiset(s[e + 1..])[sep]
  {
    Around(s, i, e);
  }

  lemma {:induction false} SplitFromCount(s: string, sep: char, i: nat)
    requires i <= |s|
    ensures |SplitFrom(s, sep, i)| == multiset(s[i..])[sep] + 1
    decreases |s| - i
  {
    var e := IndexFrom(s, sep, i);
    assert sep !in s[i..e];
    if e < |s| {
      SplitFromCount(s, sep, e + 1);
      CountAround(s, sep, i, e);
    } else {
      assert s[i..] == s[i..e];
    }
  }

  /** There is one part more than there are separators. */
  lemma {:induction false} SplitCount(s: string, sep: char)
    ensures |Split(s, sep)| == multiset(s)[sep] + 1
  {
    SplitFromCount(s, sep, 0);
    assert s[0..] == s;
  }

  /** Without a separator there is one part, the whole text. */
  lemma {:induction false} SplitWithout(s: string, sep: char)
    requires sep !in s
    ensures Split(s, sep) == [s]
  {
    assert IndexFrom(s, sep, 0) == |s|;
  }

  /** The first part is the text before the first separator, and there is
      more than one part exactly when `sep` occurs. */
  lemma {:induction false} SplitFirst(s: string, sep: char)
    ensures var parts := Split(s, sep);
            && parts[0] == Before(s, sep)
            && (|parts| > 1 <==> sep in s)
  {
    var e := IndexFrom(s, sep, 0);
    BeforeUnique(s, sep, s[..e]);
  }

  /** The first position at or after `i` holding `c` (`|s|` if none). */
  function IndexFrom(s: string, c: char, i: nat): (e: nat)
    requires i <= |s|
    ensures i <= e <= |s|
    ensures forall k :: i <= k < e ==> s[k] != c
    ensures e < |s| ==> s[e] == c
    decreases |s| - i
  {
    if i < |s| && s[i] != c then IndexFrom(s, c, i + 1) else i
  }

  /** The text before the first `c` (all of `s` when there is none);
      see `BeforeParts`. */
  function Before(s: string, c: char): (r: string)
    ensures |r| <= |s| && c !in r
  {
    if s == [] || s[0] == c then [] else [s[0]] + Before(s[1..], c)
  }

  /** `Before` keeps a prefix and stops at the first `c`, if there is one. */
  lemma {:induction false} BeforeParts(s: string, c: char)
    ensures var r := Before(s, c);
            && r == s[..|r|]
            && (|r| < |s| <==> c in s)
            && (|r| < |s| ==> s[|r|] == c)
  {
    if s != [] && s[0] != c {
      BeforeParts(s[1..], c);
      var r := Before(s, c);
      assert r[1..] == Before(s[1..], c);
      assert s == [s[0]] + s[1..];
    }
  }

  /** `Before` is the only prefix free of `c` that ends at a `c` or at the end. */
  lemma {:induction false} BeforeUnique(s: string, c: char, r: string)
    requires r <= s && c !in r
    requires |r| == |s| || s[|r|] == c
    ensures Before(s, c) == r
  {
    BeforeParts(s, c);
  }

  /** The first line of `s`: `s.split('\n')[0]`. */
  function FirstLine(s: string): (r: string)
    ensures |r| <= |s| && '\n' !in r
  {
    Before(s, '\n')
  }

  /** The text after the first `c`: `s.split(c, 1)[1]`. */
  function After(s: string, c: char): (r: string)
    requires c in s
    ensures s == Before(s, c) + [c] + r
  {
    var b := Before(s, c);
    BeforeParts(s, c);
    Around(s, 0, |b|);
    s[|b| + 1..]
  }

  /** Length of the run of non-whitespace characters that starts `t`. */
  function WordLength(t: string): (k: nat)
    ensures k <= |t| && NoSpace(t[..k])
    ensures k < |t| ==> IsSpace(t[k])
    decreases |t|
  {
    if t == [] || IsSpace(t[0]) then 0
    else
      var k := WordLength(t[1..]);
      assert t[..k + 1] == [t[0]] + t[1..][..k];
      k + 1
  }

  /** `s.split()` with no argument: the maximal runs of non-whitespace, in order. */
  function Words(s: string): (ws: seq<string>)
    ensures forall w :: w in ws ==> w != [] && NoSpace(w)
    ensures ws == [] <==> AllSpace(s)
    decreases |s|
  {
    var t := LStrip(s);
    LStripParts(s);
    if t == [] then
      assert s == s[..|s| - |t|];
      []
    else
      var k := WordLength(t);
      [t[..k]] + Words(t[k..])
  }

  /** `needle` sits in `hay` starting at index `i`. */
  predicate OccursAt(hay: string, needle: string, i: int) {
    0 <= i && i + |needle| <= |hay| && hay[i..i + |needle|] == needle
  }

  /** Python's `needle in hay`; the empty string occurs in every string. */
  predicate Contains(hay: string, needle: string) {
    exists i :: 0 <= i <= |hay| - |needle| && OccursAt(hay, needle, i)
  }

  function LowerChar(c: char): char {
    if 'A' <= c <= 'Z' then (c as int + 32) as char else c
  }

  function UpperChar(c: char): char {
    if 'a' <= c <= 'z' then (c as int - 32) as char else c
  }

  /** `str.lower()` on ASCII letters. */
  function Lower(s: string): (r: string)
    ensures |r| == |s|
  {
    seq(|s|, i requires 0 <= i < |s| => LowerChar(s[i]))
  }

  /** `str.upper()` on ASCII letters. */
  function Upper(s: string): (r: string)
    ensures |r| == |s|
  {
    seq(|s|, i requires 0 <= i < |s| => UpperChar(s[i]))
  }

  /** `s.rstrip(chars)`: drops the trailing characters that belong to `chars`. */
  function RStripChars(s: string, chars: set<char>): (r: string)
    ensures r <= s
    ensures r == [] || r[|r| - 1] !in chars
    ensures forall i :: |r| <= i < |s| ==> s[i] in chars
    decreases |s|
  {
    if s != [] && s[|s| - 1] in chars then RStripChars(s[..|s| - 1], chars) else s
  }

  /** A part of a part of `a` is a part of `a`. */
  lemma {:induction false} ContainsTrans(a: string, b: string, c: string)
    requires Contains(a, b) && Contains(b, c)
    ensures Contains(a, c)
  {
    var i :| 0 <= i <= |a| - |b| && OccursAt(a, b, i);
    var j :| 0 <= j <= |b| - |c| && OccursAt(b, c, j);
    forall k | 0 <= k < |c| ensures a[i + j + k] == c[k] {
      assert c[k] == b[j..j + |c|][k] == b[j + k];
      assert b[j + k] == a[i..i + |b|][j + k];
    }
    assert a[i + j..i + j + |c|] == c;
    assert OccursAt(a, c, i + j);
  }

  /** Whatever occurs in `s[1..]` occurs in `s`. */
  lemma {:induction false} ContainsTail(s: string, c: string)
    requires s != [] && Contains(s[1..], c)
    ensures Contains(s, c)
  {
    assert OccursAt(s, s[1..], 1);
    ContainsTrans(s, s[1..], c);
  }

  /** The stripped text is a slice of the original. */
  lemma {:induction false} StripOccurs(s: string)
    ensures Contains(s, Strip(s))
  {
    var t := LStrip(s);
    var r := RStrip(t);
    var i := |s| - |t|;
    LStripParts(s);
    RStripParts(t);
    assert s[i..] == t;
    assert s[i..i + |r|] == t[..|r|];
    assert OccursAt(s, r, i);
  }

  /** The text after the first `c` is a slice of the original. */
  lemma {:induction false} AfterOccurs(s: string, c: char)
    requires c in s
    ensures Contains(s, After(s, c))
  {
    var r := After(s, c);
    var k := |Before(s, c)| + 1;
    assert s[k..k + |r|] == r;
    assert OccursAt(s, r, k);
  }

  lemma {:induction false} SplitFromPartOccurs(s: string, sep: char, i: nat, k: nat)
    requires i <= |s| && k < |SplitFrom(s, sep, i)|
    ensures Contains(s, SplitFrom(s, sep, i)[k])
    decreases |s| - i
  {
    var e := IndexFrom(s, sep, i);
    if k == 0 {
      assert SplitFrom(s, sep, i)[0] == s[i..e];
      assert OccursAt(s, s[i..e], i);
    } else {
      SplitFromPartOccurs(s, sep, e + 1, k - 1);
    }
  }

  /** Every part `split` returns is a slice of the original. */
  lemma {:induction false} SplitPartOccurs(s: string, sep: char, k: nat)
    requires k < |Split(s, sep)|
    ensures Contains(s, Split(s, sep)[k])
  {
    SplitFromPartOccurs(s, sep, 0, k);
  }

  /** One step of `split()`: the first word, then the words of what follows it. */
  lemma {:induction false} WordsStep(s: string)
    requires !AllSpace(s)
    ensures LStrip(s) != []
    ensures var t := LStrip(s); var k := WordLength(t);
            Words(s) == [t[..k]] + Words(t[k..])
  {
    LStripParts(s);
  }

  /** A prefix and a suffix of `s` are slices of it. */
  lemma {:induction false} EndsOccur(s: string, n: nat)
    requires n <= |s|
    ensures Contains(s, s[..n]) && Contains(s, s[n..])
  {
    assert OccursAt(s, s[..n], 0);
    assert OccursAt(s, s[n..], n);
  }

  /** Every word `split()` returns is a slice of the original. */
  lemma {:induction false} WordOccurs(s: string, w: string)
    requires w in Words(s)
    ensures Contains(s, w)
    decreases |s|
  {
    WordsStep(s);
    var t := LStrip(s);
    var k := WordLength(t);
    LStripParts(s);
    assert s[|s| - |t|..] == t;
    EndsOccur(s, |s| - |t|);
    EndsOccur(t, k);
    if w == t[..k] {
      ContainsTrans(s, t, w);
    } else {
      var rest := t[k..];
      assert w in Words(rest);
      WordOccurs(rest, w);
      ContainsTrans(s, t, rest);
      ContainsTrans(s, rest, w);
    }
  }

  /** A text without whitespace is its own single word. */
  lemma {:induction false} WordsOfWord(w: string)
    requires w != [] && NoSpace(w)
    ensures Words(w) == [w]
  {
    assert !IsSpace(w[0]);
    WordsStep(w);
    assert LStrip(w) == w;
    var k := WordLength(w);
    assert k == |w|;
    assert w[k..] == [] && w[..k] == w;
    assert Words([]) == [] by {
      assert AllSpace([]);
    }
  }
}

=== FILE: winners.dfy ===
/** Reading the judge's decision out of a judgment for the winner chart:
    three strategies tried in order, then a count of the decisions. A
    decision is the solver name the judge chose, such as `Solver_2`. */
module Winners {
  import opened Wrappers
  import opened Text

  const SolverPrefix: string := "Solver"
  const WinnerTag: string := "WINNER:"

  /** Trailing characters the second strategy removes from its word. */
  const NextLinePunctuation: set<char> := {'.', ',', ';', ':'}

  /** Trailing characters the third strategy removes from its word. */
  const KeywordPunctuation: set<char> := {'.', ',', ';', ':', '\'', '"', ')'}

  predicate IsSolverWord(w: string) {
    SolverPrefix <= w
  }

  /** What every decision looks like: a single token that starts with `Solver`. */
  predicate WellShaped(w: string) {
    IsSolverWord(w) && NoSpace(w)
  }

  /** Index of the first word at or after `i` that starts with `Solver`. */
  function FirstSolverFrom(words: seq<string>, i: nat): (r: Option<nat>)
    requires i <= |words|
    ensures r.Some? ==> i <= r.value < |words| && IsSolverWord(words[r.value])
    ensures r.Some? ==> forall j :: i <= j < r.value ==> !IsSolverWord(words[j])
    ensures r.None? <==> forall j :: i <= j < |words| ==> !IsSolverWord(words[j])
    decreases |words| - i
  {
    if i == |words| then None
    else if IsSolverWord(words[i]) then Some(i)
    else FirstSolverFrom(words, i + 1)
  }

  /** The first whitespace-separated word of `s` that starts with `Solver`. */
  function SolverWord(s: string): (r: Option<string>)
    ensures r.Some? ==> r.value in Words(s) && WellShaped(r.value)
    ensures r.Some? ==> exists k :: && 0 <= k < |Words(s)| && Words(s)[k] == r.value
                                    && forall j :: 0 <= j < k ==> !IsSolverWord(Words(s)[j])
    ensures r.None? <==> forall w :: w in Words(s) ==> !IsSolverWord(w)
  {
    var ws := Words(s);
    match FirstSolverFrom(ws, 0)
    case Some(k) => Some(ws[k])
    case None => None
  }

  /** A text with a word that starts with `Solver` is non-empty and
      mentions `Solver`, so the source's guards before its word loops never
      change what the loop finds. */
  lemma {:induction false} SolverWordMentions(t: string)
    requires SolverWord(t).Some?
    ensures t != [] && Contains(t, SolverPrefix)
  {
    var w := SolverWord(t).value;
    WordOccurs(t, w);
    assert OccursAt(w, SolverPrefix, 0);
    ContainsTrans(t, w, SolverPrefix);
  }

  /** The first `lo <= k < hi` whose line `f` accepts, and what `f` makes of it. */
  function FirstHit(lines: seq<string>, f: string -> Option<string>, lo: nat, hi: nat): (r: Option<string>)
    requires lo <= hi <= |lines|
    ensures r.None? <==> forall k :: lo <= k < hi ==> f(lines[k]).None?
    ensures r.Some? ==> exists k :: lo <= k < hi && f(lines[k]) == r && forall j :: lo <= j < k ==> f(lines[j]).None?
    decreases hi - lo
  {
    if lo == hi then None
    else if f(lines[lo]).Some? then f(lines[lo])
    else FirstHit(lines, f, lo + 1, hi)
  }

  /** The first line `f` accepts decides `FirstHit`. */
  lemma {:induction false} FirstHitAt(lines: seq<string>, f: string -> Option<string>, lo: nat, hi: nat, k: nat)
    requires lo <= k < hi <= |lines|
    requires f(lines[k]).Some?
    requires forall j :: lo <= j < k ==> f(lines[j]).None?
    ensures FirstHit(lines, f, lo, hi) == f(lines[k])
    decreases k - lo
  {
    if lo < k {
      FirstHitAt(lines, f, lo + 1, hi, k);
    }
  }

  /** Strategy 1 on one line: a line holding `WINNER:` names, after its first
      colon, the first word that starts with `Solver`, punctuation and all.
      The source's second test, that splitting at `:` gives more than one
      part, is the same as the line holding a colon (`SplitFirst`). */
  function TagLineWinner(line: string): (r: Option<string>)
    ensures r.Some? ==> WellShaped(r.value) && Contains(line, WinnerTag)
    ensures r.Some? ==> ':' in line && r.value in Words(Strip(After(line, ':')))
    ensures Contains(line, WinnerTag) && ':' in line ==> r == SolverWord(Strip(After(line, ':')))
  {
    if Contains(line, WinnerTag) && ':' in line then
      var t := Strip(After(line, ':'));
      if t != [] && Contains(t, SolverPrefix) then SolverWord(t)
      else
        assert SolverWord(t).None? by {
          if SolverWord(t).Some? { SolverWordMentions(t); }
        }
        None
    else None
  }

  /** Strategy 1 answers only from a line that mentions `Solver`. */
  lemma {:induction false} TagLineMentionsSolver(line: string)
    requires TagLineWinner(line).Some?
    ensures Contains(line, SolverPrefix)
  {
    var after := After(line, ':');
    var t := Strip(after);
    AfterOccurs(line, ':');
    StripOccurs(after);
    ContainsTrans(line, after, t);
    ContainsTrans(line, t, SolverPrefix);
  }

  /** The first word of `t` that starts with `Solver`, with the trailing
      characters in `chars` removed, provided `t` is non-empty and mentions
      `Solver` at all. */
  function TrimmedSolverWord(t: string, chars: set<char>): (r: Option<string>)
    requires 'r' !in chars
    ensures r.Some? ==> WellShaped(r.value) && r.value[|r.value| - 1] !in chars
    ensures r.Some? ==> Contains(t, SolverPrefix)
    ensures r.Some? <==> SolverWord(t).Some?
    ensures r.Some? ==> r.value == RStripChars(SolverWord(t).value, chars)
  {
    if t != [] && Contains(t, SolverPrefix) then
      match SolverWord(t)
      case Some(w) =>
        TrimKeepsShape(w, chars);
        Some(RStripChars(w, chars))
      case None => None
    else
      assert SolverWord(t).None? by {
        if SolverWord(t).Some? { SolverWordMentions(t); }
      }
      None
  }

  /** Strategy 2 on one line that follows a `WINNER:` line: the first word
      of the stripped line that starts with `Solver`, trailing `.,;:` removed. */
  function LineCandidate(line: string): (r: Option<string>)
    ensures r.Some? ==> WellShaped(r.value) && r.value[|r.value| - 1] !in NextLinePunctuation
    ensures r.Some? <==> SolverWord(Strip(line)).Some?
    ensures r.Some? ==> r.value == RStripChars(SolverWord(Strip(line)).value, NextLinePunctuation)
  {
    TrimmedSolverWord(Strip(line), NextLinePunctuation)
  }

  /** Strategy 2 answers only from a line that mentions `Solver`. */
  lemma {:induction false} CandidateMentionsSolver(line: string)
    requires LineCandidate(line).Some?
    ensures Contains(line, SolverPrefix)
  {
    StripOccurs(line);
    ContainsTrans(line, Strip(line), SolverPrefix);
  }

  /** `min(i + 4, len(lines))`: the window after line `i` ends there. */
  function WindowEnd(i: nat, n: nat): (e: nat)
    requires i < n
    ensures i < e <= n && e <= i + 4
    ensures e == n || e == i + 4
  {
    if i + 4 < n then i + 4 else n
  }

  /** Strategy 2 at line `i`: when it holds `WINNER:`, the first of the (at
      most three) following lines that yields a candidate. */
  function Window(lines: seq<string>, i: nat, candidate: string -> Option<string>): (r: Option<string>)
    requires i < |lines|
    ensures r.Some? ==> Contains(lines[i], WinnerTag)
    ensures r.Some? ==> exists j :: && i < j <= i + 3 && j < |lines| && candidate(lines[j]) == r
                                    && forall k :: i < k < j ==> candidate(lines[k]).None?
    ensures r.None? <==> || !Contains(lines[i], WinnerTag)
                         || forall j :: i < j <= i + 3 && j < |lines| ==> candidate(lines[j]).None?
  {
    if Contains(lines[i], WinnerTag) then FirstHit(lines, candidate, i + 1, WindowEnd(i, |lines|)) else None
  }

  /** Strategy 2 over the lines from `i` on: the first window with a candidate. */
  function FollowStrategy(lines: seq<string>, i: nat, candidate: string -> Option<string>): (r: Option<string>)
    requires i <= |lines|
    ensures r.None? <==> forall k :: i <= k < |lines| ==> Window(lines, k, candidate).None?
    ensures r.Some? ==> exists k :: i <= k < |lines| && Window(lines, k, candidate) == r
    decreases |lines| - i
  {
    if i == |lines| then None
    else
      match Window(lines, i, candidate)
      case Some(w) => Some(w)
      case None => FollowStrategy(lines, i + 1, candidate)
  }

  /** Strategy 3: when `best` or `winner` appears in any case, the first word
      of the whole judgment that starts with `Solver`, trailing punctuation
      and closing quotes and brackets removed. */
  function KeywordStrategy(judgment: string): (r: Option<string>)
    ensures r.Some? ==> WellShaped(r.value) && r.value[|r.value| - 1] !in KeywordPunctuation
    ensures r.Some? ==> Contains(Lower(judgment), "best") || Contains(Lower(judgment), "winner")
    ensures Contains(Lower(judgment), "best") || Contains(Lower(judgment), "winner") ==>
              && (r.Some? <==> SolverWord(judgment).Some?)
              && (r.Some? ==> r.value == RStripChars(SolverWord(judgment).value, KeywordPunctuation))
  {
    var low := Lower(judgment);
    if Contains(low, "best") || Contains(low, "winner") then
      match SolverWord(judgment)
      case Some(w) =>
        TrimKeepsShape(w, KeywordPunctuation);
        Some(RStripChars(w, KeywordPunctuation))
      case None => None
    else None
  }

  /** Strategy 3 answers only when the judgment mentions `Solver`. */
  lemma {:induction false} KeywordMentionsSolver(judgment: string)
    requires KeywordStrategy(judgment).Some?
    ensures Contains(judgment, SolverPrefix)
  {
    SolverWordMentions(judgment);
  }

  /** The decision read from one judgment: strategy 1 on its lines, else
      strategy 2, else strategy 3. */
  function Winner(judgment: string): (r: Option<string>)
    ensures r.Some? ==> WellShaped(r.value)
  {
    var lines := Split(judgment, '\n');
    var first := FirstHit(lines, TagLineWinner, 0, |lines|);
    if first.Some? then first
    else
      var second := FollowStrategy(lines, 0, LineCandidate);
      if second.Some? then second
      else KeywordStrategy(judgment)
  }

  /** Removing trailing characters other than `r` leaves a word that still
      starts with `Solver`. */
  lemma {:induction false} TrimKeepsShape(w: string, chars: set<char>)
    requires WellShaped(w) && 'r' !in chars
    ensures WellShaped(RStripChars(w, chars))
  {
    var r := RStripChars(w, chars);
    assert w[|SolverPrefix| - 1] == 'r';
    assert |r| >= |SolverPrefix|;
    assert r[..|SolverPrefix|] == w[..|SolverPrefix|];
  }

  /** Line `j` is one of the three lines that follow the `WINNER:` line `i`. */
  predicate FollowsTag(lines: seq<string>, i: int, j: int) {
    0 <= i < j < |lines| && j <= i + 3 && Contains(lines[i], WinnerTag)
  }

  /** A line strategy 1 accepts is part of the judgment, so the judgment
      mentions `Solver`. */
  lemma {:induction false} TagHitMentionsSolver(judgment: string)
    requires var lines := Split(judgment, '\n'); FirstHit(lines, TagLineWinner, 0, |lines|).Some?
    ensures Contains(judgment, SolverPrefix)
  {
    var lines := Split(judgment, '\n');
    var first := FirstHit(lines, TagLineWinner, 0, |lines|);
    var k :| 0 <= k < |lines| && TagLineWinner(lines[k]) == first;
    TagLineMentionsSolver(lines[k]);
    SplitPartOccurs(judgment, '\n', k);
    ContainsTrans(judgment, lines[k], SolverPrefix);
  }

  /** Strategy 2 answers with a candidate from one of the three lines after
      a `WINNER:` line. */
  lemma {:induction false} FollowPicked(lines: seq<string>, candidate: string -> Option<string>)
    requires FollowStrategy(lines, 0, candidate).Some?
    ensures exists i, j :: FollowsTag(lines, i, j) && candidate(lines[j]) == FollowStrategy(lines, 0, candidate)
  {
    var r := FollowStrategy(lines, 0, candidate);
    var i :| 0 <= i < |lines| && Window(lines, i, candidate) == r;
    var j :| i < j <= i + 3 && j < |lines| && candidate(lines[j]) == r;
    assert FollowsTag(lines, i, j);
  }

  /** A line strategy 2 reads is part of the judgment, so the judgment
      mentions `Solver`. */
  lemma {:induction false} FollowHitMentionsSolver(judgment: string)
    requires var lines := Split(judgment, '\n'); FollowStrategy(lines, 0, LineCandidate).Some?
    ensures Contains(judgment, SolverPrefix)
  {
    var lines := Split(judgment, '\n');
    FollowPicked(lines, LineCandidate);
    var i, j :| FollowsTag(lines, i, j) && LineCandidate(lines[j]) == FollowStrategy(lines, 0, LineCandidate);
    CandidateMentionsSolver(lines[j]);
    SplitPartOccurs(judgment, '\n', j);
    ContainsTrans(judgment, lines[j], SolverPrefix);
  }

  /** Every strategy takes its word from the judgment, so no decision is
      read from a judgment that never mentions `Solver`. */
  lemma {:induction false} WinnerNeedsSolver(judgment: string)
    ensures Winner(judgment).Some? ==> Contains(judgment, SolverPrefix)
  {
    var lines := Split(judgment, '\n');
    if FirstHit(lines, TagLineWinner, 0, |lines|).Some? {
      TagHitMentionsSolver(judgment);
    } else if FollowStrategy(lines, 0, LineCandidate).Some? {
      FollowHitMentionsSolver(judgment);
    } else if KeywordStrategy(judgment).Some? {
      KeywordMentionsSolver(judgment);
    }
  }

  /** The first line that strategy 1 accepts decides, whatever follows. */
  lemma {:induction false} FirstTagLineDecides(judgment: string, k: nat)
    requires k < |Split(judgment, '\n')|
    requires TagLineWinner(Split(judgment, '\n')[k]).Some?
    requires forall j :: 0 <= j < k ==> TagLineWinner(Split(judgment, '\n')[j]).None?
    ensures Winner(judgment) == TagLineWinner(Split(judgment, '\n')[k])
  {
    var lines := Split(judgment, '\n');
    FirstHitAt(lines, TagLineWinner, 0, |lines|, k);
  }

  /** Strategy 2 answers only from one of the three lines after a `WINNER:`
      line, and only when strategy 1 found nothing. */
  lemma {:induction false} FollowWindow(judgment: string)
    requires var lines := Split(judgment, '\n');
             FirstHit(lines, TagLineWinner, 0, |lines|).None? && FollowStrategy(lines, 0, LineCandidate).Some?
    ensures var lines := Split(judgment, '\n');
            exists i, j :: FollowsTag(lines, i, j) && Winner(judgment) == LineCandidate(lines[j])
  {
    var lines := Split(judgment, '\n');
    FollowPicked(lines, LineCandidate);
    var i, j :| FollowsTag(lines, i, j) && LineCandidate(lines[j]) == FollowStrategy(lines, 0, LineCandidate);
    assert Winner(judgment) == LineCandidate(lines[j]);
  }

  /** Strategy 3 is consulted only when the first two found nothing. */
  lemma {:induction false} KeywordLast(judgment: string)
    requires var lines := Split(judgment, '\n');
             FirstHit(lines, TagLineWinner, 0, |lines|).None? && FollowStrategy(lines, 0, LineCandidate).None?
    ensures Winner(judgment) == KeywordStrategy(judgment)
  {
  }

  /** Strategy 1 reads any solver word `w` from the line `WINNER:w`. */
  lemma {:induction false} ColonLineWinner(w: string)
    requires WellShaped(w)
    ensures TagLineWinner(WinnerTag + w) == Some(w)
  {
    var j := WinnerTag + w;
    assert Contains(j, WinnerTag) by {
      assert OccursAt(j, WinnerTag, 0);
    }
    assert After(j, ':') == w by {
      assert j[6] == ':';
      BeforeUnique(j, ':', "WINNER");
      assert j[7..] == w;
    }
    assert Strip(w) == w by {
      assert IsStripped(w);
    }
    assert Contains(w, SolverPrefix) by {
      assert OccursAt(w, SolverPrefix, 0);
    }
    assert SolverWord(w) == Some(w) by {
      WordsOfWord(w);
    }
  }

  /** The judgment `WINNER:w` is a single word, and it does not start with `Solver`. */
  lemma {:induction false} TagJudgmentWords(w: string)
    requires WellShaped(w)
    ensures forall t :: t in Words(WinnerTag + w) ==> !IsSolverWord(t)
  {
    var j := WinnerTag + w;
    assert NoSpace(j);
    WordsOfWord(j);
    assert j[0] != SolverPrefix[0];
  }

  /** The judgment `WINNER:w` is decided by strategy 1 on its only line. */
  lemma {:induction false} TagJudgmentWinner(w: string)
    requires WellShaped(w)
    ensures Winner(WinnerTag + w) == Some(w)
  {
    var j := WinnerTag + w;
    assert '\n' !in j by {
      assert NoSpace(j);
      assert IsSpace('\n');
    }
    SplitWithout(j, '\n');
    ColonLineWinner(w);
    FirstHitAt([j], TagLineWinner, 0, 1, 0);
  }

  /** A decision need not be a whitespace-separated word of the judgment:
      in `WINNER:Solver_1` no word starts with `Solver`, yet strategy 1 splits
      at the colon and reads `Solver_1`. */
  lemma {:induction false} SolverTokenNotNeeded(w: string)
    requires WellShaped(w)
    ensures forall t :: t in Words(WinnerTag + w) ==> !IsSolverWord(t)
    ensures Winner(WinnerTag + w) == Some(w)
  {
    TagJudgmentWords(w);
    TagJudgmentWinner(w);
  }

  /** `judge_decisions` for a reading function: what `read` makes of every
      result's judgment, in order, skipping results it yields nothing for; a
      result without a judgment reads as the empty text. */
  function Decisions<J, D>(judgments: seq<J>, read: J -> Option<D>): (ds: seq<D>)
    ensures |ds| <= |judgments|
  {
    if judgments == [] then []
    else
      var n := |judgments| - 1;
      Decisions(judgments[..n], read) + match read(judgments[n]) case Some(w) => [w] case None => []
  }

  /** Every decision is what the reader made of one of the judgments. */
  lemma {:induction false} DecisionFrom<J, D>(judgments: seq<J>, read: J -> Option<D>, d: D)
    requires d in Decisions(judgments, read)
    ensures exists k :: 0 <= k < |judgments| && read(judgments[k]) == Some(d)
  {
    var n := |judgments| - 1;
    if d in Decisions(judgments[..n], read) {
      DecisionFrom(judgments[..n], read, d);
      var k :| 0 <= k < n && read(judgments[..n][k]) == Some(d);
      assert judgments[..n][k] == judgments[k];
    } else {
      assert read(judgments[n]) == Some(d);
    }
  }

  /** When the reader finds a decision in every judgment, there is one
      decision per judgment. */
  lemma {:induction false} DecisionEach<J, D>(judgments: seq<J>, read: J -> Option<D>)
    requires forall k :: 0 <= k < |judgments| ==> read(judgments[k]).Some?
    ensures |Decisions(judgments, read)| == |judgments|
  {
    if judgments != [] {
      var n := |judgments| - 1;
      assert forall k :: 0 <= k < n ==> judgments[..n][k] == judgments[k];
      DecisionEach(judgments[..n], read);
    }
  }

  /** Decisions are read result by result: the decisions of two batches are
      those of each batch, in order. */
  lemma {:induction false} DecisionsAppend<J, D>(a: seq<J>, b: seq<J>, read: J -> Option<D>)
    ensures Decisions(a + b, read) == Decisions(a, read) + Decisions(b, read)
    decreases |b|
  {
    if b == [] {
      assert a + b == a;
    } else {
      var n := |b| - 1;
      assert (a + b)[..|a| + n] == a + b[..n];
      assert (a + b)[|a| + n] == b[n];
      DecisionsAppend(a, b[..n], read);
    }
  }

  /** The decisions of a batch that starts with `j`: what `j` yields, then
      the decisions of the rest. */
  lemma {:induction false} DecisionsCons<J, D>(j: J, rest: seq<J>, read: J -> Option<D>)
    ensures Decisions([j] + rest, read) == (match read(j) case Some(w) => [w] case None => []) + Decisions(rest, read)
  {
    DecisionsAppend([j], rest, read);
    assert [j][..0] == [];
  }

  /** One result as the chart reads it: the winner of its judgment, a
      missing judgment read as the empty text. */
  function ReadResult(judgment: Option<string>): (r: Option<string>)
    ensures r.Some? ==> WellShaped(r.value)
  {
    Winner(judgment.GetOr(""))
  }

  /** The decisions the winner chart counts: every one is a single token
      starting with `Solver`, and there are at most as many as results. */
  function JudgeDecisions(judgments: seq<Option<string>>): (ds: seq<string>)
    ensures |ds| <= |judgments|
    ensures forall d :: d in ds ==> WellShaped(d)
  {
    var ds := Decisions(judgments, ReadResult);
    forall d | d in ds ensures WellShaped(d) {
      DecisionFrom(judgments, ReadResult, d);
    }
    ds
  }

  /** `Counter(judge_decisions)`: how often each decision occurs. */
  function Tally(ds: seq<string>): (counts: map<string, nat>)
    ensures counts.Keys == set d | d in ds
    ensures forall d :: d in counts ==> counts[d] == multiset(ds)[d]
  {
    if ds == [] then map[]
    else
      var n := |ds| - 1;
      var m := Tally(ds[..n]);
      var d := ds[n];
      assert ds == ds[..n] + [d];
      m[d := (if d in m then m[d] else 0) + 1]
  }

  /** How often `d` was counted; zero when it never was. */
  function CountOf(counts: map<string, nat>, d: string): nat {
    if d in counts then counts[d] else 0
  }

  /** The counts of `keys` added up. */
  function SumCounts(counts: map<string, nat>, keys: seq<string>): nat {
    if keys == [] then 0 else CountOf(counts, keys[0]) + SumCounts(counts, keys[1..])
  }

  predicate Distinct(keys: seq<string>) {
    forall i, j :: 0 <= i < j < |keys| ==> keys[i] != keys[j]
  }

  lemma {:induction false} SumCountsEmpty(keys: seq<string>)
    ensures SumCounts(map[], keys) == 0
  {
    if keys != [] {
      SumCountsEmpty(keys[1..]);
    }
  }

  /** Counting `d` once more adds one to the sum over keys that list it once. */
  lemma {:induction false} SumCountsBump(counts: map<string, nat>, keys: seq<string>, d: string)
    requires Distinct(keys)
    ensures SumCounts(counts[d := CountOf(counts, d) + 1], keys)
            == SumCounts(counts, keys) + if d in keys then 1 else 0
  {
    if keys != [] {
      assert Distinct(keys[1..]) by {
        forall i, j | 0 <= i < j < |keys| - 1 ensures keys[1..][i] != keys[1..][j] {
          assert keys[1..][i] == keys[i + 1] && keys[1..][j] == keys[j + 1];
        }
      }
      SumCountsBump(counts, keys[1..], d);
      if keys[0] == d {
        assert d !in keys[1..] by {
          forall i | 0 <= i < |keys| - 1 ensures keys[1..][i] != d {
            assert keys[1..][i] == keys[i + 1];
          }
        }
      } else {
        assert d in keys ==> d in keys[1..] by {
          if d in keys {
            var i :| 0 <= i < |keys| && keys[i] == d;
            assert keys[1..][i - 1] == d;
          }
        }
      }
    }
  }

  /** The last decision adds one to its own count. */
  lemma {:induction false} TallyStep(ds: seq<string>)
    requires ds != []
    ensures var m := Tally(ds[..|ds| - 1]);
            Tally(ds) == m[ds[|ds| - 1] := CountOf(m, ds[|ds| - 1]) + 1]
  {
  }

  /** The counts add up to the number of decisions: over any list that
      names every decision exactly once, the tally sums to `|ds|`. */
  lemma {:induction false} TallySum(ds: seq<string>, keys: seq<string>)
    requires Distinct(keys)
    requires forall d :: d in ds ==> d in keys
    ensures SumCounts(Tally(ds), keys) == |ds|
  {
    if ds == [] {
      SumCountsEmpty(keys);
    } else {
      var n := |ds| - 1;
      var front := ds[..n];
      assert forall x :: x in front ==> x in ds;
      TallySum(front, keys);
      TallyStep(ds);
      SumCountsBump(Tally(front), keys, ds[n]);
    }
  }
}

=== FILE: wrappers.dfy ===
/** Failure-carrying values used throughout the model in place of Python's
    `None` returns and raised exceptions. */
module Wrappers {

  /** A value that may be absent (Python's `None`). */
  datatype Option<+T> = None | Some(value: T) {

    /** The wrapped value, or `default` when absent (Python's `d.get(k, default)`). */
    function GetOr(default: T): T {
      match this
      case Some(v) => v
      case None => default
    }
  }

  /** The outcome of an operation that can raise: a value or the error message. */
  datatype Result<+T> = Ok(value: T) | Err(error: string)
}
